=== FILE: README.md ===
# CRM data layer in Dafny

A model of the data layer of a small single-page CRM (clients, partners,
partner product catalogues, projects, follow-ups and project comments). The
application keeps one document in memory and persists it as a whole; this
model covers the pure transformations applied to that document:

- the spreadsheet import, which rebuilds the whole document from a workbook,
  and the export of the client sheet (`Spreadsheet`, from `src/App.jsx`);
- the iCalendar feed built from follow-ups (`Ics`, from `src/ics.js`);
- the reducers and selectors of the pages: products with their
  normalisation `mergeDuplicatePartners` (`Products`), clients (`Clients`),
  partners (`Partners`), follow-ups (`Followups`), projects (`Projects`) and
  the dashboard (`Dashboard`).

Shared pieces live in `Base` (options, JavaScript truthiness, filtering,
deduplication), `Strings` (trimming, lower-casing, substring search, string
order, decimal digits), `Sorting` (a stable insertion sort with its
permutation and order properties proved) and `Crm` (the document's entities).

Modelling conventions:

- A spreadsheet row is a `map<string, string>` from header to cell; a missing
  key is an absent cell (`undefined`). A cell is truthy when present and
  non-empty. Numeric cells are not modelled (see "## Left out").
- References that the import can set to `null` are `Option<string>`; the
  `String(...)` conversions the pages apply are `StringOfNullable` (`"null"`)
  and `StringOfOptional` (`"undefined"`).
- Fresh identifiers (`crypto.randomUUID()`, `Date.now()`), the clock and the
  current date are parameters. The import draws the `k`-th row's id from an
  id source `uuid(k)`.
- Every `localeCompare`, default `sort()` and string `<` is one lexicographic
  code-point order, `Strings.Less`; sorting is a stable sort by a key.

## Model

| member | source | states |
|---|---|---|
| Spreadsheet.AddRowContactAsWritten | src/App.jsx:102-116 | the contact merge as written: the list is unchanged exactly when some stored contact equals the raw cells, otherwise the row's defaulted contact is appended |
| Spreadsheet.AsWrittenStoresDuplicateContact | src/App.jsx:102-116 | importing the same row twice, with the e-mail and phone cells missing, stores the same contact twice |
| Spreadsheet.AddRowContact | src/App.jsx:102-116 | intended contact merge: the row's contact ends up present, the list only grows at its end by at most one, membership is the old contacts plus the row's, and a duplicate-free list stays duplicate-free |
| Spreadsheet.AddRowContactIdempotent | src/App.jsx:102-116 | merging the same row twice is merging it once |
| Spreadsheet.FoldRowsConcat | src/App.jsx:89 | a `forEach` over two batches of rows is the fold over the first then the second, the second drawing the following ids |
| Spreadsheet.FoldRowsInduction | src/App.jsx:89 | a property that holds initially and survives each row holds after the whole `forEach` |
| Spreadsheet.AddRowContactAgrees | src/App.jsx:102-116 | on a row carrying all three contact cells, possibly empty, the merge as written equals the intended one |
| Spreadsheet.AddRowContactSameMembers | src/App.jsx:102-116 | from lists holding the same contacts, the merge as written and the intended merge reach lists holding the same contacts: the one as written can only repeat a contact already stored |
| Spreadsheet.FoldRowsSimulate | src/App.jsx:89 | two `forEach` folds over the same rows stay related when each pair of steps keeps the relation |
| Spreadsheet.ClientStep | src/App.jsx:89-117 | one client row, contact merge as written: a blank trimmed name changes nothing; at most one client is added; stored ids, names and countries never change; a row without contact cells leaves stored clients untouched |
| Spreadsheet.ClientStepAppends | src/App.jsx:90-101 | a row adds a client exactly when its trimmed name is non-blank and matches no stored name up to case, and the new client carries the row's id (or the fresh one), name, country and, when a contact cell is filled in, the row's contact |
| Spreadsheet.ClientStepMerges | src/App.jsx:92-116 | a row whose name matches a stored client up to case only puts its contact through the merge as written into that client; every other client is untouched |
| Spreadsheet.ClientStepWellFormed | src/App.jsx:89-101 | each row keeps client names trimmed, non-blank and distinct up to case |
| Spreadsheet.ImportClientsFrom | src/App.jsx:89-117 | the import over any rows on top of existing clients keeps them in place with their ids, names and countries, and adds at most one client per row |
| Spreadsheet.ImportClientsFromWellFormed | src/App.jsx:89-117 | the client import keeps the name invariant over any number of rows |
| Spreadsheet.ImportClientsFromCovers | src/App.jsx:89-117 | every named row is represented by a client of the same name up to case, and every client created carries some row's trimmed name |
| Spreadsheet.ImportClients | src/App.jsx:87-117 | the imported client names are trimmed, non-blank and distinct up to case, every named row has a client, and every client comes from a row |
| Spreadsheet.ClientStepIntended | src/App.jsx:89-117 | the client row with the intended contact merge: names kept, at most one client added, and duplicate-free contact lists stay duplicate-free |
| Spreadsheet.ClientStepIntendedWellFormed | src/App.jsx:89-117 | the intended step keeps names well formed and every contact list duplicate-free |
| Spreadsheet.ImportClientsIntended | src/App.jsx:87-117 | the intended client import yields well-formed names and no client listing a contact twice |
| Spreadsheet.ClientIndexSameNames | src/App.jsx:92 | the name lookup depends only on the stored names |
| Spreadsheet.ClientStepsAlike | src/App.jsx:89-117 | the step as written and the intended step keep client lists alike: same ids, names and countries, same contacts up to repetition |
| Spreadsheet.ImportClientsAlike | src/App.jsx:87-117 | the client import as written differs from the intended one only in listing some contacts more than once |
| Spreadsheet.ClientStepAgrees | src/App.jsx:89-117 | on a row carrying all three contact cells, the step as written is the intended step |
| Spreadsheet.ImportClientsAgree | src/App.jsx:87-117 | when every row carries all three contact cells, as exported rows do, the client import as written is the intended one |
| Spreadsheet.PartnerStep | src/App.jsx:121-148 | one partner row, contact merge as written: a blank trimmed name changes nothing; at most one partner is added; stored ids and names never change |
| Spreadsheet.PartnerStepAppends | src/App.jsx:122-132 | a row adds a partner exactly when its trimmed name is non-blank and matches no stored name up to case, and the new partner carries the row's id (or the fresh one), name and, when a contact cell is filled in, the row's contact |
| Spreadsheet.PartnerStepMerges | src/App.jsx:124-147 | a row whose name matches a stored partner up to case only puts its contact through the merge as written into that partner |
| Spreadsheet.PartnerStepWellFormed | src/App.jsx:121-132 | each row keeps partner names trimmed, non-blank and distinct up to case |
| Spreadsheet.ImportPartnersFrom | src/App.jsx:121-148 | the partner import on top of existing partners keeps them in place with their ids and names, and adds at most one partner per row |
| Spreadsheet.ImportPartners | src/App.jsx:119-148 | the imported partner names are trimmed, non-blank and distinct up to case, every named row has a partner, and every partner comes from a row |
| Spreadsheet.PartnerStepIntendedWellFormed | src/App.jsx:121-148 | the partner step with the intended contact merge keeps names well formed and every contact list duplicate-free |
| Spreadsheet.ImportPartnersIntended | src/App.jsx:119-148 | the intended partner import yields well-formed names and no partner listing a contact twice |
| Spreadsheet.ImportPartnersAlike | src/App.jsx:119-148 | the partner import as written differs from the intended one only in listing some contacts more than once |
| Spreadsheet.ImportPartnersAgree | src/App.jsx:119-148 | when every row carries all three contact cells, the partner import as written is the intended one |
| Spreadsheet.AddItem | src/App.jsx:161 | a product is added to a group's items unless listed; membership is the old items plus the product, and items stay distinct |
| Spreadsheet.GroupIndex | src/App.jsx:156 | the position of the first group with exactly that partner value, or -1 when there is none |
| Spreadsheet.ProductStepGroupsOf | src/App.jsx:152-162 | one product row turns the reference grouping of the rows so far into the reference grouping including that row |
| Spreadsheet.ProductFoldIsGroupsOf | src/App.jsx:150-163 | the product import loop computes the reference grouping: one group per distinct partner in first-seen order with that partner's distinct products in first-seen order |
| Spreadsheet.GroupsOfShape | src/App.jsx:150-163 | imported groups have distinct partners, no id, a non-empty partner and items, distinct items that are exactly the products listed for the partner, and every complete row has its group |
| Spreadsheet.ImportProducts | src/App.jsx:150-163 | the products sheet imports to the reference grouping |
| Spreadsheet.ImportedGroupsHaveNoId | src/App.jsx:153-158 | every imported product group has no partner id and a non-empty partner name |
| Spreadsheet.ProjectOfRow | src/App.jsx:165-173 | every field is read from its cell when the cell is truthy: the id falls back to the fresh id, the client and partner references to `null`, and the name, product, start date and status to `""`; a reference is never the empty string |
| Spreadsheet.ProjectOfRowRoundTrip | src/App.jsx:165-173 | the row written from a project with an id reads back as that project |
| Spreadsheet.FollowupOfRow | src/App.jsx:175-183 | the id is the `Follow-Up ID` cell or the fresh id; the client, project and partner references are their truthy cells or `null`; the product and action default to `""`; the date is the `Next Date` cell, else the `Date` cell, else empty |
| Spreadsheet.FollowupOfRowRoundTrip | src/App.jsx:175-183 | the row written from a follow-up with an id reads back as that follow-up |
| Spreadsheet.CommentOfRow | src/App.jsx:185-191 | the id is the `Comment ID` cell or the fresh id; the project reference is its truthy cell or `null`; the kind is the `Type` cell or `note`, never empty; the text defaults to `""`; the date is the `Date` cell or today's date |
| Spreadsheet.CommentOfRowRoundTrip | src/App.jsx:185-191 | the row written from a comment with an id, kind and date reads back as that comment |
| Spreadsheet.ImportProjects | src/App.jsx:165 | one project per row, in order, the `k`-th from the `k`-th row |
| Spreadsheet.ImportFollowups | src/App.jsx:175 | one follow-up per row, in order, the `k`-th from the `k`-th row |
| Spreadsheet.ImportComments | src/App.jsx:185 | one comment per row, in order, the `k`-th from the `k`-th row |
| Spreadsheet.ImportProjectRows | src/App.jsx:165-173 | a sheet written from importable projects reads back as the same projects in the same order |
| Spreadsheet.ImportFollowupRows | src/App.jsx:175-183 | a sheet written from importable follow-ups reads back as the same follow-ups in the same order |
| Spreadsheet.ImportCommentRows | src/App.jsx:185-191 | a sheet written from importable comments reads back as the same comments in the same order |
| Spreadsheet.ClientRows | src/App.jsx:209-228 | one export row per contact in order, or a single row with empty contact cells for a client without contacts |
| Spreadsheet.ExportClients | src/App.jsx:209-229 | the export has one row per contact of every client and one for each client without contacts |
| Spreadsheet.ImportClientRows | src/App.jsx:209-228 | importing one client's export rows on top of clients with other names appends exactly that client |
| Spreadsheet.ExportImportFrom | src/App.jsx:209-229 | importing the export of well-formed clients gives them back |
| Spreadsheet.ExportImportClients | src/App.jsx:209-229 | the client sheet round trip: the same clients, in order, with the same ids, names, countries and contacts, whatever fresh ids are drawn |
| Spreadsheet.ImportWorkbook | src/App.jsx:87-200 | the import replaces the whole document: client and partner names trimmed, non-blank and distinct up to case, the reference product grouping, one project, follow-up and comment per row, all references `null` or non-empty |
| Spreadsheet.ExportWorkbook | src/App.jsx:207-231 | the exported workbook holds the client sheet only |
| Spreadsheet.ExportImportWorkbook | src/App.jsx:87-231 | re-importing the exported workbook restores the clients and empties every other collection |
| Spreadsheet.ImportEmptySheets | src/App.jsx:85 | a missing sheet imports as an empty collection |
| Ics.Pad | src/ics.js:3 | `pad` yields only digits, at least two, exactly two below 100 |
| Ics.PadReadsBack | src/ics.js:3 | the padded number reads back as the number |
| Ics.ToUtc | src/ics.js:4-16 | the UTC stamp ends in `Z` and holds no line break |
| Ics.ToUtcReadsBack | src/ics.js:4-16 | the stamp is year, month, day, `T`, hour, minute, second, each field reading back as the instant's |
| Ics.ToUtcInjective | src/ics.js:4-16 | distinct valid instants give distinct stamps |
| Ics.ToDate | src/ics.js:17-20 | the date-only value is all digits |
| Ics.ToDateReadsBack | src/ics.js:17-20 | the date-only value reads back as year, month and day |
| Ics.Escape | src/ics.js:50-56 | escaping grows the text by one character per special character and leaves no newline |
| Ics.EscapeAsWritten | src/ics.js:50-56 | the four chained replacements never shorten the text and leave no newline |
| Ics.EscapeAsWrittenIsEscape | src/ics.js:50-56 | the four chained replacements equal one left-to-right pass that escapes backslash, newline, comma and semicolon |
| Ics.UnescapeEscape | src/ics.js:50-56 | unescaping the escaped text gives the text back |
| Ics.UidsDistinct | src/ics.js:29 | two events at different positions of one feed get different UIDs |
| Ics.EventBodyProperties | src/ics.js:30-43 | an event has DTSTART, DTSTAMP and UID, DTEND exactly when it has an end, and SUMMARY, DESCRIPTION, LOCATION exactly when those are truthy |
| Ics.TimeLine | src/ics.js:31-37 | an all-day event's DTSTART or DTEND is marked `;VALUE=DATE` and carries the local calendar date; any other event's carries the UTC stamp and no parameter |
| Ics.EventBody | src/ics.js:30-43 | every event carries the feed's one DTSTAMP and its own UID, a DTSTART line with the local date (all-day) or the UTC stamp, and, when it has an end, the matching DTEND line |
| Ics.EventsLinesCount | src/ics.js:28-44 | the events part has one BEGIN:VEVENT and one END:VEVENT per event |
| Ics.CalendarEventCount | src/ics.js:22-46 | the calendar has one BEGIN:VEVENT and one END:VEVENT per event |
| Ics.CalendarLines | src/ics.js:22-47 | the feed opens with BEGIN:VCALENDAR, names the calendar in its fourth line (`Followups` when no name is given), and closes with END:VCALENDAR |
| Ics.CalendarFirstLine | src/ics.js:23 | the first line is BEGIN:VCALENDAR |
| Ics.CalendarLastLine | src/ics.js:46 | the last line is END:VCALENDAR |
| Ics.BuildIcs | src/ics.js:1-48 | the feed starts with BEGIN:VCALENDAR and ends with END:VCALENDAR, each followed by CRLF |
| Ics.SplitJoin | src/ics.js:22-47 | CRLF-terminated lines without carriage returns split back into the same lines |
| Ics.BuildIcsLines | src/ics.js:1-48 | when no value holds a carriage return, the feed splits at CRLF into exactly the calendar's content lines |
| Products.KeyIndex | src/pages/Products.jsx:31-32 | the first group with the merge key, or -1 exactly when no group has it |
| Products.Merge | src/pages/Products.jsx:28-46 | merging yields one group per distinct key of the input, in first-seen order, in merged form: keys distinct, an id on every group, items strictly sorted |
| Products.MergeFoldIsEntries | src/pages/Products.jsx:29-41 | the merge loop collects one entry per distinct key in first-seen order, each with the first group's id and name and the items of all groups of that key |
| Products.MergeShape | src/pages/Products.jsx:28-46 | merging yields one group per distinct key of the input in first-seen order, each with an id and strictly sorted items that are exactly the items of the input groups of that key |
| Products.MergedKeysDistinct | src/pages/Products.jsx:28-46 | merged groups have distinct keys |
| Products.MergeNormalised | src/pages/Products.jsx:28-46 | merged groups are in merged form |
| Products.MergeOfNormalised | src/pages/Products.jsx:28-46 | merging groups already in merged form changes nothing |
| Products.MergeIdempotent | src/pages/Products.jsx:28-46 | merging twice is merging once |
| Products.Displayed | src/pages/Products.jsx:107-109 | the page's list is the merged groups reordered by partner name |
| Products.DisplayedNormalised | src/pages/Products.jsx:107-109 | the displayed list is in merged form |
| Products.MergedListed | src/pages/Products.jsx:28-46 | merging lists an item under a key exactly when some input group of that key lists it |
| Products.DisplayedListed | src/pages/Products.jsx:107-109 | the displayed list lists an item under a key exactly when some stored group of that key lists it |
| Products.FormGroupIndex | src/pages/Products.jsx:55-59 | the first group with the form's id, or with no id and the partner's name, or -1 when there is none |
| Products.WithFormGroup | src/pages/Products.jsx:55-64 | the groups keep their prefix and gain at most a new empty group for the form's partner, and the position returned holds the form's group |
| Products.EditGroups | src/pages/Products.jsx:68-72 | editing replaces the item at the index in the first group with the edited id, when the item exists, and nothing else |
| Products.AddGroups | src/pages/Products.jsx:74-78 | adding appends the product to the form's group unless listed, keeps every item, and touches no other group |
| Products.SaveProduct | src/pages/Products.jsx:48-86 | a save without partner or product changes nothing; only the products change; an accepted save leaves them ordered by partner name |
| Products.SaveProductNormalised | src/pages/Products.jsx:80-84 | after an accepted save the products are in merged form |
| Products.AddProductLands | src/pages/Products.jsx:55-84 | adding lists the trimmed product under the form group's key and keeps every product listed before under its key |
| Products.EditProductLands | src/pages/Products.jsx:66-84 | editing lists the trimmed product under the edited group's key and keeps every other group's products |
| Products.DeleteTargetIndex | src/pages/Products.jsx:91-93 | the first group whose id equals the argument, or that has no id and whose name equals it, or -1 |
| Products.RemoveItem | src/pages/Products.jsx:94-97 | the item is removed from the group, and the group is dropped when no item is left |
| Products.DeleteProductAsWritten | src/pages/Products.jsx:88-99 | deletion as written: the first matching stored group loses the item, and the groups are then merged |
| Products.DeleteAsWrittenOnFreshImport | src/pages/Products.jsx:88-99 | on groups straight from the import, which carry no id, a delete finds no target: nothing is deleted and the groups are only stored in merged form, each with the id `""` |
| Products.DeleteAsWrittenHitsOtherPartner | src/pages/Products.jsx:88-99 | with two imported partners `a`, `b` whose groups are already stored in merged form (id `""`, as after any save or delete on the page), deleting `b`'s product deletes `a`'s product and group and leaves `b` unchanged |
| Products.DeleteAsWrittenFreshThenAgain | src/pages/Products.jsx:88-99 | straight after the import, the first delete of `b`'s product deletes nothing and the second deletes `a`'s product and group |
| Products.DeleteProduct | src/pages/Products.jsx:88-99 | intended deletion: the displayed group of the key loses the item at the index, and is dropped when it was its last |
| Products.DeleteProductRemoves | src/pages/Products.jsx:88-99 | the intended deletion removes exactly that item from that key, keeps every other displayed group, and leaves merged form |
| Clients.Countries | src/pages/Clients.jsx:28 | the country choices are strictly sorted and are exactly the non-empty countries of the clients |
| Clients.FilteredClients | src/pages/Clients.jsx:30-36 | the list is ordered by name and holds each client passing both filters as often as stored, and no other |
| Clients.FilteredClientsMembers | src/pages/Clients.jsx:30-36 | a client is listed exactly when it is stored and passes both filters |
| Clients.AddClient | src/pages/Clients.jsx:38-59 | a blank name or a name taken up to case changes nothing; otherwise one client with the trimmed name and country and the form's contact is appended |
| Clients.AddClientKeepsNamesDistinct | src/pages/Clients.jsx:38-59 | adding keeps client names distinct up to case |
| Clients.AddClientTwice | src/pages/Clients.jsx:40-43 | submitting the same form twice adds one client |
| Clients.SaveEdit | src/pages/Clients.jsx:81-94 | the edited contact becomes the trimmed edit; every other client and contact, and every id, name and country, is kept |
| Clients.SaveEditIdempotent | src/pages/Clients.jsx:81-94 | saving the same edit twice is saving it once |
| Clients.DeleteContact | src/pages/Clients.jsx:96-109 | after deleting, every client has a contact, a client survives exactly when it still has one, and every survivor is an input client |
| Clients.DeleteNonLastContact | src/pages/Clients.jsx:96-105 | deleting one of several contacts keeps the client with exactly that contact gone |
| Clients.DeleteContactOthers | src/pages/Clients.jsx:98-105 | any other client survives exactly when it has a contact |
| Clients.DeleteContactKeepsNamesDistinct | src/pages/Clients.jsx:96-109 | deleting keeps client names distinct up to case |
| Partners.SortedPartners | src/pages/Partners.jsx:28-30 | the partners ordered by name, each as often as stored |
| Partners.NameIndex | src/pages/Partners.jsx:36 | the first partner whose trimmed name is the row's trimmed name, case-sensitively, or -1 |
| Partners.WithPartner | src/pages/Partners.jsx:36-48 | the partner named by the row is found, or appended with the fresh id and no contacts |
| Partners.Upserted | src/pages/Partners.jsx:35-66 | before sorting: one partner more exactly when none had the name, ids and names kept, the new partner named by the trimmed row |
| Partners.SavePartner | src/pages/Partners.jsx:32-73 | a blank name changes nothing; otherwise the updated partners are stored ordered by name |
| Partners.AddContactLands | src/pages/Partners.jsx:60-66 | in add mode the row's contact is appended to the named partner only, or a new partner is created with that one contact |
| Partners.EditContactOf | src/pages/Partners.jsx:50-58 | editing a contact keeps every partner's id and name and touches no partner but the first with the edited id |
| Partners.EditContactLands | src/pages/Partners.jsx:50-58 | in edit mode the edited contact of the first partner with the edited id is replaced and nothing else |
| Partners.SavedPartnerNamed | src/pages/Partners.jsx:32-73 | after saving, some partner carries the row's trimmed name |
| Partners.SaveTwiceAddsOnePartner | src/pages/Partners.jsx:36-48 | saving the same row twice in add mode creates at most one partner |
| Partners.WithoutIndexIsRemoveAt | src/pages/Partners.jsx:79 | filtering out position `index` removes exactly that element |
| Partners.DeleteContact | src/pages/Partners.jsx:75-83 | only the target partner's contacts change, and no partner is removed |
| Partners.DeleteContactRemoves | src/pages/Partners.jsx:77-81 | the target partner loses exactly the contact at the index |
| Followups.ProjectClientIds | src/pages/Followups.jsx:21-23 | the stringified client ids of the projects, each once |
| Followups.ClientsInProjects | src/pages/Followups.jsx:24-26 | the clients some project refers to, ordered by name, each as often as stored |
| Followups.ClientsInProjectsMembers | src/pages/Followups.jsx:24-26 | a client is offered exactly when it is stored and some project refers to it |
| Crm.PartnerNameOf | src/pages/Followups.jsx:30-32 | the name of the first partner with the id, or empty |
| Followups.PartnerProducts | src/pages/Followups.jsx:34-39 | the items of the first group whose id or partner name is the selected partner's, or none |
| Followups.AllProducts | src/pages/Followups.jsx:41-43 | every group's items, strictly sorted, and nothing else |
| Followups.DisplayedProductsAsWritten | src/pages/Followups.jsx:45-46 | the choices as written: the partner's items when there are some, otherwise every product |
| Followups.DisplayedAsWrittenWithoutPartner | src/pages/Followups.jsx:34-46 | with no partner selected and a merged imported group listed first, the choices are that group's items only and miss another group's product |
| Followups.DisplayedProducts | src/pages/Followups.jsx:34-46 | intended choices: every product while no partner is selected, otherwise as written |
| Followups.DisplayedProductsOffered | src/pages/Followups.jsx:34-46 | every choice is some group's item, and with no partner selected every group's item is a choice |
| Followups.SaveFollowup | src/pages/Followups.jsx:49-92 | an incomplete row changes nothing; editing overwrites the fields of the first follow-up with the id and keeps every id; adding appends one follow-up with the fresh id |
| Followups.DeleteFollowup | src/pages/Followups.jsx:108-112 | every follow-up with the id goes and every other stays, as often as stored |
| Followups.DeleteUndoesAdd | src/pages/Followups.jsx:67-112 | deleting the follow-up just added under an unused id restores the list |
| Followups.SortedFollowups | src/pages/Followups.jsx:127-133 | the follow-ups passing both filters ordered by date, each as often as stored |
| Followups.ClientGroups | src/pages/Followups.jsx:136-140 | each offered client with its listed follow-ups |
| Followups.Grouped | src/pages/Followups.jsx:136-141 | every group is non-empty and belongs to an offered client, holding only that client's listed follow-ups; every offered client with follow-ups has its group |
| Followups.GroupedCovers | src/pages/Followups.jsx:127-141 | a follow-up passing the filters whose client some project refers to is listed in that client's group |
| Projects.IdIndex | src/pages/Projects.jsx:51 | the first project with the id, or -1 exactly when there is none |
| Projects.SaveProject | src/pages/Projects.jsx:44-76 | a blank name or missing client changes nothing; editing overlays the row on the first project with the id and keeps every id; adding appends one project with the fresh id |
| Projects.AddKeepsIdsDistinct | src/pages/Projects.jsx:55-64 | adding under an unused id keeps ids distinct |
| Projects.DeleteProject | src/pages/Projects.jsx:85-88 | every project with the id goes and every other stays, as often as stored |
| Projects.DeleteUndoesAdd | src/pages/Projects.jsx:55-88 | deleting the project just added under an unused id restores the list |
| Projects.DeleteProjectIn | src/pages/Projects.jsx:85-88 | deleting a project changes only the project list |
| Projects.DeleteLeavesFollowupsDangling | src/pages/Projects.jsx:85-88 | a follow-up of the deleted project keeps referring to a project that is gone |
| Projects.SortedProjects | src/pages/Projects.jsx:102-104 | the projects ordered by name, each as often as stored |
| Dashboard.DotColor | src/pages/Dashboard.jsx:28-34 | grey exactly without a date, red exactly before today, amber exactly on today, green exactly after |
| Dashboard.OverdueStaysOverdue | src/pages/Dashboard.jsx:28-34 | an overdue date stays overdue on any later day |
| Dashboard.DueNeverTurnsGreen | src/pages/Dashboard.jsx:28-34 | a date due or overdue never turns green later |
| Dashboard.AllClients | src/pages/Dashboard.jsx:36-40 | the clients with a follow-up, ordered by name, each as often as stored |
| Dashboard.Upcoming | src/pages/Dashboard.jsx:47-54 | the dated follow-ups passing both filters ordered by date, each as often as stored |
| Dashboard.UpcomingIsDatedFollowups | src/pages/Dashboard.jsx:47-54 | the dashboard lists the dated part of what the follow-ups page lists under the same filters |
| Dashboard.UpcomingHaveColour | src/pages/Dashboard.jsx:47-54 | no listed follow-up shows the grey dot |
| Strings.TrimIdempotent | src/pages/Clients.jsx:39 | trimming a trimmed string changes nothing |
| Strings.ToLowerIdempotent | src/pages/Clients.jsx:41 | lower-casing twice is lower-casing once |
| Strings.ParseNatToString | src/ics.js:3 | a number's decimal digits read back as the number |
| Sorting.SortBy | src/pages/Projects.jsx:102-104 | the sort by a key returns a permutation of its input ordered by the key |
| Sorting.SortByOfSorted | src/pages/Products.jsx:80-82 | sorting a sequence already in key order changes nothing |
| Sorting.StrictlySortedUnique | src/pages/Clients.jsx:28 | two strictly sorted sequences with the same members are equal |
| Base.Filter | src/pages/Projects.jsx:87 | `filter` keeps exactly the passing elements, each as often as stored |
| Base.FilterDropsLast | src/pages/Projects.jsx:87 | filtering out a last element that fails, after elements that pass, gives those elements back |
| Base.DedupOfNoDup | src/pages/Products.jsx:44 | removing duplicates from a duplicate-free sequence changes nothing |

## Left out

- The XLSX reading and writing, the file picker, `alert`, `confirm` and
  every piece of UI state (`setForm`, `setEditing`, `openMap`, edit keys);
  the model starts from the rows a sheet yields and ends at the document.
- Fresh ids, the clock and today's date are parameters: `randomUUID`,
  `Date.now()` and `new Date()` are not modelled.
- Time zones: `Ics.ToUtc` and `Ics.ToDate` take the calendar fields as the
  UTC and the local zone see them; parsing a date string into an instant
  is not modelled.
- `localeCompare` is replaced by code-point order, and `toLowerCase` only
  folds ASCII letters.
- Followups.SortedFollowups: ordering by `new Date(nextDate)` is modelled
  as string order of the dates, which agrees for ISO dates; invalid dates,
  whose comparator yields `NaN`, are not modelled.
- Dashboard.Upcoming: the same date-order simplification.
- Spreadsheet.ImportClients: no longer promises that a client lists each
  contact once, because the merge as written can store a contact twice
  (see Findings); that promise is made by `Spreadsheet.ImportClientsIntended`,
  and `Spreadsheet.ImportClientsAlike` bounds the difference to repetitions.
- Spreadsheet.ImportPartners: the same, with
  `Spreadsheet.ImportPartnersIntended`.
- Spreadsheet.ImportWorkbook: promises well-formed client and partner names
  only, for the same reason.
- Products.Merge: `Object.values` lists integer-like keys first in
  ascending order; the model keeps insertion order for every key. The
  groups are collected in a plain object (src/pages/Products.jsx:29-39), so
  a key naming an `Object.prototype` property (`constructor`, `toString`,
  `valueOf`, `hasOwnProperty`, `__proto__`, ...) looks already present the
  first time it is seen. The source then calls `push` on its missing
  `items` and throws, on every render, save and delete of the products page.
  The model merges such a key like any other.
- Spreadsheet.ImportWorkbook reads every cell as text. `sheet_to_json`
  (src/App.jsx:85) yields numbers for numeric cells. On those the source
  throws at the `.trim()` of a numeric client or partner name
  (src/App.jsx:90, 122). It stores numeric contact fields and products as
  numbers (src/App.jsx:111-113, 142-144, 154-161), and a numeric product
  later breaks the `localeCompare` sort of the products page. Only the
  `String(...)` conversions of ids (src/App.jsx:95, 127, 166-187) handle
  numbers, and on text cells they change nothing.
- Clients.SaveEdit: an index past the end of the contacts leaves the list
  unchanged, where JavaScript would grow the array with holes; the same holds
  for `Partners.EditContactOf`.
- Partners.SavePartner: the source mutates contact lists shared with the
  previous document; only the new document is modelled.
- The dashboard's `allPartners` is the same sort as
  `Partners.SortedPartners` and is not modelled separately; its project map
  (`src/pages/Dashboard.jsx` lines 21-26) is a lookup table with no logic.
- The export writes the client sheet only (src/App.jsx:207-231); the
  other collections are not exported, and the model exports none of them.
- The import keeps each partner's products in first-seen order
  (src/App.jsx:161); the model does not sort them.
- `src/store.js` and `src/components/` are not part of this model.

## Findings

| source | as written | input that shows it | evidently intended | confidence | as-written member | corrected member |
|---|---|---|---|---|---|---|
| src/App.jsx:102-116 | the duplicate check compares the raw cells, which are `undefined` when missing, with the stored contact, whose missing fields were defaulted to `""` | two rows for client `Acme` with `Contact Person` `Jo` and no e-mail or phone cells | the row's contact, defaulted as it is stored, is added only when no equal contact is stored | high, not executed | Spreadsheet.AsWrittenStoresDuplicateContact | Spreadsheet.ImportClientsIntended |
| src/pages/Products.jsx:88-98 | the delete button passes the displayed group's `partnerId`, which is `""` for every imported group, and the lookup matches the first stored group with id `""`; groups straight from the import carry no id at all, so there the first delete matches nothing and only stores the groups in merged form | two imported partners `a` before `b`, one product each, whose groups are stored in merged form (by any earlier save or delete on the products page); delete `b`'s product | the product of the clicked group is deleted | high, not executed | Products.DeleteAsWrittenHitsOtherPartner | Products.DeleteProductRemoves |
| src/pages/Followups.jsx:34-46 | with no partner selected the id compared is `""`, which matches the first merged imported group, so its items replace the full product list | products merged from an import, no partner selected | every product is offered while no partner is selected | medium, not executed | Followups.DisplayedAsWrittenWithoutPartner | Followups.DisplayedProductsOffered |

=== FILE: base.dfy ===
/** Small building blocks shared by the whole model: optional values for
    spreadsheet cells and nullable references, JavaScript truthiness of a
    string cell, and the sequence helpers the page components lean on
    (`find`, `filter`, `new Set(...)`). */
module Base {

  /** A value that may be missing: an absent spreadsheet cell, a `null`
      reference, or an object property that was never set. */
  datatype Option<+T> = None | Some(value: T)

  /** JavaScript truthiness of an optional string: present and non-empty. */
  predicate Truthy(o: Option<string>) {
    o.Some? && o.value != ""
  }

  /** The idiom `cell || fallback`. */
  function OrElse(o: Option<string>, fallback: string): string {
    if Truthy(o) then o.value else fallback
  }

  /** The idiom `s || fallback` on a plain string. */
  function OrDefault(s: string, fallback: string): string {
    if s != "" then s else fallback
  }

  /** `String(x)` of a reference that the spreadsheet import may leave `null`. */
  function StringOfNullable(o: Option<string>): string {
    match o
    case None => "null"
    case Some(s) => s
  }

  /** `String(x)` of an object property that may never have been set. */
  function StringOfOptional(o: Option<string>): string {
    match o
    case None => "undefined"
    case Some(s) => s
  }

  /** No element occurs twice. */
  predicate NoDup<T(==)>(s: seq<T>) {
    forall i, j :: 0 <= i < j < |s| ==> s[i] != s[j]
  }

  /** `Array.prototype.findIndex`: the first position whose element satisfies
      `p`, or -1 when there is none. */
  function FirstIndex<T>(s: seq<T>, p: T -> bool): (i: int)
    ensures -1 <= i < |s|
    ensures 0 <= i ==> p(s[i]) && forall j :: 0 <= j < i ==> !p(s[j])
    ensures i == -1 <==> forall j :: 0 <= j < |s| ==> !p(s[j])
    decreases |s|
  {
    if |s| == 0 then -1
    else if p(s[0]) then 0
    else
      var k := FirstIndex(s[1..], p);
      if k == -1 then -1 else k + 1
  }

  /** `Array.prototype.filter`: keeps, in order, the elements satisfying `p`.
      Every element keeps its multiplicity when it passes and vanishes when
      it does not. */
  function Filter<T(!new)>(s: seq<T>, p: T -> bool): (r: seq<T>)
    ensures |r| <= |s|
    ensures forall x :: multiset(r)[x] == if p(x) then multiset(s)[x] else 0
    ensures forall x :: x in r <==> x in s && p(x)
    decreases |s|
  {
    if |s| == 0 then []
    else
      var rest := Filter(s[1..], p);
      assert s == [s[0]] + s[1..];
      if p(s[0]) then [s[0]] + rest else rest
  }

  /** Filtering a sequence whose elements all pass, extended by one that
      fails, gives back the sequence. */
  lemma {:induction false} FilterDropsLast<T(!new)>(s: seq<T>, x: T, p: T -> bool)
    requires forall j :: 0 <= j < |s| ==> p(s[j])
    requires !p(x)
    ensures Filter(s + [x], p) == s
    decreases |s|
  {
    var t := s + [x];
    if |s| == 0 {
      assert t == [x] && t[1..] == [];
    } else {
      assert t[0] == s[0] && t[1..] == s[1..] + [x];
      FilterDropsLast(s[1..], x, p);
      assert Filter(t, p) == [s[0]] + s[1..];
      assert s == [s[0]] + s[1..];
    }
  }

  /** `[...new Set(s)]`: the distinct elements of `s` in first-seen order. */
  function Dedup<T(==,!new)>(s: seq<T>): (r: seq<T>)
    ensures NoDup(r)
    ensures forall x :: x in r <==> x in s
    ensures |r| <= |s|
    decreases |s|
  {
    if |s| == 0 then []
    else
      var d := Dedup(s[..|s| - 1]);
      assert forall x :: x in s <==> x in s[..|s| - 1] || x == s[|s| - 1];
      if s[|s| - 1] in d then d else d + [s[|s| - 1]]
  }

  /** Removing duplicates from a sequence that has none changes nothing. */
  lemma {:induction false} DedupOfNoDup<T(!new)>(s: seq<T>)
    requires NoDup(s)
    ensures Dedup(s) == s
    decreases |s|
  {
    if |s| > 0 {
      var init := s[..|s| - 1];
      assert NoDup(init);
      DedupOfNoDup(init);
      assert s[|s| - 1] !in init;
      assert s == init + [s[|s| - 1]];
    }
  }

  /** The unfolding of `Dedup` on a sequence extended by one element. */
  lemma DedupSnoc<T(!new)>(s: seq<T>, x: T)
    ensures Dedup(s + [x]) == if x in Dedup(s) then Dedup(s) else Dedup(s) + [x]
  {
    assert (s + [x])[..|s + [x]| - 1] == s;
  }

  /** `Array.prototype.flat()` on a sequence of sequences. */
  function Flatten<T(!new)>(ss: seq<seq<T>>): (r: seq<T>)
    ensures forall x :: x in r <==> exists i :: 0 <= i < |ss| && x in ss[i]
    decreases |ss|
  {
    if |ss| == 0 then []
    else
      var rest := Flatten(ss[1..]);
      assert forall i :: 1 <= i < |ss| ==> ss[i] == ss[1..][i - 1];
      assert forall x :: x in rest ==> exists i :: 0 <= i < |ss| && x in ss[i];
      ss[0] + rest
  }

  /** `splice(idx, 1)`: removes the element at `idx`; an index past the end
      removes nothing. */
  function RemoveAt<T>(s: seq<T>, idx: nat): (r: seq<T>)
    ensures idx < |s| ==> |r| == |s| - 1
    ensures idx < |s| ==> forall j :: 0 <= j < |r| ==> r[j] == if j < idx then s[j] else s[j + 1]
    ensures idx >= |s| ==> r == s
  {
    if idx < |s| then s[..idx] + s[idx + 1..] else s
  }

  /** `s[idx] = v` on an index the caller only ever takes from the list
      itself; an index past the end leaves the list unchanged here. */
  function SetAt<T>(s: seq<T>, idx: nat, v: T): seq<T> {
    if idx < |s| then s[idx := v] else s
  }

  /** Number of occurrences of `x`. */
  function Count<T(==)>(s: seq<T>, x: T): nat
    decreases |s|
  {
    if |s| == 0 then 0 else (if s[0] == x then 1 else 0) + Count(s[1..], x)
  }

  /** Counting distributes over concatenation. */
  lemma {:induction false} CountConcat<T>(a: seq<T>, b: seq<T>, x: T)
    ensures Count(a + b, x) == Count(a, x) + Count(b, x)
    decreases |a|
  {
    if |a| > 0 {
      assert (a + b)[1..] == a[1..] + b;
      CountConcat(a[1..], b, x);
    } else {
      assert a + b == b;
    }
  }

  /** An element that does not occur is counted zero times. */
  lemma {:induction false} CountAbsent<T>(s: seq<T>, x: T)
    requires x !in s
    ensures Count(s, x) == 0
    decreases |s|
  {
    if |s| > 0 {
      CountAbsent(s[1..], x);
    }
  }
}

=== FILE: clients.dfy ===
/** The clients page: adding a client, editing and deleting its contacts,
    and the country and search selectors over the client list. */
module Clients {
  import opened Base
  import opened Strings
  import opened Sorting
  import opened Crm

  // ------------------------------------------------------------ selectors

  /** The country of every client, in list order. */
  function CountriesOf(cs: seq<Client>): (r: seq<string>)
    ensures |r| == |cs|
    ensures forall i :: 0 <= i < |cs| ==> r[i] == cs[i].country
  {
    seq(|cs|, i requires 0 <= i < |cs| => cs[i].country)
  }

  function NonEmpty(s: string): bool {
    s != ""
  }

  /** The country filter's choices: the non-empty countries of the clients,
      each once, in string order. */
  function Countries(cs: seq<Client>): (r: seq<string>)
    ensures StrictlySorted(r)
    ensures forall x :: x in r <==> x != "" && exists i :: 0 <= i < |cs| && cs[i].country == x
  {
    var present := Filter(CountriesOf(cs), NonEmpty);
    SortDistinctStrings(Dedup(present));
    SortStrings(Dedup(present))
  }

  /** An empty country filter lets every client through. */
  predicate CountryMatches(c: Client, country: string) {
    country == "" || c.country == country
  }

  /** The search string occurs, ignoring case, in the name or the country. */
  predicate SearchMatches(c: Client, search: string) {
    Includes(ToLower(c.name), ToLower(search)) || Includes(ToLower(c.country), ToLower(search))
  }

  /** The filters' meaning: the country filter is empty or equal to the
      client's country, and the lower-cased search string occurs at some
      position of the lower-cased name or country. */
  ghost predicate Shown(c: Client, country: string, search: string) {
    && CountryMatches(c, country)
    && ((exists i :: OccursAt(ToLower(c.name), ToLower(search), i))
        || (exists i :: OccursAt(ToLower(c.country), ToLower(search), i)))
  }

  /** The clients the page lists: those passing both filters, ordered by
      name. The result is exactly the matching clients, each as often as in
      the input. */
  function FilteredClients(cs: seq<Client>, country: string, search: string): (r: seq<Client>)
    ensures SortedBy(r, ClientName)
    ensures forall c :: multiset(r)[c] == if Shown(c, country, search) then multiset(cs)[c] else 0
  {
    var byCountry := Filter(cs, c => CountryMatches(c, country));
    var bySearch := Filter(byCountry, c => SearchMatches(c, search));
    SortBy(bySearch, ClientName)
  }

  /** Every listed client passes both filters, and every client passing
      them is listed. */
  lemma FilteredClientsMembers(cs: seq<Client>, country: string, search: string, c: Client)
    ensures c in FilteredClients(cs, country, search) <==> c in cs && Shown(c, country, search)
  {
    var r := FilteredClients(cs, country, search);
    assert c in r <==> c in multiset(r);
    assert c in cs <==> c in multiset(cs);
  }

  // --------------------------------------------------------------- adding

  /** The add row's inputs. */
  datatype ClientForm = ClientForm(name: string, country: string, contact: string, email: string, phone: string)

  /** Some existing client's lower-cased name is the lower-cased trimmed
      input. */
  predicate NameTaken(cs: seq<Client>, name: string) {
    exists i :: 0 <= i < |cs| && NameKey(cs[i].name) == NameKey(Trim(name))
  }

  /** `addClient`: a client named by the trimmed input, with the trimmed
      country and the form's one contact, is appended; an empty name or a
      name already taken up to case leaves the list as it was. `id` stands
      for the `"client-" + Date.now()` the page generates. */
  function AddClient(cs: seq<Client>, form: ClientForm, id: string): (r: seq<Client>)
    ensures Trim(form.name) == "" ==> r == cs
    ensures NameTaken(cs, form.name) ==> r == cs
    ensures Trim(form.name) != "" && !NameTaken(cs, form.name) ==>
      && |r| == |cs| + 1 && r[..|cs|] == cs
      && r[|cs|].id == id && r[|cs|].name == Trim(form.name) && r[|cs|].country == Trim(form.country)
      && r[|cs|].contacts == [Contact(form.contact, form.email, form.phone)]
  {
    var name := Trim(form.name);
    if name == "" then cs
    else if FirstIndex(cs, (c: Client) => NameKey(c.name) == NameKey(name)) >= 0 then cs
    else cs + [Client(id, name, Trim(form.country), [Contact(form.contact, form.email, form.phone)])]
  }

  /** Adding keeps client names distinct up to case. */
  lemma AddClientKeepsNamesDistinct(cs: seq<Client>, form: ClientForm, id: string)
    requires DistinctClientNames(cs)
    ensures DistinctClientNames(AddClient(cs, form, id))
  {
  }

  /** Submitting the same form again adds nothing: the client it added
      already holds the name. */
  lemma AddClientTwice(cs: seq<Client>, form: ClientForm, id: string, id': string)
    ensures AddClient(AddClient(cs, form, id), form, id') == AddClient(cs, form, id)
  {
    var r := AddClient(cs, form, id);
    if Trim(form.name) != "" && !NameTaken(cs, form.name) {
      assert NameKey(r[|cs|].name) == NameKey(Trim(form.name));
      assert NameTaken(r, form.name);
    }
  }

  // -------------------------------------------------------------- editing

  /** The contact as saved: each field trimmed. */
  function TrimContact(ct: Contact): Contact {
    Contact(Trim(ct.contact), Trim(ct.email), Trim(ct.phone))
  }

  function EditClient(c: Client, clientId: string, idx: nat, edit: Contact): Client {
    if c.id != clientId then c else c.(contacts := SetAt(c.contacts, idx, TrimContact(edit)))
  }

  /** `saveEdit(clientId, idx)`: contact `idx` of the client with `clientId`
      becomes the trimmed edit; every other client and contact is kept. */
  function SaveEdit(cs: seq<Client>, clientId: string, idx: nat, edit: Contact): (r: seq<Client>)
    ensures |r| == |cs|
    ensures forall i :: 0 <= i < |cs| ==> r[i].id == cs[i].id && r[i].name == cs[i].name && r[i].country == cs[i].country
    ensures forall i :: 0 <= i < |cs| && cs[i].id != clientId ==> r[i] == cs[i]
    ensures forall i :: 0 <= i < |cs| && cs[i].id == clientId ==>
      && |r[i].contacts| == |cs[i].contacts|
      && (idx < |cs[i].contacts| ==> r[i].contacts[idx] == TrimContact(edit))
      && forall k :: 0 <= k < |cs[i].contacts| && k != idx ==> r[i].contacts[k] == cs[i].contacts[k]
  {
    seq(|cs|, i requires 0 <= i < |cs| => EditClient(cs[i], clientId, idx, edit))
  }

  /** Saving the same edit twice is saving it once. */
  lemma {:induction false} SaveEditIdempotent(cs: seq<Client>, clientId: string, idx: nat, edit: Contact)
    ensures SaveEdit(SaveEdit(cs, clientId, idx, edit), clientId, idx, edit) == SaveEdit(cs, clientId, idx, edit)
  {
    var r := SaveEdit(cs, clientId, idx, edit);
    var r2 := SaveEdit(r, clientId, idx, edit);
    forall i | 0 <= i < |cs|
      ensures r2[i] == r[i]
    {
      if cs[i].id == clientId {
        assert r2[i].contacts == r[i].contacts;
      }
    }
  }

  // ------------------------------------------------------------- deleting

  function DropContact(c: Client, clientId: string, idx: nat): Client {
    if c.id != clientId then c else c.(contacts := RemoveAt(c.contacts, idx))
  }

  /** The clients after the splice, before the empty ones are dropped. */
  function DropContacts(cs: seq<Client>, clientId: string, idx: nat): (r: seq<Client>)
    ensures |r| == |cs|
    ensures forall i :: 0 <= i < |cs| ==> r[i] == DropContact(cs[i], clientId, idx)
  {
    seq(|cs|, i requires 0 <= i < |cs| => DropContact(cs[i], clientId, idx))
  }

  function HasContacts(c: Client): bool {
    |c.contacts| > 0
  }

  /** `deleteContact(clientId, idx)`: contact `idx` of the client with
      `clientId` is removed, and then every client left without contacts,
      whichever it is, is removed. */
  function DeleteContact(cs: seq<Client>, clientId: string, idx: nat): (r: seq<Client>)
    ensures forall c :: c in r ==> |c.contacts| > 0
    ensures forall i :: 0 <= i < |cs| ==>
      (DropContact(cs[i], clientId, idx) in r <==> |DropContact(cs[i], clientId, idx).contacts| > 0)
    ensures forall c :: c in r ==> exists i :: 0 <= i < |cs| && c == DropContact(cs[i], clientId, idx)
  {
    var dropped := DropContacts(cs, clientId, idx);
    Filter(dropped, HasContacts)
  }

  /** Deleting a contact of a client that has others keeps the client, with
      exactly that contact gone. */
  lemma DeleteNonLastContact(cs: seq<Client>, clientId: string, idx: nat, i: nat)
    requires i < |cs| && cs[i].id == clientId && idx < |cs[i].contacts| && |cs[i].contacts| > 1
    ensures var c := cs[i].(contacts := RemoveAt(cs[i].contacts, idx));
      && c in DeleteContact(cs, clientId, idx)
      && |c.contacts| == |cs[i].contacts| - 1
  {
  }

  /** A client other than the edited one survives exactly when it had a
      contact. */
  lemma DeleteContactOthers(cs: seq<Client>, clientId: string, idx: nat, i: nat)
    requires i < |cs| && cs[i].id != clientId
    ensures cs[i] in DeleteContact(cs, clientId, idx) <==> |cs[i].contacts| > 0
  {
  }

  /** Deleting keeps client names distinct up to case. */
  lemma DeleteContactKeepsNamesDistinct(cs: seq<Client>, clientId: string, idx: nat)
    requires DistinctClientNames(cs)
    ensures DistinctClientNames(DeleteContact(cs, clientId, idx))
  {
    var d := DropContacts(cs, clientId, idx);
    var r := DeleteContact(cs, clientId, idx);
    assert DistinctClientNames(d);
    forall a, b | 0 <= a < b < |r|
      ensures NameKey(r[a].name) != NameKey(r[b].name)
    {
      assert r[a] in r && r[b] in r;
      var i :| 0 <= i < |cs| && r[a] == DropContact(cs[i], clientId, idx);
      var j :| 0 <= j < |cs| && r[b] == DropContact(cs[j], clientId, idx);
      if i == j {
        RepeatedMultiplicity(r, a, b);
        assert NoDup(d);
        NoDupMultiplicity(d, r[a]);
        assert false;
      } else {
        assert NameKey(d[i].name) != NameKey(d[j].name);
      }
    }
  }
}

=== FILE: crm.dfy ===
/** The CRM document: one immutable value holding every collection the
    application persists as a single JSON file. */
module Crm {
  import opened Base
  import opened Strings

  /** A person reachable at a client or partner. It has no identity of its
      own: it is addressed by its position in its owner's list. */
  datatype Contact = Contact(contact: string, email: string, phone: string)

  datatype Client = Client(id: string, name: string, country: string, contacts: seq<Contact>)

  datatype Partner = Partner(id: string, name: string, contacts: seq<Contact>)

  /** The products one partner offers. Groups made by the spreadsheet import
      carry only the partner's name, so `partnerId` is `None` there; groups
      written by the products page always carry the property, possibly empty. */
  datatype ProductGroup = ProductGroup(partnerId: Option<string>, partner: string, items: seq<string>)

  /** `clientId` and `partnerId` are `None` for the `null` the import writes
      when the cell is missing. */
  datatype Project = Project(
    id: string,
    name: string,
    clientId: Option<string>,
    partnerId: Option<string>,
    productId: string,
    startDate: string,
    status: string)

  /** A reminder to act on a client by `nextDate` (an ISO `YYYY-MM-DD` date). */
  datatype Followup = Followup(
    id: string,
    clientId: Option<string>,
    projectId: Option<string>,
    partnerId: Option<string>,
    productId: string,
    nextDate: string,
    action: string)

  /** `kind` is the source's `type` property (note, call, email, ...). */
  datatype ProjectComment = ProjectComment(id: string, projectId: Option<string>, kind: string, text: string, date: string)

  datatype Document = Document(
    clients: seq<Client>,
    partners: seq<Partner>,
    products: seq<ProductGroup>,
    projects: seq<Project>,
    followups: seq<Followup>,
    projectComments: seq<ProjectComment>)

  /** Sort keys: the name or date each list is ordered by on screen. */
  function ClientName(c: Client): string { c.name }
  function PartnerName(p: Partner): string { p.name }
  function ProjectName(p: Project): string { p.name }
  function GroupPartner(g: ProductGroup): string { g.partner }
  function FollowupDate(f: Followup): string { f.nextDate }

  /** The case-insensitive key clients are deduplicated on. */
  function NameKey(name: string): string {
    ToLower(name)
  }

  /** No two clients share a name up to case. */
  predicate DistinctClientNames(cs: seq<Client>) {
    forall i, j :: 0 <= i < j < |cs| ==> NameKey(cs[i].name) != NameKey(cs[j].name)
  }

  predicate DistinctPartnerNames(ps: seq<Partner>) {
    forall i, j :: 0 <= i < j < |ps| ==> NameKey(ps[i].name) != NameKey(ps[j].name)
  }

  /** The name of the first partner with id `id`, or `""` when no partner
      has it; both the products page and the follow-ups page label the
      selected partner this way. */
  function PartnerNameOf(partners: seq<Partner>, id: string): (r: string)
    ensures FirstIndex(partners, (p: Partner) => p.id == id) >= 0 ==>
      r == partners[FirstIndex(partners, (p: Partner) => p.id == id)].name
    ensures FirstIndex(partners, (p: Partner) => p.id == id) == -1 ==> r == ""
  {
    var i := FirstIndex(partners, (p: Partner) => p.id == id);
    if i == -1 then "" else partners[i].name
  }
}

=== FILE: dashboard.dfy ===
/** The dashboard: the due-status colour of a follow-up date, the clients
    that have follow-ups, and the upcoming follow-ups ordered by date. */
module Dashboard {
  import opened Base
  import opened Strings
  import opened Sorting
  import opened Crm
  import Followups

  const Grey := "#777"
  const Red := "#F44336"
  const Amber := "#FFC107"
  const Green := "#4CAF50"

  /** `getDotColor(date)` with `today` (the current UTC date as
      `YYYY-MM-DD`) passed in: grey without a date, red before today, amber
      on today, green after; dates compare as strings. */
  function DotColor(date: string, today: string): (r: string)
    ensures r == Grey <==> date == ""
    ensures r == Red <==> date != "" && Less(date, today)
    ensures r == Amber <==> date != "" && date == today
    ensures r == Green <==> date != "" && Less(today, date)
  {
    LessIrreflexive(date);
    LessAsymmetric(date, today);
    LessTotal(date, today);
    if date == "" then Grey
    else if Less(date, today) then Red
    else if date == today then Amber
    else Green
  }

  /** A date that is overdue stays overdue as the days go by. */
  lemma OverdueStaysOverdue(date: string, today: string, later: string)
    requires DotColor(date, today) == Red && LessEq(today, later)
    ensures DotColor(date, later) == Red
  {
    if today != later {
      LessTransitive(date, today, later);
    }
  }

  /** A date that is due or overdue stays so until it is done. */
  lemma DueNeverTurnsGreen(date: string, today: string, later: string)
    requires DotColor(date, today) != Green && date != "" && LessEq(today, later)
    ensures DotColor(date, later) != Green
  {
    if today != later && date != today {
      LessTransitive(date, today, later);
    }
    if date == today {
      LessAsymmetric(today, later);
    }
    LessAsymmetric(date, later);
  }

  /** Some follow-up's client id is the client's id; the comparison is on
      the raw value, so a follow-up without a client matches none. */
  ghost predicate HasFollowup(c: Client, fs: seq<Followup>) {
    exists j :: 0 <= j < |fs| && fs[j].clientId == Some(c.id)
  }

  /** The client ids of the follow-ups, as given. */
  function FollowupClientIds(fs: seq<Followup>): (r: seq<Option<string>>)
    ensures |r| == |fs|
    ensures forall j :: 0 <= j < |fs| ==> r[j] == fs[j].clientId
  {
    seq(|fs|, j requires 0 <= j < |fs| => fs[j].clientId)
  }

  /** `allClients`: the clients with a follow-up, ordered by name, each as
      often as in the document. */
  function AllClients(cs: seq<Client>, fs: seq<Followup>): (r: seq<Client>)
    ensures SortedBy(r, ClientName)
    ensures forall c :: multiset(r)[c] == if HasFollowup(c, fs) then multiset(cs)[c] else 0
  {
    var ids := FollowupClientIds(fs);
    assert forall c: Client :: Some(c.id) in ids <==> HasFollowup(c, fs);
    SortBy(Filter(cs, (c: Client) => Some(c.id) in ids), ClientName)
  }

  function HasDate(f: Followup): bool {
    f.nextDate != ""
  }

  /** The follow-up has a date and passes both filters. */
  predicate Due(f: Followup, filterClient: string, filterPartner: string) {
    Followups.Matches(f, filterClient, filterPartner) && HasDate(f)
  }

  /** `upcoming`: the follow-ups that have a date and pass the client and
      partner filters, ordered by date, each as often as in the document. */
  function Upcoming(fs: seq<Followup>, filterClient: string, filterPartner: string): (r: seq<Followup>)
    ensures SortedBy(r, FollowupDate)
    ensures forall f :: multiset(r)[f] == if Due(f, filterClient, filterPartner) then multiset(fs)[f] else 0
  {
    var passing := Filter(fs, (f: Followup) => Followups.Matches(f, filterClient, filterPartner));
    SortBy(Filter(passing, HasDate), FollowupDate)
  }

  /** The dashboard lists the dated part of what the follow-ups page lists
      under the same filters. */
  lemma UpcomingIsDatedFollowups(fs: seq<Followup>, filterClient: string, filterPartner: string)
    ensures multiset(Upcoming(fs, filterClient, filterPartner))
      == multiset(Filter(Followups.SortedFollowups(fs, filterClient, filterPartner), HasDate))
  {
    var u := Upcoming(fs, filterClient, filterPartner);
    var v := Filter(Followups.SortedFollowups(fs, filterClient, filterPartner), HasDate);
    assert forall f :: multiset(u)[f] == multiset(v)[f];
  }

  /** No follow-up on the dashboard shows the grey dot. */
  lemma UpcomingHaveColour(fs: seq<Followup>, filterClient: string, filterPartner: string, today: string, f: Followup)
    requires f in Upcoming(fs, filterClient, filterPartner)
    ensures DotColor(f.nextDate, today) != Grey
  {
    assert f in multiset(Upcoming(fs, filterClient, filterPartner));
  }
}

=== FILE: followups.dfy ===
/** The follow-ups page: adding, editing and deleting follow-ups, the
    client and product choices of its input row, and the filtered list
    grouped by client. */
module Followups {
  import opened Base
  import opened Strings
  import opened Sorting
  import opened Crm

  // ------------------------------------------------------ client choices

  /** `String(p.clientId)` of every project, each once. */
  function ProjectClientIds(ps: seq<Project>): (r: seq<string>)
    ensures NoDup(r)
    ensures forall x :: x in r <==> exists i :: 0 <= i < |ps| && StringOfNullable(ps[i].clientId) == x
  {
    var ids := seq(|ps|, i requires 0 <= i < |ps| => StringOfNullable(ps[i].clientId));
    assert forall i :: 0 <= i < |ps| ==> ids[i] == StringOfNullable(ps[i].clientId);
    Dedup(ids)
  }

  /** Some project refers to the client. */
  ghost predicate InSomeProject(c: Client, ps: seq<Project>) {
    exists i :: 0 <= i < |ps| && StringOfNullable(ps[i].clientId) == c.id
  }

  /** `clientsInProjects`: the clients some project refers to, ordered by
      name, each as often as in the document. */
  function ClientsInProjects(cs: seq<Client>, ps: seq<Project>): (r: seq<Client>)
    ensures SortedBy(r, ClientName)
    ensures forall c :: multiset(r)[c] == if InSomeProject(c, ps) then multiset(cs)[c] else 0
  {
    var ids := ProjectClientIds(ps);
    SortBy(Filter(cs, (c: Client) => c.id in ids), ClientName)
  }

  lemma ClientsInProjectsMembers(cs: seq<Client>, ps: seq<Project>, c: Client)
    ensures c in ClientsInProjects(cs, ps) <==> c in cs && InSomeProject(c, ps)
  {
    var r := ClientsInProjects(cs, ps);
    assert c in r <==> c in multiset(r);
    assert c in cs <==> c in multiset(cs);
  }

  // ----------------------------------------------------- product choices

  /** The group the product choices are taken from: its id, as a string,
      is the selected id, or its partner name is the selected partner's. */
  predicate IsPartnerGroup(g: ProductGroup, partnerId: string, partnerName: string) {
    StringOfOptional(g.partnerId) == partnerId || (g.partner != "" && g.partner == partnerName)
  }

  /** `partnerProducts`: the items of the first group of the selected
      partner, or none. */
  function PartnerProducts(gs: seq<ProductGroup>, partners: seq<Partner>, partnerId: string): (r: seq<string>)
    ensures var name := PartnerNameOf(partners, partnerId);
      var i := FirstIndex(gs, (g: ProductGroup) => IsPartnerGroup(g, partnerId, name));
      && (i >= 0 ==> r == gs[i].items)
      && (i == -1 ==> r == [])
  {
    var name := PartnerNameOf(partners, partnerId);
    var i := FirstIndex(gs, (g: ProductGroup) => IsPartnerGroup(g, partnerId, name));
    if i == -1 then [] else gs[i].items
  }

  /** The items of every group, in order. */
  function ItemLists(gs: seq<ProductGroup>): (r: seq<seq<string>>)
    ensures |r| == |gs|
    ensures forall i :: 0 <= i < |gs| ==> r[i] == gs[i].items
  {
    seq(|gs|, i requires 0 <= i < |gs| => gs[i].items)
  }

  /** `allProducts`: every item of every group, once, in string order. */
  function AllProducts(gs: seq<ProductGroup>): (r: seq<string>)
    ensures StrictlySorted(r)
    ensures forall x :: x in r <==> exists i :: 0 <= i < |gs| && x in gs[i].items
  {
    var all := Dedup(Flatten(ItemLists(gs)));
    SortDistinctStrings(all);
    SortStrings(all)
  }

  /** `displayedProducts` as written: the selected partner's items when
      there are some, otherwise every product. With no partner selected the
      id compared is `""`, which is also the id every imported group carries
      once the products page has merged it. */
  function DisplayedProductsAsWritten(gs: seq<ProductGroup>, partners: seq<Partner>, partnerId: string): (r: seq<string>)
    ensures |PartnerProducts(gs, partners, partnerId)| > 0 ==> r == PartnerProducts(gs, partners, partnerId)
    ensures |PartnerProducts(gs, partners, partnerId)| == 0 ==> r == AllProducts(gs)
  {
    var own := PartnerProducts(gs, partners, partnerId);
    if |own| > 0 then own else AllProducts(gs)
  }

  /** With no partner selected, a merged imported group `a` listed first
      hides every product only another group `b` offers. */
  lemma DisplayedAsWrittenWithoutPartner(a: ProductGroup, b: ProductGroup, partners: seq<Partner>, y: string)
    requires a.partnerId == Some("") && |a.items| > 0
    requires y in b.items && y !in a.items
    ensures DisplayedProductsAsWritten([a, b], partners, "") == a.items
    ensures y !in DisplayedProductsAsWritten([a, b], partners, "")
    ensures y in AllProducts([a, b])
  {
    var gs := [a, b];
    var name := PartnerNameOf(partners, "");
    assert IsPartnerGroup(gs[0], "", name);
    assert FirstIndex(gs, (g: ProductGroup) => IsPartnerGroup(g, "", name)) == 0;
    assert y in gs[1].items;
  }

  /** The product choices the row means: every product while no partner is
      selected; the selected partner's items when it has some, otherwise
      every product. */
  function DisplayedProducts(gs: seq<ProductGroup>, partners: seq<Partner>, partnerId: string): (r: seq<string>)
    ensures partnerId == "" ==> r == AllProducts(gs)
    ensures partnerId != "" ==> r == DisplayedProductsAsWritten(gs, partners, partnerId)
  {
    if partnerId == "" then AllProducts(gs) else DisplayedProductsAsWritten(gs, partners, partnerId)
  }

  /** Every product offered is some group's item, and while no partner is
      selected every group's items are offered. */
  lemma DisplayedProductsOffered(gs: seq<ProductGroup>, partners: seq<Partner>, partnerId: string, x: string)
    ensures x in DisplayedProducts(gs, partners, partnerId) ==> exists i :: 0 <= i < |gs| && x in gs[i].items
    ensures partnerId == "" ==> (x in DisplayedProducts(gs, partners, partnerId) <==> exists i :: 0 <= i < |gs| && x in gs[i].items)
  {
    var name := PartnerNameOf(partners, partnerId);
    var i := FirstIndex(gs, (g: ProductGroup) => IsPartnerGroup(g, partnerId, name));
    if x in DisplayedProducts(gs, partners, partnerId) && partnerId != "" && i >= 0 && |gs[i].items| > 0 {
      assert x in gs[i].items;
    }
  }

  // -------------------------------------------------------- add / update

  /** The input row. */
  datatype FollowupForm = FollowupForm(
    date: string,
    clientId: string,
    partnerId: string,
    projectId: string,
    productId: string,
    action: string)

  /** Date, client and action are all filled in. */
  predicate Complete(form: FollowupForm) {
    form.date != "" && form.clientId != "" && form.action != ""
  }

  /** The row's fields laid over a follow-up, which keeps its id. */
  function WithForm(f: Followup, form: FollowupForm): Followup {
    f.(nextDate := form.date, clientId := Some(form.clientId), partnerId := Some(form.partnerId),
       projectId := Some(form.projectId), productId := form.productId, action := form.action)
  }

  /** The follow-up the row describes, under the given id. */
  predicate Describes(f: Followup, form: FollowupForm) {
    && f.nextDate == form.date && f.clientId == Some(form.clientId) && f.partnerId == Some(form.partnerId)
    && f.projectId == Some(form.projectId) && f.productId == form.productId && f.action == form.action
  }

  function IdIndex(fs: seq<Followup>, id: string): (i: int)
    ensures -1 <= i < |fs|
    ensures 0 <= i ==> fs[i].id == id && forall j :: 0 <= j < i ==> fs[j].id != id
    ensures i == -1 <==> forall j :: 0 <= j < |fs| ==> fs[j].id != id
  {
    FirstIndex(fs, (f: Followup) => f.id == id)
  }

  /** `addOrUpdate`: an incomplete row changes nothing. While editing, the
      first follow-up with the edited id takes the row's fields and keeps
      its id (a vanished id changes nothing); otherwise one follow-up with
      the fresh `id` is appended. */
  function SaveFollowup(fs: seq<Followup>, form: FollowupForm, editingId: Option<string>, id: string): (r: seq<Followup>)
    ensures !Complete(form) ==> r == fs
    ensures Complete(form) && Truthy(editingId) ==>
      && |r| == |fs|
      && (forall j :: 0 <= j < |fs| ==> r[j].id == fs[j].id)
      && (forall j :: 0 <= j < |fs| && j != IdIndex(fs, editingId.value) ==> r[j] == fs[j])
      && (IdIndex(fs, editingId.value) >= 0 ==> Describes(r[IdIndex(fs, editingId.value)], form))
    ensures Complete(form) && !Truthy(editingId) ==>
      && |r| == |fs| + 1 && r[..|fs|] == fs
      && r[|fs|].id == id && Describes(r[|fs|], form)
  {
    if !Complete(form) then fs
    else if Truthy(editingId) then
      var i := IdIndex(fs, editingId.value);
      if i == -1 then fs else fs[i := WithForm(fs[i], form)]
    else
      fs + [Followup(id, Some(form.clientId), Some(form.projectId), Some(form.partnerId), form.productId, form.date, form.action)]
  }

  // ------------------------------------------------------------- deleting

  /** `deleteFollowup(id)`: every follow-up with the id goes, and nothing
      else. */
  function DeleteFollowup(fs: seq<Followup>, id: string): (r: seq<Followup>)
    ensures forall f :: multiset(r)[f] == if f.id != id then multiset(fs)[f] else 0
    ensures forall f :: f in r ==> f.id != id
  {
    Filter(fs, (f: Followup) => f.id != id)
  }

  /** Deleting the follow-up just added, under an id no other follow-up
      has, gives back the list as it was. */
  lemma DeleteUndoesAdd(fs: seq<Followup>, form: FollowupForm, id: string)
    requires Complete(form)
    requires forall j :: 0 <= j < |fs| ==> fs[j].id != id
    ensures DeleteFollowup(SaveFollowup(fs, form, None, id), id) == fs
  {
    var r := SaveFollowup(fs, form, None, id);
    assert r == fs + [r[|fs|]];
    FilterDropsLast(fs, r[|fs|], (f: Followup) => f.id != id);
  }

  // ----------------------------------------------------- filter and sort

  /** An empty filter matches every follow-up. */
  predicate Matches(f: Followup, filterClient: string, filterPartner: string) {
    && (filterClient == "" || StringOfNullable(f.clientId) == filterClient)
    && (filterPartner == "" || StringOfNullable(f.partnerId) == filterPartner)
  }

  /** `sorted`: the follow-ups passing both filters, ordered by date, each
      as often as in the document. */
  function SortedFollowups(fs: seq<Followup>, filterClient: string, filterPartner: string): (r: seq<Followup>)
    ensures SortedBy(r, FollowupDate)
    ensures forall f :: multiset(r)[f] == if Matches(f, filterClient, filterPartner) then multiset(fs)[f] else 0
  {
    SortBy(Filter(fs, (f: Followup) => Matches(f, filterClient, filterPartner)), FollowupDate)
  }

  // ------------------------------------------------------------ grouping

  /** One client and its listed follow-ups. */
  datatype ClientGroup = ClientGroup(client: Client, followups: seq<Followup>)

  function OfClient(s: seq<Followup>, c: Client): (r: seq<Followup>)
    ensures forall f :: f in r <==> f in s && StringOfNullable(f.clientId) == c.id
  {
    Filter(s, (f: Followup) => StringOfNullable(f.clientId) == c.id)
  }

  function NonEmptyGroup(g: ClientGroup): bool {
    |g.followups| > 0
  }

  /** `grouped`: for each client some project refers to, its listed
      follow-ups; clients with none are left out. */
  function Grouped(cs: seq<Client>, ps: seq<Project>, fs: seq<Followup>, filterClient: string, filterPartner: string): (r: seq<ClientGroup>)
    ensures forall g :: g in r ==>
      && |g.followups| > 0
      && g.client in ClientsInProjects(cs, ps)
      && forall f :: f in g.followups ==> StringOfNullable(f.clientId) == g.client.id && f in SortedFollowups(fs, filterClient, filterPartner)
    ensures forall c :: c in ClientsInProjects(cs, ps) && |OfClient(SortedFollowups(fs, filterClient, filterPartner), c)| > 0 ==>
      ClientGroup(c, OfClient(SortedFollowups(fs, filterClient, filterPartner), c)) in r
  {
    var cp := ClientsInProjects(cs, ps);
    var s := SortedFollowups(fs, filterClient, filterPartner);
    Filter(ClientGroups(cp, s), NonEmptyGroup)
  }

  /** Each client with its follow-ups in `s`, in the clients' order. */
  function ClientGroups(cp: seq<Client>, s: seq<Followup>): (r: seq<ClientGroup>)
    ensures forall g :: g in r ==> g.client in cp && g.followups == OfClient(s, g.client)
    ensures forall c :: c in cp ==> ClientGroup(c, OfClient(s, c)) in r
  {
    var r := seq(|cp|, i requires 0 <= i < |cp| => ClientGroup(cp[i], OfClient(s, cp[i])));
    assert forall i :: 0 <= i < |cp| ==> r[i] == ClientGroup(cp[i], OfClient(s, cp[i]));
    r
  }

  /** Every follow-up that passes the filters and belongs to a client some
      project refers to is listed in that client's group. */
  lemma GroupedCovers(cs: seq<Client>, ps: seq<Project>, fs: seq<Followup>, filterClient: string, filterPartner: string, f: Followup, c: Client)
    requires f in fs && Matches(f, filterClient, filterPartner)
    requires c in cs && InSomeProject(c, ps) && StringOfNullable(f.clientId) == c.id
    ensures exists g :: g in Grouped(cs, ps, fs, filterClient, filterPartner) && g.client == c && f in g.followups
  {
    var s := SortedFollowups(fs, filterClient, filterPartner);
    assert f in multiset(fs);
    assert f in multiset(s);
    ClientsInProjectsMembers(cs, ps, c);
    var g := ClientGroup(c, OfClient(s, c));
    assert f in g.followups;
    assert g in Grouped(cs, ps, fs, filterClient, filterPartner);
  }
}

=== FILE: ics.dfy ===
/** The calendar feed (src/ics.js): follow-ups as an iCalendar (RFC 5545)
    text with one VEVENT per event, every line terminated by CRLF, and TEXT
    values escaped as section 3.3.11 of RFC 5545 asks. */
module Ics {
  import opened Base
  import opened Strings

  // -------------------------------------------------------------- timestamps

  /** The calendar fields of an instant as one time zone sees it. */
  datatype DateTime = DateTime(year: nat, month: nat, day: nat, hour: nat, minute: nat, second: nat)

  /** The ranges `Date`'s getters return (the month already shifted to
      1..12, as the encoder does with `getUTCMonth() + 1`). */
  predicate ValidDateTime(t: DateTime) {
    1 <= t.month <= 12 && 1 <= t.day <= 31 && t.hour < 24 && t.minute < 60 && t.second < 60
  }

  /** An instant through both of `Date`'s views: the UTC getters and the
      local-time getters of the machine building the feed. */
  datatype Instant = Instant(utc: DateTime, local: DateTime)

  /** The clock reading shared by the whole feed: its UTC fields and its
      `getTime()` in milliseconds. */
  datatype Clock = Clock(utc: DateTime, millis: nat)

  lemma DigitsHaveNoBreak(s: string)
    requires AllDigits(s)
    ensures '\r' !in s && '\n' !in s
  {
  }

  lemma NatToStringLength(n: nat)
    ensures n < 10 ==> |NatToString(n)| == 1
    ensures 10 <= n < 100 ==> |NatToString(n)| == 2
    ensures 10 <= n ==> |NatToString(n)| >= 2
  {
    if n >= 10 {
      assert NatToString(n) == NatToString(n / 10) + [DigitChar(n % 10)];
    }
  }

  /** `String(n).padStart(2, '0')`: the decimal digits of `n` with a zero in
      front when there is only one. */
  function Pad(n: nat): (r: string)
    ensures AllDigits(r)
    ensures n < 100 ==> |r| == 2
    ensures |r| >= 2
  {
    var s := NatToString(n);
    NatToStringLength(n);
    if |s| < 2 then "0" + s else s
  }

  /** Padding loses nothing: the digits read back as the number. */
  lemma PadReadsBack(n: nat)
    ensures ParseNat(Pad(n)) == n
  {
    ParseNatToString(n);
    ParseNatLeadingZero(NatToString(n));
  }

  /** The number written in `r[i..j]`, if those positions hold only digits. */
  function Field(r: string, i: nat, j: nat): Option<nat> {
    if i <= j <= |r| && AllDigits(r[i..j]) then Some(ParseNat(r[i..j])) else None
  }

  /** `toUTC`: `YYYYMMDDTHHMMSSZ`, the year unpadded. */
  function ToUtc(t: DateTime): (r: string)
    ensures |r| >= 13 && r[|r| - 1] == 'Z'
    ensures '\r' !in r && '\n' !in r
  {
    var y := NatToString(t.year);
    var r := y + Pad(t.month) + Pad(t.day) + "T" + Pad(t.hour) + Pad(t.minute) + Pad(t.second) + "Z";
    DigitsHaveNoBreak(y);
    DigitsHaveNoBreak(Pad(t.month));
    DigitsHaveNoBreak(Pad(t.day));
    DigitsHaveNoBreak(Pad(t.hour));
    DigitsHaveNoBreak(Pad(t.minute));
    DigitsHaveNoBreak(Pad(t.second));
    r
  }

  /** The UTC stamp of a valid date-time has a fixed layout after the year
      and every field reads back: nothing is lost or shifted. */
  lemma ToUtcReadsBack(t: DateTime)
    requires ValidDateTime(t)
    ensures var r := ToUtc(t); var y := |r| - 12;
      && y == |NatToString(t.year)|
      && r[y + 4] == 'T'
      && Field(r, 0, y) == Some(t.year)
      && Field(r, y, y + 2) == Some(t.month)
      && Field(r, y + 2, y + 4) == Some(t.day)
      && Field(r, y + 5, y + 7) == Some(t.hour)
      && Field(r, y + 7, y + 9) == Some(t.minute)
      && Field(r, y + 9, y + 11) == Some(t.second)
  {
    var ys, m, d, h, mi, s := NatToString(t.year), Pad(t.month), Pad(t.day), Pad(t.hour), Pad(t.minute), Pad(t.second);
    var r := ToUtc(t);
    var y := |ys|;
    assert r == ys + m + d + "T" + h + mi + s + "Z";
    UtcLayout(ys, m, d, h, mi, s);
    ParseNatToString(t.year);
    FieldOf(r, 0, y, ys);
    PadReadsBack(t.month);
    FieldOf(r, y, y + 2, m);
    PadReadsBack(t.day);
    FieldOf(r, y + 2, y + 4, d);
    PadReadsBack(t.hour);
    FieldOf(r, y + 5, y + 7, h);
    PadReadsBack(t.minute);
    FieldOf(r, y + 7, y + 9, mi);
    PadReadsBack(t.second);
    FieldOf(r, y + 9, y + 11, s);
  }

  lemma FieldOf(r: string, i: nat, j: nat, p: string)
    requires i <= j <= |r| && r[i..j] == p && AllDigits(p)
    ensures Field(r, i, j) == Some(ParseNat(p))
  {
  }

  /** Where each part sits in `year + MM + DD + "T" + hh + mm + ss + "Z"`. */
  lemma UtcLayout(ys: string, m: string, d: string, h: string, mi: string, s: string)
    requires |m| == |d| == |h| == |mi| == |s| == 2
    ensures var r := ys + m + d + "T" + h + mi + s + "Z"; var y := |ys|;
      && |r| == y + 12 && r[y + 4] == 'T'
      && r[..y] == ys && r[y..y + 2] == m && r[y + 2..y + 4] == d
      && r[y + 5..y + 7] == h && r[y + 7..y + 9] == mi && r[y + 9..y + 11] == s
  {
  }

  /** Distinct valid date-times have distinct UTC stamps. */
  lemma ToUtcInjective(t1: DateTime, t2: DateTime)
    requires ValidDateTime(t1) && ValidDateTime(t2)
    requires ToUtc(t1) == ToUtc(t2)
    ensures t1 == t2
  {
    ToUtcReadsBack(t1);
    ToUtcReadsBack(t2);
  }

  /** `toDateOnly`: `YYYYMMDD` from the local calendar fields. */
  function ToDate(t: DateTime): (r: string)
    ensures AllDigits(r) && |r| >= 5
  {
    NatToString(t.year) + Pad(t.month) + Pad(t.day)
  }

  /** The date-only stamp reads back as the local year, month and day. */
  lemma ToDateReadsBack(t: DateTime)
    requires ValidDateTime(t)
    ensures var r := ToDate(t); var y := |r| - 4;
      && Field(r, 0, y) == Some(t.year)
      && Field(r, y, y + 2) == Some(t.month)
      && Field(r, y + 2, y + 4) == Some(t.day)
  {
    var ys, m, d := NatToString(t.year), Pad(t.month), Pad(t.day);
    var r := ToDate(t);
    var y := |ys|;
    assert r[..y] == ys && r[y..y + 2] == m && r[y + 2..y + 4] == d;
    ParseNatToString(t.year);
    PadReadsBack(t.month);
    PadReadsBack(t.day);
  }

  // ---------------------------------------------------------------- escaping

  /** The four characters a TEXT value escapes. */
  predicate IsSpecial(c: char) {
    c == '\\' || c == '\n' || c == ',' || c == ';'
  }

  function EscapeChar(c: char): string {
    if c == '\\' then "\\\\"
    else if c == '\n' then "\\n"
    else if c == ',' then "\\,"
    else if c == ';' then "\\;"
    else [c]
  }

  function CountSpecial(s: string): nat
    decreases |s|
  {
    if |s| == 0 then 0 else (if IsSpecial(s[0]) then 1 else 0) + CountSpecial(s[1..])
  }

  /** The intended escaping, one character at a time: each special character
      gains a backslash (a line feed becomes `\n`), all others are kept. The
      result grows by one character per special character, holds no line
      feed, and keeps carriage returns exactly where the input had them. */
  function Escape(s: string): (r: string)
    ensures |r| == |s| + CountSpecial(s)
    ensures '\n' !in r
    ensures '\r' in r <==> '\r' in s
    decreases |s|
  {
    if |s| == 0 then ""
    else
      var rest := Escape(s[1..]);
      assert s == [s[0]] + s[1..];
      EscapeChar(s[0]) + rest
  }

  /** Every occurrence of the character `c` in `s` replaced by `rep`. */
  function ReplaceChar(s: string, c: char, rep: string): (r: string)
    ensures rep != "" ==> |s| <= |r|
    ensures forall x :: x in r ==> (x in s && x != c) || x in rep
    decreases |s|
  {
    if |s| == 0 then "" else (if s[0] == c then rep else [s[0]]) + ReplaceChar(s[1..], c, rep)
  }

  lemma {:induction false} ReplaceCharConcat(a: string, b: string, c: char, rep: string)
    ensures ReplaceChar(a + b, c, rep) == ReplaceChar(a, c, rep) + ReplaceChar(b, c, rep)
    decreases |a|
  {
    if |a| == 0 {
      assert a + b == b;
    } else {
      assert (a + b)[1..] == a[1..] + b;
      ReplaceCharConcat(a[1..], b, c, rep);
    }
  }

  lemma ReplaceCharOfChar(x: char, c: char, rep: string)
    ensures ReplaceChar([x], c, rep) == if x == c then rep else [x]
  {
    assert [x][1..] == "";
  }

  /** `escapeICS` as written: four global replacements, the backslash first. */
  function EscapeAsWritten(s: string): (r: string)
    ensures |s| <= |r|
    ensures '\n' !in r
  {
    ReplaceChar(ReplaceChar(ReplaceChar(ReplaceChar(s, '\\', "\\\\"), '\n', "\\n"), ',', "\\,"), ';', "\\;")
  }

  /** The chained replacements distribute over concatenation. */
  lemma EscapeAsWrittenConcat(a: string, b: string)
    ensures EscapeAsWritten(a + b) == EscapeAsWritten(a) + EscapeAsWritten(b)
  {
    var a1, b1 := ReplaceChar(a, '\\', "\\\\"), ReplaceChar(b, '\\', "\\\\");
    ReplaceCharConcat(a, b, '\\', "\\\\");
    var a2, b2 := ReplaceChar(a1, '\n', "\\n"), ReplaceChar(b1, '\n', "\\n");
    ReplaceCharConcat(a1, b1, '\n', "\\n");
    var a3, b3 := ReplaceChar(a2, ',', "\\,"), ReplaceChar(b2, ',', "\\,");
    ReplaceCharConcat(a2, b2, ',', "\\,");
    ReplaceCharConcat(a3, b3, ';', "\\;");
  }

  /** Later replacements never touch what earlier ones inserted: on a single
      character the chain is `EscapeChar`. */
  lemma EscapeAsWrittenChar(x: char)
    ensures EscapeAsWritten([x]) == EscapeChar(x)
  {
    var s1 := ReplaceChar([x], '\\', "\\\\");
    ReplaceCharOfChar(x, '\\', "\\\\");
    if x == '\\' {
      assert s1 == ['\\'] + ['\\'];
      ReplaceCharConcat(['\\'], ['\\'], '\n', "\\n");
      ReplaceCharOfChar('\\', '\n', "\\n");
      ReplaceCharConcat(['\\'], ['\\'], ',', "\\,");
      ReplaceCharOfChar('\\', ',', "\\,");
      ReplaceCharConcat(['\\'], ['\\'], ';', "\\;");
      ReplaceCharOfChar('\\', ';', "\\;");
    } else {
      assert s1 == [x];
      ReplaceCharOfChar(x, '\n', "\\n");
      var s2 := ReplaceChar(s1, '\n', "\\n");
      if x == '\n' {
        assert s2 == ['\\'] + ['n'];
        ReplaceCharConcat(['\\'], ['n'], ',', "\\,");
        ReplaceCharOfChar('\\', ',', "\\,");
        ReplaceCharOfChar('n', ',', "\\,");
        ReplaceCharConcat(['\\'], ['n'], ';', "\\;");
        ReplaceCharOfChar('\\', ';', "\\;");
        ReplaceCharOfChar('n', ';', "\\;");
      } else {
        assert s2 == [x];
        ReplaceCharOfChar(x, ',', "\\,");
        var s3 := ReplaceChar(s2, ',', "\\,");
        if x == ',' {
          assert s3 == ['\\'] + [','];
          ReplaceCharConcat(['\\'], [','], ';', "\\;");
          ReplaceCharOfChar('\\', ';', "\\;");
          ReplaceCharOfChar(',', ';', "\\;");
        } else {
          assert s3 == [x];
          ReplaceCharOfChar(x, ';', "\\;");
        }
      }
    }
  }

  /** Because the backslash is replaced first, the four replacements as
      written are exactly the per-character escape. */
  lemma {:induction false} EscapeAsWrittenIsEscape(s: string)
    ensures EscapeAsWritten(s) == Escape(s)
    decreases |s|
  {
    if |s| == 0 {
    } else {
      assert s == [s[0]] + s[1..];
      EscapeAsWrittenConcat([s[0]], s[1..]);
      EscapeAsWrittenChar(s[0]);
      EscapeAsWrittenIsEscape(s[1..]);
    }
  }

  /** Reading an escaped TEXT value: a backslash takes the next character
      literally, except that `\n` stands for a line feed. */
  function Unescape(t: string): string
    decreases |t|
  {
    if |t| == 0 then ""
    else if t[0] == '\\' && |t| >= 2 then
      [if t[1] == 'n' then '\n' else t[1]] + Unescape(t[2..])
    else [t[0]] + Unescape(t[1..])
  }

  /** Escaping loses nothing: unescaping gives the text back. */
  lemma {:induction false} UnescapeEscape(s: string)
    ensures Unescape(Escape(s)) == s
    decreases |s|
  {
    if |s| > 0 {
      var e := Escape(s);
      var rest := Escape(s[1..]);
      assert e == EscapeChar(s[0]) + rest;
      UnescapeEscape(s[1..]);
      if IsSpecial(s[0]) {
        assert e[2..] == rest;
      } else {
        assert e[1..] == rest;
      }
      assert s == [s[0]] + s[1..];
    }
  }

  // ------------------------------------------------------------------- lines

  /** The property names the feed uses. */
  datatype Property = Begin | End | Version | ProdId | CalName | DtStart | DtEnd | DtStamp | Uid | Summary | Description | Location

  function PropertyText(p: Property): string {
    match p
    case Begin => "BEGIN"
    case End => "END"
    case Version => "VERSION"
    case ProdId => "PRODID"
    case CalName => "X-WR-CALNAME"
    case DtStart => "DTSTART"
    case DtEnd => "DTEND"
    case DtStamp => "DTSTAMP"
    case Uid => "UID"
    case Summary => "SUMMARY"
    case Description => "DESCRIPTION"
    case Location => "LOCATION"
  }

  /** One content line: the name, its parameters (`;VALUE=DATE` or none),
      a colon and the value. */
  datatype ContentLine = ContentLine(name: Property, param: string, value: string)

  function LineText(l: ContentLine): string {
    PropertyText(l.name) + l.param + ":" + l.value
  }

  /** Neither the parameters nor the value hold a carriage return. */
  predicate CleanLine(l: ContentLine) {
    '\r' !in l.param && '\r' !in l.value
  }

  /** Some line of `ls` is the property `p`. */
  predicate HasProperty(ls: seq<ContentLine>, p: Property) {
    exists k :: 0 <= k < |ls| && ls[k].name == p
  }

  lemma HasPropertyConcat(a: seq<ContentLine>, b: seq<ContentLine>, p: Property)
    ensures HasProperty(a + b, p) <==> HasProperty(a, p) || HasProperty(b, p)
  {
    if HasProperty(a + b, p) {
      var k :| 0 <= k < |a + b| && (a + b)[k].name == p;
      if k >= |a| {
        assert b[k - |a|].name == p;
      }
    }
    if HasProperty(a, p) {
      var k :| 0 <= k < |a| && a[k].name == p;
      assert (a + b)[k].name == p;
    }
    if HasProperty(b, p) {
      var k :| 0 <= k < |b| && b[k].name == p;
      assert (a + b)[|a| + k].name == p;
    }
  }

  /** A property occurs in six parts laid end to end exactly when it occurs
      in one of them. */
  lemma HasPropertyParts(p0: seq<ContentLine>, p1: seq<ContentLine>, p2: seq<ContentLine>,
                         p3: seq<ContentLine>, p4: seq<ContentLine>, p5: seq<ContentLine>, p: Property)
    ensures HasProperty(p0 + p1 + p2 + p3 + p4 + p5, p) <==>
      HasProperty(p0, p) || HasProperty(p1, p) || HasProperty(p2, p) || HasProperty(p3, p) || HasProperty(p4, p) || HasProperty(p5, p)
  {
    HasPropertyConcat(p0, p1, p);
    HasPropertyConcat(p0 + p1, p2, p);
    HasPropertyConcat(p0 + p1 + p2, p3, p);
    HasPropertyConcat(p0 + p1 + p2 + p3, p4, p);
    HasPropertyConcat(p0 + p1 + p2 + p3 + p4, p5, p);
  }

  const BeginEvent := ContentLine(Begin, "", "VEVENT")
  const EndEvent := ContentLine(End, "", "VEVENT")

  /** What the encoder reads of one event; optional fields are emitted only
      when truthy. */
  datatype Event = Event(
    uid: Option<string>,
    allDay: bool,
    start: Instant,
    end: Option<Instant>,
    summary: Option<string>,
    description: Option<string>,
    location: Option<string>)

  /** The UID of the `i`-th event: its own uid (or `evt` when it has none),
      its position and the export instant in milliseconds, joined by dashes
      and followed by `@crm`. */
  function EventUid(e: Event, i: nat, millis: nat): string {
    OrElse(e.uid, "evt") + "-" + NatToString(i) + "-" + NatToString(millis) + "@crm"
  }

  /** What follows the last dash (the whole string when there is none). */
  function AfterLastDash(s: string): string
    decreases |s|
  {
    if |s| == 0 || s[|s| - 1] == '-' then ""
    else AfterLastDash(s[..|s| - 1]) + [s[|s| - 1]]
  }

  lemma {:induction false} AfterLastDashOf(a: string, d: string)
    requires '-' !in d
    ensures AfterLastDash(a + "-" + d) == d
    decreases |d|
  {
    var s := a + "-" + d;
    if |d| > 0 {
      var n := |d| - 1;
      assert s[..|s| - 1] == a + "-" + d[..n];
      assert s[|s| - 1] == d[n];
      AfterLastDashOf(a, d[..n]);
      assert d == d[..n] + [d[n]];
    }
  }

  lemma DigitsHaveNoDash(s: string)
    requires AllDigits(s)
    ensures '-' !in s
  {
  }

  /** The UIDs of one feed are pairwise distinct whatever the events' own
      `uid` seeds are, even seeds that contain dashes and digits: the index
      is what follows the last dash before the shared timestamp. */
  lemma UidsDistinct(e1: Event, e2: Event, i: nat, j: nat, millis: nat)
    requires i != j
    ensures EventUid(e1, i, millis) != EventUid(e2, j, millis)
  {
    if EventUid(e1, i, millis) == EventUid(e2, j, millis) {
      var tail := "-" + NatToString(millis) + "@crm";
      var u1 := OrElse(e1.uid, "evt") + "-" + NatToString(i);
      var u2 := OrElse(e2.uid, "evt") + "-" + NatToString(j);
      assert EventUid(e1, i, millis) == u1 + tail;
      assert EventUid(e2, j, millis) == u2 + tail;
      assert u1 == (u1 + tail)[..|u1 + tail| - |tail|];
      assert u2 == (u2 + tail)[..|u2 + tail| - |tail|];
      DigitsHaveNoDash(NatToString(i));
      DigitsHaveNoDash(NatToString(j));
      AfterLastDashOf(OrElse(e1.uid, "evt"), NatToString(i));
      AfterLastDashOf(OrElse(e2.uid, "evt"), NatToString(j));
      NatToStringInjective(i, j);
    }
  }

  /** No carriage return in the event's own text: the seed of its UID and its
      three TEXT fields. */
  predicate NoCr(e: Event) {
    '\r' !in OrElse(e.uid, "evt")
    && (e.summary.Some? ==> '\r' !in e.summary.value)
    && (e.description.Some? ==> '\r' !in e.description.value)
    && (e.location.Some? ==> '\r' !in e.location.value)
  }

  /** Every line of `ls` is clean. */
  predicate AllClean(ls: seq<ContentLine>) {
    forall k :: 0 <= k < |ls| ==> CleanLine(ls[k])
  }

  /** `DTSTART` (or `DTEND`) of an instant: the local date for all-day events,
      the UTC stamp otherwise. */
  function TimeLine(name: Property, e: Event, t: Instant): (l: ContentLine)
    ensures l.name == name
    ensures l.param == ";VALUE=DATE" <==> e.allDay
    ensures e.allDay ==> l.value == ToDate(t.local)
    ensures !e.allDay ==> l.param == "" && l.value == ToUtc(t.utc)
    ensures CleanLine(l)
  {
    if e.allDay then
      DigitsHaveNoBreak(ToDate(t.local));
      ContentLine(name, ";VALUE=DATE", ToDate(t.local))
    else ContentLine(name, "", ToUtc(t.utc))
  }

  /** `DTSTART`. */
  function StartLines(e: Event): (ls: seq<ContentLine>)
    ensures forall p :: HasProperty(ls, p) <==> p == DtStart
    ensures TimeLine(DtStart, e, e.start) in ls
    ensures AllClean(ls)
  {
    var l := TimeLine(DtStart, e, e.start);
    assert [l][0] == l;
    [l]
  }

  /** `DTEND`, when the event has an end. */
  function EndLines(e: Event): (ls: seq<ContentLine>)
    ensures forall p :: HasProperty(ls, p) <==> p == DtEnd && e.end.Some?
    ensures e.end.Some? ==> TimeLine(DtEnd, e, e.end.value) in ls
    ensures AllClean(ls)
  {
    if e.end.Some? then
      var l := TimeLine(DtEnd, e, e.end.value);
      assert [l][0] == l;
      [l]
    else []
  }

  /** `DTSTAMP`, the same for every event of the feed, and `UID`. */
  function StampLines(e: Event, i: nat, now: Clock): (ls: seq<ContentLine>)
    ensures forall p :: HasProperty(ls, p) <==> p == DtStamp || p == Uid
    ensures ContentLine(DtStamp, "", ToUtc(now.utc)) in ls
    ensures ContentLine(Uid, "", EventUid(e, i, now.millis)) in ls
    ensures NoCr(e) ==> AllClean(ls)
  {
    var ls := [ContentLine(DtStamp, "", ToUtc(now.utc)), ContentLine(Uid, "", EventUid(e, i, now.millis))];
    assert ls[0].name == DtStamp && ls[1].name == Uid;
    if NoCr(e) then
      EventUidNoCr(e, i, now.millis);
      ls
    else ls
  }

  lemma EventUidNoCr(e: Event, i: nat, millis: nat)
    requires '\r' !in OrElse(e.uid, "evt")
    ensures '\r' !in EventUid(e, i, millis)
  {
    DigitsHaveNoBreak(NatToString(i));
    DigitsHaveNoBreak(NatToString(millis));
  }

  /** The line for an optional TEXT property: none unless the field is
      truthy, then the escaped value, which unescapes to the field. */
  function TextLines(name: Property, o: Option<string>): (ls: seq<ContentLine>)
    ensures |ls| <= 1
    ensures forall p :: HasProperty(ls, p) <==> p == name && Truthy(o)
    ensures |ls| == 1 ==> o.Some? && ls[0].name == name && Unescape(ls[0].value) == o.value
    ensures (o.Some? ==> '\r' !in o.value) ==> AllClean(ls)
  {
    if Truthy(o) then
      UnescapeEscape(o.value);
      var l := ContentLine(name, "", Escape(o.value));
      assert [l][0] == l;
      [l]
    else []
  }

  /** The properties of the `i`-th event, between its delimiters; every
      event carries the feed's one `DTSTAMP` and its own UID. `DTSTART` and
      `DTEND` carry the local calendar date, marked `;VALUE=DATE`, for an
      all-day event, and the UTC stamp otherwise. */
  function EventBody(e: Event, i: nat, now: Clock): (b: seq<ContentLine>)
    ensures ContentLine(DtStamp, "", ToUtc(now.utc)) in b
    ensures ContentLine(Uid, "", EventUid(e, i, now.millis)) in b
    ensures e.allDay ==> ContentLine(DtStart, ";VALUE=DATE", ToDate(e.start.local)) in b
    ensures !e.allDay ==> ContentLine(DtStart, "", ToUtc(e.start.utc)) in b
    ensures e.allDay && e.end.Some? ==> ContentLine(DtEnd, ";VALUE=DATE", ToDate(e.end.value.local)) in b
    ensures !e.allDay && e.end.Some? ==> ContentLine(DtEnd, "", ToUtc(e.end.value.utc)) in b
  {
    StartLines(e)
    + EndLines(e)
    + StampLines(e, i, now)
    + TextLines(Summary, e.summary)
    + TextLines(Description, e.description)
    + TextLines(Location, e.location)
  }

  function EventLines(e: Event, i: nat, now: Clock): seq<ContentLine> {
    [BeginEvent] + EventBody(e, i, now) + [EndEvent]
  }

  /** Which properties an event's block carries: `DTSTART`, `DTSTAMP` and
      `UID` always, `DTEND` exactly when the event has an end, each TEXT
      property exactly when its field is truthy, and nothing else (in
      particular no nested `BEGIN` or `END`). */
  lemma EventBodyProperties(e: Event, i: nat, now: Clock)
    ensures forall p :: HasProperty(EventBody(e, i, now), p) <==>
      || p == DtStart || p == DtStamp || p == Uid
      || (p == DtEnd && e.end.Some?)
      || (p == Summary && Truthy(e.summary))
      || (p == Description && Truthy(e.description))
      || (p == Location && Truthy(e.location))
  {
    forall p: Property {
      HasPropertyParts(StartLines(e), EndLines(e), StampLines(e, i, now),
        TextLines(Summary, e.summary), TextLines(Description, e.description), TextLines(Location, e.location), p);
    }
  }

  lemma AllCleanConcat(a: seq<ContentLine>, b: seq<ContentLine>)
    requires AllClean(a) && AllClean(b)
    ensures AllClean(a + b)
  {
    forall k | 0 <= k < |a + b|
      ensures CleanLine((a + b)[k])
    {
      if k >= |a| {
        assert (a + b)[k] == b[k - |a|];
      }
    }
  }

  /** Clean parts laid end to end are clean. */
  lemma AllCleanParts(p0: seq<ContentLine>, p1: seq<ContentLine>, p2: seq<ContentLine>,
                      p3: seq<ContentLine>, p4: seq<ContentLine>, p5: seq<ContentLine>)
    requires AllClean(p0) && AllClean(p1) && AllClean(p2) && AllClean(p3) && AllClean(p4) && AllClean(p5)
    ensures AllClean(p0 + p1 + p2 + p3 + p4 + p5)
  {
    AllCleanConcat(p0, p1);
    AllCleanConcat(p0 + p1, p2);
    AllCleanConcat(p0 + p1 + p2, p3);
    AllCleanConcat(p0 + p1 + p2 + p3, p4);
    AllCleanConcat(p0 + p1 + p2 + p3 + p4, p5);
  }

  /** An event without carriage returns in its own text yields clean lines. */
  lemma EventLinesClean(e: Event, i: nat, now: Clock)
    requires NoCr(e)
    ensures AllClean(EventLines(e, i, now))
  {
    AllCleanParts(StartLines(e), EndLines(e), StampLines(e, i, now),
      TextLines(Summary, e.summary), TextLines(Description, e.description), TextLines(Location, e.location));
    BlockClean(EventBody(e, i, now));
  }

  lemma BlockClean(b: seq<ContentLine>)
    requires AllClean(b)
    ensures AllClean([BeginEvent] + b + [EndEvent])
  {
    AllCleanConcat([BeginEvent], b);
    AllCleanConcat([BeginEvent] + b, [EndEvent]);
  }

  // ---------------------------------------------------------------- the feed

  /** The `calName` parameter: `'Followups'` when the caller passes none. */
  function CalendarName(calName: Option<string>): string {
    match calName
    case None => "Followups"
    case Some(n) => n
  }

  /** The product identifier the feed announces. */
  const ProductId := "-//Partners & Projects CRM//EN"

  function Header(calName: Option<string>): seq<ContentLine> {
    [ContentLine(Begin, "", "VCALENDAR"),
     ContentLine(Version, "", "2.0"),
     ContentLine(ProdId, "", ProductId),
     ContentLine(CalName, "", CalendarName(calName))]
  }

  const EndCalendar := ContentLine(End, "", "VCALENDAR")

  /** `events.forEach`: the blocks of all events, in input order, the `i`-th
      numbered `i`. */
  function EventsLines(events: seq<Event>, now: Clock): seq<ContentLine>
    decreases |events|
  {
    if |events| == 0 then []
    else
      var n := |events| - 1;
      EventsLines(events[..n], now) + EventLines(events[n], n, now)
  }

  /** The feed opens the calendar, names it, and closes it last. */
  function CalendarLines(events: seq<Event>, calName: Option<string>, now: Clock): (ls: seq<ContentLine>)
    ensures |ls| >= 5
    ensures ls[0] == ContentLine(Begin, "", "VCALENDAR") && ls[3] == ContentLine(CalName, "", CalendarName(calName))
    ensures ls[|ls| - 1] == ContentLine(End, "", "VCALENDAR")
  {
    Header(calName) + EventsLines(events, now) + [EndCalendar]
  }

  lemma CountAbsentProperty(ls: seq<ContentLine>, x: ContentLine)
    requires !HasProperty(ls, x.name)
    ensures Count(ls, x) == 0
  {
    assert x !in ls;
    CountAbsent(ls, x);
  }

  /** One `BEGIN:VEVENT` and one `END:VEVENT` in each event's block. */
  lemma EventLinesCount(e: Event, i: nat, now: Clock)
    ensures Count(EventLines(e, i, now), BeginEvent) == 1
    ensures Count(EventLines(e, i, now), EndEvent) == 1
  {
    EventBodyNoDelimiters(e, i, now);
    BlockCount(EventBody(e, i, now));
  }

  lemma EventBodyNoDelimiters(e: Event, i: nat, now: Clock)
    ensures !HasProperty(EventBody(e, i, now), Begin) && !HasProperty(EventBody(e, i, now), End)
  {
    var b := EventBody(e, i, now);
    EventBodyProperties(e, i, now);
    assert HasProperty(b, Begin) ==> (Begin == DtStart || Begin == DtStamp || Begin == Uid
                                  || Begin == DtEnd || Begin == Summary || Begin == Description || Begin == Location);
    assert HasProperty(b, End) ==> (End == DtStart || End == DtStamp || End == Uid
                                  || End == DtEnd || End == Summary || End == Description || End == Location);
  }

  lemma BlockCount(b: seq<ContentLine>)
    requires !HasProperty(b, Begin) && !HasProperty(b, End)
    ensures Count([BeginEvent] + b + [EndEvent], BeginEvent) == 1
    ensures Count([BeginEvent] + b + [EndEvent], EndEvent) == 1
  {
    CountConcat([BeginEvent] + b, [EndEvent], BeginEvent);
    CountConcat([BeginEvent], b, BeginEvent);
    CountAbsentProperty(b, BeginEvent);
    CountConcat([BeginEvent] + b, [EndEvent], EndEvent);
    CountConcat([BeginEvent], b, EndEvent);
    CountAbsentProperty(b, EndEvent);
  }

  /** Exactly one `BEGIN:VEVENT` and one `END:VEVENT` per event. */
  lemma {:induction false} EventsLinesCount(events: seq<Event>, now: Clock)
    ensures Count(EventsLines(events, now), BeginEvent) == |events|
    ensures Count(EventsLines(events, now), EndEvent) == |events|
    decreases |events|
  {
    if |events| > 0 {
      var n := |events| - 1;
      EventsLinesCount(events[..n], now);
      EventLinesCount(events[n], n, now);
      CountConcat(EventsLines(events[..n], now), EventLines(events[n], n, now), BeginEvent);
      CountConcat(EventsLines(events[..n], now), EventLines(events[n], n, now), EndEvent);
    }
  }

  /** The whole feed holds as many VEVENT blocks as there are events: the
      calendar's own header and footer are not event delimiters. */
  lemma CalendarEventCount(events: seq<Event>, calName: Option<string>, now: Clock)
    ensures Count(CalendarLines(events, calName, now), BeginEvent) == |events|
    ensures Count(CalendarLines(events, calName, now), EndEvent) == |events|
  {
    EventsLinesCount(events, now);
    FrameHasNoEvents(calName);
    FrameCount(Header(calName), EventsLines(events, now), EndCalendar, BeginEvent);
    FrameCount(Header(calName), EventsLines(events, now), EndCalendar, EndEvent);
  }

  lemma FrameHasNoEvents(calName: Option<string>)
    ensures BeginEvent !in Header(calName) && EndEvent !in Header(calName)
    ensures EndCalendar != BeginEvent && EndCalendar != EndEvent
  {
    assert |"VCALENDAR"| != |"VEVENT"|;
  }

  /** Header and footer lines other than `x` add nothing to its count. */
  lemma FrameCount(h: seq<ContentLine>, b: seq<ContentLine>, last: ContentLine, x: ContentLine)
    requires x !in h && x != last
    ensures Count(h + b + [last], x) == Count(b, x)
  {
    CountConcat(h + b, [last], x);
    CountConcat(h, b, x);
    CountAbsent(h, x);
    CountAbsent([last], x);
  }

  // --------------------------------------------------------------- rendering

  /** The texts of the lines, in order. */
  function Texts(ls: seq<ContentLine>): (ts: seq<string>)
    ensures |ts| == |ls|
    ensures forall k :: 0 <= k < |ls| ==> ts[k] == LineText(ls[k])
  {
    seq(|ls|, k requires 0 <= k < |ls| => LineText(ls[k]))
  }

  /** Each text followed by CRLF. */
  function Join(ts: seq<string>): string
    decreases |ts|
  {
    if |ts| == 0 then "" else ts[0] + "\r\n" + Join(ts[1..])
  }

  lemma {:induction false} JoinConcat(a: seq<string>, b: seq<string>)
    ensures Join(a + b) == Join(a) + Join(b)
    decreases |a|
  {
    if |a| == 0 {
      assert a + b == b;
    } else {
      assert (a + b)[1..] == a[1..] + b;
      JoinConcat(a[1..], b);
    }
  }

  /** The joined text starts with the first line and ends with the last,
      each with its CRLF. */
  lemma JoinFrame(ts: seq<string>)
    requires |ts| > 0
    ensures StartsWith(Join(ts), ts[0] + "\r\n")
    ensures EndsWith(Join(ts), ts[|ts| - 1] + "\r\n")
  {
    var n := |ts| - 1;
    assert ts == ts[..n] + [ts[n]];
    JoinConcat(ts[..n], [ts[n]]);
    assert [ts[n]][1..] == [];
    assert Join(ts) == Join(ts[..n]) + (ts[n] + "\r\n");
  }

  /** `buildICS`: the header, the event blocks and the footer, each line
      followed by CRLF. The text opens the calendar and closes it. */
  function BuildIcs(events: seq<Event>, calName: Option<string>, now: Clock): (r: string)
    ensures StartsWith(r, "BEGIN:VCALENDAR\r\n")
    ensures EndsWith(r, "END:VCALENDAR\r\n")
  {
    var ls := CalendarLines(events, calName, now);
    var ts := Texts(ls);
    CalendarFirstLine(events, calName, now);
    CalendarLastLine(events, calName, now);
    JoinFrame(ts);
    Join(ts)
  }

  lemma CalendarFirstLine(events: seq<Event>, calName: Option<string>, now: Clock)
    ensures |CalendarLines(events, calName, now)| > 0
    ensures LineText(CalendarLines(events, calName, now)[0]) == "BEGIN:VCALENDAR"
  {
    HeaderBegins(calName);
  }

  lemma CalendarLastLine(events: seq<Event>, calName: Option<string>, now: Clock)
    ensures var ls := CalendarLines(events, calName, now);
      |ls| > 0 && LineText(ls[|ls| - 1]) == "END:VCALENDAR"
  {
    FooterEnds();
  }

  /** The texts of the calendar's own lines: the header opens the calendar,
      states version 2.0, the product id and the calendar name, and the
      footer closes it. */
  lemma HeaderBegins(calName: Option<string>)
    ensures LineText(Header(calName)[0]) == "BEGIN:VCALENDAR"
  {
  }

  lemma HeaderVersion(calName: Option<string>)
    ensures LineText(Header(calName)[1]) == "VERSION:2.0"
  {
  }

  lemma HeaderProductId(calName: Option<string>)
    ensures LineText(Header(calName)[2]) == "PRODID:" + ProductId
  {
  }

  lemma HeaderCalendarName(calName: Option<string>)
    ensures LineText(Header(calName)[3]) == "X-WR-CALNAME:" + CalendarName(calName)
  {
  }

  lemma FooterEnds()
    ensures LineText(EndCalendar) == "END:VCALENDAR"
  {
  }

  /** Position of the first carriage return, or the length when there is
      none. */
  function FirstCr(s: string): (i: nat)
    ensures i <= |s|
    ensures i < |s| ==> s[i] == '\r'
    ensures forall j :: 0 <= j < i ==> s[j] != '\r'
    decreases |s|
  {
    if |s| == 0 then 0
    else if s[0] == '\r' then 0
    else
      1 + FirstCr(s[1..])
  }

  /** Splitting a text into its CRLF-terminated lines; an unterminated tail
      is kept as a last line. */
  function SplitLines(s: string): seq<string>
    decreases |s|
  {
    if |s| == 0 then []
    else
      var i := FirstCr(s);
      if i + 1 < |s| && s[i + 1] == '\n' then [s[..i]] + SplitLines(s[i + 2..]) else [s]
  }

  lemma FirstCrOfLine(t: string, rest: string)
    requires '\r' !in t
    ensures FirstCr(t + "\r\n" + rest) == |t|
  {
    var s := t + "\r\n" + rest;
    assert s[|t|] == '\r';
    assert forall j :: 0 <= j < |t| ==> s[j] == t[j];
  }

  /** When no text holds a carriage return, splitting the joined text at
      CRLF gives the texts back. */
  lemma {:induction false} SplitJoin(ts: seq<string>)
    requires forall k :: 0 <= k < |ts| ==> '\r' !in ts[k]
    ensures SplitLines(Join(ts)) == ts
    decreases |ts|
  {
    if |ts| > 0 {
      var t, rest := ts[0], Join(ts[1..]);
      var s := t + "\r\n" + rest;
      FirstCrOfLine(t, rest);
      assert s[..|t|] == t;
      assert s[|t| + 2..] == rest;
      SplitJoin(ts[1..]);
      assert ts == [t] + ts[1..];
    }
  }

  /** Clean lines render to texts without a carriage return. */
  lemma TextsNoCr(ls: seq<ContentLine>)
    requires AllClean(ls)
    ensures forall k :: 0 <= k < |Texts(ls)| ==> '\r' !in Texts(ls)[k]
  {
    forall k | 0 <= k < |ls|
      ensures '\r' !in LineText(ls[k])
    {
      LineTextNoCr(ls[k]);
    }
  }

  lemma PropertyTextNoCr(p: Property)
    ensures '\r' !in PropertyText(p)
  {
  }

  lemma LineTextNoCr(l: ContentLine)
    requires CleanLine(l)
    ensures '\r' !in LineText(l)
  {
    PropertyTextNoCr(l.name);
  }

  lemma {:induction false} EventsLinesClean(events: seq<Event>, now: Clock)
    requires forall k :: 0 <= k < |events| ==> NoCr(events[k])
    ensures AllClean(EventsLines(events, now))
    decreases |events|
  {
    if |events| > 0 {
      var n := |events| - 1;
      EventsLinesClean(events[..n], now);
      EventLinesClean(events[n], n, now);
      AllCleanConcat(EventsLines(events[..n], now), EventLines(events[n], n, now));
    }
  }

  /** The feed is a sequence of CRLF-terminated lines: header, the event
      blocks in order, footer. A carriage return inside a field is the only
      thing that could break a line, since line feeds are escaped. */
  lemma BuildIcsLines(events: seq<Event>, calName: Option<string>, now: Clock)
    requires '\r' !in CalendarName(calName)
    requires forall k :: 0 <= k < |events| ==> NoCr(events[k])
    ensures var ls := CalendarLines(events, calName, now);
      SplitLines(BuildIcs(events, calName, now)) == Texts(ls)
  {
    EventsLinesClean(events, now);
    CalendarSplit(calName, EventsLines(events, now));
  }

  lemma CalendarSplit(calName: Option<string>, b: seq<ContentLine>)
    requires '\r' !in CalendarName(calName)
    requires AllClean(b)
    ensures var ls := Header(calName) + b + [EndCalendar];
      SplitLines(Join(Texts(ls))) == Texts(ls)
  {
    HeaderClean(calName);
    FrameClean(Header(calName), b, EndCalendar);
    var ls := Header(calName) + b + [EndCalendar];
    TextsNoCr(ls);
    SplitJoin(Texts(ls));
  }

  lemma HeaderClean(calName: Option<string>)
    requires '\r' !in CalendarName(calName)
    ensures AllClean(Header(calName))
  {
    HeaderValuesClean();
    var h := Header(calName);
    assert CleanLine(h[0]) && CleanLine(h[1]) && CleanLine(h[2]) && CleanLine(h[3]);
  }

  lemma HeaderValuesClean()
    ensures '\r' !in "VCALENDAR" && '\r' !in "2.0" && '\r' !in ProductId && '\r' !in ""
  {
  }

  lemma FrameClean(h: seq<ContentLine>, b: seq<ContentLine>, last: ContentLine)
    requires AllClean(h) && AllClean(b) && CleanLine(last)
    ensures AllClean(h + b + [last])
  {
    AllCleanConcat(h, b);
    AllCleanConcat(h + b, [last]);
  }
}

=== FILE: partners.dfy ===
/** The partners page: adding or updating a partner contact, deleting a
    contact, and the partner list ordered by name. */
module Partners {
  import opened Base
  import opened Strings
  import opened Sorting
  import opened Crm

  /** The partners as listed: ordered by name, each partner as often as in
      the document. */
  function SortedPartners(ps: seq<Partner>): (r: seq<Partner>)
    ensures SortedBy(r, PartnerName)
    ensures multiset(r) == multiset(ps)
  {
    SortBy(ps, PartnerName)
  }

  // ------------------------------------------------------ adding/updating

  /** The input row: the partner's name and one contact. */
  datatype PartnerForm = PartnerForm(name: string, contact: string, email: string, phone: string)

  /** `editing`: the partner and contact position being edited, or `None`
      when the row adds a contact. */
  datatype PartnerEditing = PartnerEditing(partnerId: Option<string>, contactIndex: nat)

  function FormContact(form: PartnerForm): Contact {
    Contact(form.contact, form.email, form.phone)
  }

  /** Position of the first partner whose trimmed name is exactly `name`
      (case matters), or -1. */
  function NameIndex(ps: seq<Partner>, name: string): (i: int)
    ensures -1 <= i < |ps|
    ensures 0 <= i ==> Trim(ps[i].name) == name && forall j :: 0 <= j < i ==> Trim(ps[j].name) != name
    ensures i == -1 <==> forall j :: 0 <= j < |ps| ==> Trim(ps[j].name) != name
  {
    FirstIndex(ps, (p: Partner) => Trim(p.name) == name)
  }

  function IdIndex(ps: seq<Partner>, id: string): (i: int)
    ensures -1 <= i < |ps|
    ensures 0 <= i ==> ps[i].id == id && forall j :: 0 <= j < i ==> ps[j].id != id
    ensures i == -1 <==> forall j :: 0 <= j < |ps| ==> ps[j].id != id
  {
    FirstIndex(ps, (p: Partner) => p.id == id)
  }

  /** The partners with the one the row names: found by trimmed name, or
      appended with no contacts; and the position it is at. `id` stands for
      the random identifier the page generates. */
  function WithPartner(ps: seq<Partner>, name: string, id: string): (r: (seq<Partner>, nat))
    ensures r.1 < |r.0| && Trim(r.0[r.1].name) == Trim(name)
    ensures NameIndex(ps, name) >= 0 ==> r.0 == ps && r.1 == NameIndex(ps, name)
    ensures NameIndex(ps, name) == -1 ==> r.0 == ps + [Partner(id, name, [])] && r.1 == |ps|
    ensures forall j :: 0 <= j < |r.0| ==> j < |ps| || Trim(r.0[j].name) == Trim(name)
  {
    var i := NameIndex(ps, name);
    if i >= 0 then (ps, i)
    else (ps + [Partner(id, name, [])], |ps|)
  }

  /** Contact `k` of the first partner with id `pid` replaced; a missing
      id changes nothing. */
  function EditContactOf(w: seq<Partner>, pid: string, k: nat, c: Contact): (u: seq<Partner>)
    ensures |u| == |w|
    ensures forall j :: 0 <= j < |w| ==> u[j].id == w[j].id && u[j].name == w[j].name
    ensures forall j :: 0 <= j < |w| && j != IdIndex(w, pid) ==> u[j] == w[j]
  {
    var pi := IdIndex(w, pid);
    if pi == -1 then w else w[pi := w[pi].(contacts := SetAt(w[pi].contacts, k, c))]
  }

  /** Contact `c` appended to the partner at `at`. */
  function AppendContactAt(w: seq<Partner>, at: nat, c: Contact): (u: seq<Partner>)
    requires at < |w|
    ensures |u| == |w|
    ensures forall j :: 0 <= j < |w| ==> u[j].id == w[j].id && u[j].name == w[j].name
  {
    w[at := w[at].(contacts := w[at].contacts + [c])]
  }

  /** The partners before sorting: in add mode the row's contact is
      appended to the named partner; in edit mode contact `contactIndex` of
      the partner with the edited id is replaced, and a partner created for
      a renamed row keeps no contact. */
  function Upserted(ps: seq<Partner>, form: PartnerForm, editing: PartnerEditing, id: string): (u: seq<Partner>)
    requires Trim(form.name) != ""
    ensures |u| == |ps| + (if NameIndex(ps, Trim(form.name)) == -1 then 1 else 0)
    ensures forall j :: 0 <= j < |ps| ==> u[j].id == ps[j].id && u[j].name == ps[j].name
    ensures NameIndex(ps, Trim(form.name)) == -1 ==> u[|ps|].id == id && u[|ps|].name == Trim(form.name)
  {
    var w := WithPartner(ps, Trim(form.name), id);
    if editing.partnerId.Some? then EditContactOf(w.0, editing.partnerId.value, editing.contactIndex, FormContact(form))
    else AppendContactAt(w.0, w.1, FormContact(form))
  }

  /** `addOrUpdate`: an empty trimmed name leaves the partners as they were;
      otherwise the updated partners are stored ordered by name. */
  function SavePartner(ps: seq<Partner>, form: PartnerForm, editing: PartnerEditing, id: string): (r: seq<Partner>)
    ensures Trim(form.name) == "" ==> r == ps
    ensures Trim(form.name) != "" ==> SortedBy(r, PartnerName) && multiset(r) == multiset(Upserted(ps, form, editing, id))
  {
    if Trim(form.name) == "" then ps else SortBy(Upserted(ps, form, editing, id), PartnerName)
  }

  /** In add mode the row's contact lands, last, on the partner named by
      the row, and nowhere else; a partner is created only when none has the
      name, and then with that one contact. */
  lemma AddContactLands(ps: seq<Partner>, form: PartnerForm, id: string)
    requires Trim(form.name) != ""
    ensures var u := Upserted(ps, form, PartnerEditing(None, 0), id); var i := NameIndex(ps, Trim(form.name));
      && (i >= 0 ==> u == ps[i := ps[i].(contacts := ps[i].contacts + [FormContact(form)])])
      && (i == -1 ==> u == ps + [Partner(id, Trim(form.name), [FormContact(form)])])
  {
    var name := Trim(form.name);
    var u := Upserted(ps, form, PartnerEditing(None, 0), id);
    var w := WithPartner(ps, name, id);
    assert u == AppendContactAt(w.0, w.1, FormContact(form));
    if NameIndex(ps, name) == -1 {
      assert w.0 == ps + [Partner(id, name, [])] && w.1 == |ps|;
      assert w.0[|ps|].contacts + [FormContact(form)] == [FormContact(form)];
      assert u[|ps|] == Partner(id, name, [FormContact(form)]);
      assert u[..|ps|] == ps;
      assert u == u[..|ps|] + [u[|ps|]];
    }
  }

  /** In edit mode contact `contactIndex` of the first partner with the
      edited id is replaced and every other contact is kept. */
  lemma EditContactLands(ps: seq<Partner>, form: PartnerForm, pid: string, k: nat, id: string)
    requires Trim(form.name) != "" && NameIndex(ps, Trim(form.name)) >= 0
    requires IdIndex(ps, pid) >= 0 && k < |ps[IdIndex(ps, pid)].contacts|
    ensures var u := Upserted(ps, form, PartnerEditing(Some(pid), k), id); var pi := IdIndex(ps, pid);
      && |u| == |ps|
      && (forall j :: 0 <= j < |ps| && j != pi ==> u[j] == ps[j])
      && |u[pi].contacts| == |ps[pi].contacts|
      && u[pi].contacts[k] == FormContact(form)
      && (forall m :: 0 <= m < |ps[pi].contacts| && m != k ==> u[pi].contacts[m] == ps[pi].contacts[m])
  {
  }

  /** After saving, some partner's trimmed name is the row's trimmed name. */
  lemma SavedPartnerNamed(ps: seq<Partner>, form: PartnerForm, editing: PartnerEditing, id: string)
    requires Trim(form.name) != ""
    ensures NameIndex(SavePartner(ps, form, editing, id), Trim(form.name)) >= 0
  {
    var name := Trim(form.name);
    var u := Upserted(ps, form, editing, id);
    var r := SavePartner(ps, form, editing, id);
    TrimIdempotent(form.name);
    var j: nat;
    if NameIndex(ps, name) >= 0 {
      j := NameIndex(ps, name);
    } else {
      j := |ps|;
    }
    assert Trim(u[j].name) == name;
    assert u[j] in multiset(r);
  }

  /** Saving the same row twice in add mode creates at most one partner:
      the second save finds the partner the first one ensured. */
  lemma SaveTwiceAddsOnePartner(ps: seq<Partner>, form: PartnerForm, id: string, id': string)
    requires Trim(form.name) != ""
    ensures var r := SavePartner(ps, form, PartnerEditing(None, 0), id);
      |SavePartner(r, form, PartnerEditing(None, 0), id')| == |r|
  {
    var r := SavePartner(ps, form, PartnerEditing(None, 0), id);
    SavedPartnerNamed(ps, form, PartnerEditing(None, 0), id);
    var r2 := SavePartner(r, form, PartnerEditing(None, 0), id');
    assert |r2| == |multiset(r2)|;
  }

  // ------------------------------------------------------------- deleting

  /** Every element whose position is not `index`, in order; an index out of
      range removes nothing. */
  function WithoutIndex<T>(s: seq<T>, index: int): (r: seq<T>)
    ensures |r| == if 0 <= index < |s| then |s| - 1 else |s|
    decreases |s|
  {
    if |s| == 0 then []
    else WithoutIndex(s[..|s| - 1], index) + (if index == |s| - 1 then [] else [s[|s| - 1]])
  }

  /** The filter removes exactly what `splice(index, 1)` would. */
  lemma {:induction false} WithoutIndexIsRemoveAt<T>(s: seq<T>, index: nat)
    ensures WithoutIndex(s, index) == RemoveAt(s, index)
    decreases |s|
  {
    if |s| > 0 {
      var init := s[..|s| - 1];
      WithoutIndexIsRemoveAt(init, index);
      var r := WithoutIndex(s, index);
      var r' := RemoveAt(s, index);
      if index < |s| - 1 {
        assert r' == r by {
          forall j | 0 <= j < |r'|
            ensures r'[j] == r[j]
          {
          }
        }
      } else if index == |s| - 1 {
        assert r' == init;
      } else {
        assert init + [s[|s| - 1]] == s;
      }
    }
  }

  function DropContact(p: Partner, partnerId: string, index: nat): Partner {
    if p.id != partnerId then p else p.(contacts := WithoutIndex(p.contacts, index))
  }

  /** `deleteContact(partnerId, index)`: contact `index` of every partner
      with `partnerId` is removed. No partner is removed, even one left
      without contacts. */
  function DeleteContact(ps: seq<Partner>, partnerId: string, index: nat): (r: seq<Partner>)
    ensures |r| == |ps|
    ensures forall j :: 0 <= j < |ps| ==> r[j].id == ps[j].id && r[j].name == ps[j].name
    ensures forall j :: 0 <= j < |ps| && ps[j].id != partnerId ==> r[j] == ps[j]
  {
    seq(|ps|, j requires 0 <= j < |ps| => DropContact(ps[j], partnerId, index))
  }

  /** The target partner loses exactly the contact at `index`. */
  lemma DeleteContactRemoves(ps: seq<Partner>, partnerId: string, index: nat, j: nat)
    requires j < |ps| && ps[j].id == partnerId
    ensures DeleteContact(ps, partnerId, index)[j].contacts == RemoveAt(ps[j].contacts, index)
  {
    WithoutIndexIsRemoveAt(ps[j].contacts, index);
  }
}

=== FILE: products.dfy ===
/** The products page: the normalisation that merges product groups of the
    same partner, saving a product from the form (add or edit), and deleting
    one. Every operation maps the document's product groups to new ones. */
module Products {
  import opened Base
  import opened Strings
  import opened Sorting
  import opened Crm

  // ---------------------------------------------------------------- merging

  /** The key groups are merged on: the group's id when it has one, else its
      partner name, else the word `unknown`. */
  function MergeKey(g: ProductGroup): string {
    OrElse(g.partnerId, OrDefault(g.partner, "unknown"))
  }

  /** The keys of the groups, in order. */
  function Keys(gs: seq<ProductGroup>): (ks: seq<string>)
    ensures |ks| == |gs|
    ensures forall i :: 0 <= i < |gs| ==> ks[i] == MergeKey(gs[i])
  {
    seq(|gs|, i requires 0 <= i < |gs| => MergeKey(gs[i]))
  }

  lemma KeysCons(gs: seq<ProductGroup>)
    requires |gs| > 0
    ensures Keys(gs) == [MergeKey(gs[0])] + Keys(gs[1..])
  {
    assert Keys(gs) == [MergeKey(gs[0])] + Keys(gs[1..]);
  }

  /** Position of the first group with key `k`, or -1. */
  function KeyIndex(gs: seq<ProductGroup>, k: string): (i: int)
    ensures -1 <= i < |gs|
    ensures 0 <= i ==> MergeKey(gs[i]) == k && forall j :: 0 <= j < i ==> MergeKey(gs[j]) != k
    ensures i == -1 <==> k !in Keys(gs)
    decreases |gs|
  {
    if |gs| == 0 then -1
    else if MergeKey(gs[0]) == k then 0
    else
      var i := KeyIndex(gs[1..], k);
      KeysCons(gs);
      if i == -1 then -1 else i + 1
  }

  /** The entry `mergeDuplicatePartners` opens for the first group of a key:
      the id becomes `""` when missing. */
  function Opened(g: ProductGroup): ProductGroup {
    ProductGroup(Some(OrElse(g.partnerId, "")), g.partner, g.items)
  }

  /** Opening keeps the key. */
  lemma OpenedKey(g: ProductGroup)
    ensures MergeKey(Opened(g)) == MergeKey(g)
  {
  }

  /** One iteration of the `for (const p of products)` loop over the entries
      collected so far: a new key opens an entry, a known key appends its
      items to the entry's. */
  function MergeStep(acc: seq<ProductGroup>, g: ProductGroup): seq<ProductGroup> {
    var i := KeyIndex(acc, MergeKey(g));
    if i == -1 then acc + [Opened(g)] else acc[i := acc[i].(items := acc[i].items + g.items)]
  }

  function MergeFold(gs: seq<ProductGroup>): seq<ProductGroup>
    decreases |gs|
  {
    if |gs| == 0 then [] else MergeStep(MergeFold(gs[..|gs| - 1]), gs[|gs| - 1])
  }

  /** The last stage of the merge: each collected entry with its items
      deduplicated and sorted. */
  function Finish(f: seq<ProductGroup>): (r: seq<ProductGroup>)
    ensures |r| == |f|
    ensures forall i :: 0 <= i < |f| ==> r[i] == f[i].(items := SortStrings(Dedup(f[i].items)))
  {
    seq(|f|, i requires 0 <= i < |f| => f[i].(items := SortStrings(Dedup(f[i].items))))
  }

  /** Finishing keeps each entry's key and id and leaves its items strictly
      sorted. */
  lemma FinishSorted(f: seq<ProductGroup>)
    ensures Keys(Finish(f)) == Keys(f)
    ensures forall i :: 0 <= i < |f| ==> Finish(f)[i].partnerId == f[i].partnerId && StrictlySorted(Finish(f)[i].items)
  {
    forall i | 0 <= i < |f|
      ensures StrictlySorted(Finish(f)[i].items)
    {
      SortDistinctStrings(Dedup(f[i].items));
    }
  }

  /** `mergeDuplicatePartners`: one group per distinct key of the input, in
      first-seen order, each with an id and strictly sorted items. */
  function Merge(gs: seq<ProductGroup>): (r: seq<ProductGroup>)
    ensures Keys(r) == Dedup(Keys(gs))
    ensures Normalised(r)
  {
    var ks := Dedup(Keys(gs));
    MergeFoldIsEntries(gs);
    EntriesForKeys(gs, ks);
    FinishSorted(MergeFold(gs));
    Finish(MergeFold(gs))
  }

  // ------------------------------------------------- the merge without a loop

  /** The items of every group with key `k`, in order, repeats included. */
  function ItemsWith(gs: seq<ProductGroup>, k: string): seq<string>
    decreases |gs|
  {
    if |gs| == 0 then []
    else
      var n := |gs| - 1;
      ItemsWith(gs[..n], k) + if MergeKey(gs[n]) == k then gs[n].items else []
  }

  /** What the loop collects for key `k`: the first group's id (or `""`) and
      name, and the items of all groups with that key. */
  function Entry(gs: seq<ProductGroup>, k: string): ProductGroup
    requires k in Keys(gs)
  {
    var f := gs[KeyIndex(gs, k)];
    ProductGroup(Some(OrElse(f.partnerId, "")), f.partner, ItemsWith(gs, k))
  }

  function EntriesFor(gs: seq<ProductGroup>, ks: seq<string>): (es: seq<ProductGroup>)
    requires forall k :: k in ks ==> k in Keys(gs)
    ensures |es| == |ks|
    ensures forall i :: 0 <= i < |ks| ==> es[i] == Entry(gs, ks[i])
  {
    seq(|ks|, i requires 0 <= i < |ks| => Entry(gs, ks[i]))
  }

  lemma KeysSnoc(gs: seq<ProductGroup>, g: ProductGroup)
    ensures Keys(gs + [g]) == Keys(gs) + [MergeKey(g)]
  {
  }

  lemma ItemsWithSnoc(gs: seq<ProductGroup>, g: ProductGroup, k: string)
    ensures ItemsWith(gs + [g], k) == ItemsWith(gs, k) + if MergeKey(g) == k then g.items else []
  {
    assert (gs + [g])[..|gs|] == gs;
  }

  /** A key no group carries collects nothing. */
  lemma {:induction false} ItemsWithAbsent(gs: seq<ProductGroup>, k: string)
    requires k !in Keys(gs)
    ensures ItemsWith(gs, k) == []
    decreases |gs|
  {
    if |gs| > 0 {
      var n := |gs| - 1;
      assert Keys(gs)[n] == MergeKey(gs[n]);
      assert forall j :: 0 <= j < n ==> Keys(gs[..n])[j] == Keys(gs)[j];
      ItemsWithAbsent(gs[..n], k);
    }
  }

  /** An item is collected for `k` exactly when some group with key `k`
      lists it. */
  lemma {:induction false} ItemsWithMembers(gs: seq<ProductGroup>, k: string, x: string)
    ensures x in ItemsWith(gs, k) <==> exists j :: 0 <= j < |gs| && MergeKey(gs[j]) == k && x in gs[j].items
    decreases |gs|
  {
    if |gs| > 0 {
      var n := |gs| - 1;
      ItemsWithMembers(gs[..n], k, x);
      assert forall j :: 0 <= j < n ==> gs[..n][j] == gs[j];
    }
  }

  /** The first group of a known key does not move when a group is added. */
  lemma KeyIndexSnoc(gs: seq<ProductGroup>, g: ProductGroup, k: string)
    requires k in Keys(gs)
    ensures KeyIndex(gs + [g], k) == KeyIndex(gs, k)
  {
    var i, i' := KeyIndex(gs, k), KeyIndex(gs + [g], k);
    KeysSnoc(gs, g);
    assert (gs + [g])[i] == gs[i];
  }

  /** An entry of another key is untouched by a group added at the end. */
  lemma EntryOther(gs: seq<ProductGroup>, g: ProductGroup, k: string)
    requires k in Keys(gs) && k != MergeKey(g)
    ensures k in Keys(gs + [g]) && Entry(gs + [g], k) == Entry(gs, k)
  {
    KeysSnoc(gs, g);
    KeyIndexSnoc(gs, g, k);
    ItemsWithSnoc(gs, g, k);
    assert ItemsWith(gs, k) + [] == ItemsWith(gs, k);
    assert (gs + [g])[KeyIndex(gs, k)] == gs[KeyIndex(gs, k)];
  }

  /** The entry of the added group's known key gains its items. */
  lemma EntryOwn(gs: seq<ProductGroup>, g: ProductGroup)
    requires MergeKey(g) in Keys(gs)
    ensures MergeKey(g) in Keys(gs + [g])
    ensures Entry(gs + [g], MergeKey(g)) == Entry(gs, MergeKey(g)).(items := Entry(gs, MergeKey(g)).items + g.items)
  {
    var k := MergeKey(g);
    KeysSnoc(gs, g);
    KeyIndexSnoc(gs, g, k);
    ItemsWithSnoc(gs, g, k);
    assert (gs + [g])[KeyIndex(gs, k)] == gs[KeyIndex(gs, k)];
  }

  /** The added group of a new key opens its entry. */
  lemma EntryNew(gs: seq<ProductGroup>, g: ProductGroup)
    requires MergeKey(g) !in Keys(gs)
    ensures MergeKey(g) in Keys(gs + [g]) && Entry(gs + [g], MergeKey(g)) == Opened(g)
  {
    var k := MergeKey(g);
    KeysSnoc(gs, g);
    assert KeyIndex(gs + [g], k) == |gs|;
    ItemsWithSnoc(gs, g, k);
    ItemsWithAbsent(gs, k);
    assert [] + g.items == g.items;
  }

  /** An entry carries the key it was collected for. */
  lemma EntryKey(gs: seq<ProductGroup>, k: string)
    requires k in Keys(gs)
    ensures MergeKey(Entry(gs, k)) == k
  {
    OpenedKey(gs[KeyIndex(gs, k)]);
  }

  lemma EntriesForKeys(gs: seq<ProductGroup>, ks: seq<string>)
    requires forall k :: k in ks ==> k in Keys(gs)
    ensures Keys(EntriesFor(gs, ks)) == ks
  {
    forall i | 0 <= i < |ks|
      ensures MergeKey(EntriesFor(gs, ks)[i]) == ks[i]
    {
      EntryKey(gs, ks[i]);
    }
  }

  /** The loop has collected, after any prefix of the groups, exactly one
      entry per distinct key in first-seen order. */
  lemma {:induction false} MergeFoldIsEntries(gs: seq<ProductGroup>)
    ensures forall k :: k in Dedup(Keys(gs)) ==> k in Keys(gs)
    ensures MergeFold(gs) == EntriesFor(gs, Dedup(Keys(gs)))
    decreases |gs|
  {
    if |gs| > 0 {
      var n := |gs| - 1;
      var init, g := gs[..n], gs[n];
      assert gs == init + [g];
      MergeFoldIsEntries(init);
      var ks := Dedup(Keys(init));
      var e := EntriesFor(init, ks);
      KeysSnoc(init, g);
      DedupSnoc(Keys(init), MergeKey(g));
      EntriesForKeys(init, ks);
      StepOfEntries(init, g, ks, e);
    }
  }

  lemma StepOfEntries(init: seq<ProductGroup>, g: ProductGroup, ks: seq<string>, e: seq<ProductGroup>)
    requires ks == Dedup(Keys(init)) && (forall k :: k in ks ==> k in Keys(init))
    requires e == EntriesFor(init, ks) && Keys(e) == ks
    ensures var ks' := if MergeKey(g) in ks then ks else ks + [MergeKey(g)];
      && (forall k :: k in ks' ==> k in Keys(init + [g]))
      && MergeStep(e, g) == EntriesFor(init + [g], ks')
  {
    KeysSnoc(init, g);
    if MergeKey(g) in ks {
      StepKnown(init, g, ks, e);
    } else {
      StepNew(init, g, ks, e);
    }
  }

  lemma StepKnown(init: seq<ProductGroup>, g: ProductGroup, ks: seq<string>, e: seq<ProductGroup>)
    requires NoDup(ks) && (forall k :: k in ks ==> k in Keys(init)) && MergeKey(g) in ks
    requires e == EntriesFor(init, ks) && Keys(e) == ks
    ensures forall k :: k in ks ==> k in Keys(init + [g])
    ensures MergeStep(e, g) == EntriesFor(init + [g], ks)
  {
    var k := MergeKey(g);
    KeysSnoc(init, g);
    var i := KeyIndex(e, k);
    assert Keys(e)[i] == k;
    EntryOwn(init, g);
    var e' := EntriesFor(init + [g], ks);
    forall j | 0 <= j < |ks| && j != i
      ensures e'[j] == e[j]
    {
      assert ks[j] != ks[i];
      EntryOther(init, g, ks[j]);
    }
    assert e'[i] == e[i].(items := e[i].items + g.items);
  }

  lemma StepNew(init: seq<ProductGroup>, g: ProductGroup, ks: seq<string>, e: seq<ProductGroup>)
    requires (forall k :: k in ks ==> k in Keys(init)) && MergeKey(g) !in ks && MergeKey(g) !in Keys(init)
    requires e == EntriesFor(init, ks) && Keys(e) == ks
    ensures forall k :: k in ks + [MergeKey(g)] ==> k in Keys(init + [g])
    ensures MergeStep(e, g) == EntriesFor(init + [g], ks + [MergeKey(g)])
  {
    var k := MergeKey(g);
    KeysSnoc(init, g);
    assert KeyIndex(e, k) == -1;
    EntryNew(init, g);
    var e' := EntriesFor(init + [g], ks + [k]);
    forall j | 0 <= j < |ks|
      ensures e'[j] == e[j]
    {
      assert ks[j] in ks;
      EntryOther(init, g, ks[j]);
    }
    assert e'[|ks|] == Opened(g);
  }

  // ----------------------------------------------------- what the merge gives

  /** `mergeDuplicatePartners` yields one group per distinct key, in
      first-seen order; each keeps the first group's partner name and id
      (`""` when missing); its items are strictly sorted, hence distinct, and
      are exactly the items of all input groups with that key. */
  lemma MergeShape(gs: seq<ProductGroup>)
    ensures var r := Merge(gs);
      && Keys(r) == Dedup(Keys(gs))
      && (forall j :: 0 <= j < |gs| ==> MergeKey(gs[j]) in Keys(r))
      && (forall i :: 0 <= i < |r| ==> MergeKey(r[i]) in Keys(gs))
      && (forall i :: 0 <= i < |r| ==> r[i].partnerId.Some? && StrictlySorted(r[i].items))
      && (forall i, x :: 0 <= i < |r| ==>
            (x in r[i].items <==> exists j :: 0 <= j < |gs| && MergeKey(gs[j]) == MergeKey(r[i]) && x in gs[j].items))
  {
    var ks := Dedup(Keys(gs));
    var r := Merge(gs);
    MergeGroups(gs);
    forall i, x | 0 <= i < |r|
      ensures x in r[i].items <==> exists j :: 0 <= j < |gs| && MergeKey(gs[j]) == MergeKey(r[i]) && x in gs[j].items
    {
      ItemsWithMembers(gs, ks[i], x);
    }
    assert Keys(r) == ks;
  }

  /** Group by group, the merged list is the reference entries, finished. */
  lemma MergeGroups(gs: seq<ProductGroup>)
    ensures var ks := Dedup(Keys(gs)); var r := Merge(gs);
      && |r| == |ks|
      && forall i :: 0 <= i < |r| ==>
           && MergeKey(r[i]) == ks[i] && r[i].partnerId.Some? && StrictlySorted(r[i].items)
           && forall x :: x in r[i].items <==> x in ItemsWith(gs, ks[i])
  {
    var ks := Dedup(Keys(gs));
    MergeFoldIsEntries(gs);
    var f := MergeFold(gs);
    var r := Merge(gs);
    EntriesForKeys(gs, ks);
    forall i | 0 <= i < |r|
      ensures MergeKey(r[i]) == ks[i] && StrictlySorted(r[i].items)
      ensures forall x :: x in r[i].items <==> x in ItemsWith(gs, ks[i])
    {
      SortDistinctStrings(Dedup(f[i].items));
      assert MergeKey(r[i]) == MergeKey(f[i]);
    }
  }

  /** Merged groups have distinct keys. */
  lemma MergedKeysDistinct(gs: seq<ProductGroup>)
    ensures NoDup(Keys(Merge(gs)))
  {
    MergeShape(gs);
  }

  /** Groups already in merged form: distinct keys, an id property on each,
      and strictly sorted items. */
  predicate Normalised(gs: seq<ProductGroup>) {
    && NoDup(Keys(gs))
    && forall i :: 0 <= i < |gs| ==> gs[i].partnerId.Some? && StrictlySorted(gs[i].items)
  }

  lemma MergeNormalised(gs: seq<ProductGroup>)
    ensures Normalised(Merge(gs))
  {
    MergeShape(gs);
  }

  /** In normalised groups the only group of a key is its first. */
  lemma NormalisedEntry(gs: seq<ProductGroup>, i: nat)
    requires Normalised(gs) && i < |gs|
    ensures MergeKey(gs[i]) in Keys(gs) && Entry(gs, MergeKey(gs[i])) == gs[i]
  {
    var k := MergeKey(gs[i]);
    assert Keys(gs)[i] == k;
    var i0 := KeyIndex(gs, k);
    assert Keys(gs)[i0] == k;
    assert i0 == i;
    forall x
      ensures x in ItemsWith(gs, k) <==> x in gs[i].items
    {
      ItemsWithMembers(gs, k, x);
      forall j | 0 <= j < |gs| && MergeKey(gs[j]) == k
        ensures j == i
      {
        assert Keys(gs)[j] == k;
      }
    }
    ItemsWithOfUnique(gs, i);
  }

  /** With a single group of key `k`, the items collected for `k` are that
      group's. */
  lemma {:induction false} ItemsWithOfUnique(gs: seq<ProductGroup>, i: nat)
    requires i < |gs| && forall j :: 0 <= j < |gs| && j != i ==> MergeKey(gs[j]) != MergeKey(gs[i])
    ensures ItemsWith(gs, MergeKey(gs[i])) == gs[i].items
    decreases |gs|
  {
    var k, n := MergeKey(gs[i]), |gs| - 1;
    if i < n {
      ItemsWithOfUnique(gs[..n], i);
      assert ItemsWith(gs[..n], k) + [] == gs[i].items;
    } else {
      assert forall j :: 0 <= j < n ==> Keys(gs[..n])[j] == MergeKey(gs[j]);
      ItemsWithAbsent(gs[..n], k);
      assert [] + gs[i].items == gs[i].items;
    }
  }

  /** Merging groups already in merged form changes nothing. */
  lemma MergeOfNormalised(gs: seq<ProductGroup>)
    requires Normalised(gs)
    ensures Merge(gs) == gs
  {
    DedupOfNoDup(Keys(gs));
    MergeFoldIsEntries(gs);
    var f := MergeFold(gs);
    forall i | 0 <= i < |gs|
      ensures f[i] == gs[i]
    {
      NormalisedEntry(gs, i);
    }
    forall i | 0 <= i < |gs|
      ensures SortStrings(Dedup(gs[i].items)) == gs[i].items
    {
      StrictlySortedNoDup(gs[i].items);
      DedupOfNoDup(gs[i].items);
      StrictlySortedIsSorted(gs[i].items);
      SortByOfSorted(gs[i].items, Identity);
    }
  }

  /** `mergeDuplicatePartners` is idempotent. */
  lemma MergeIdempotent(gs: seq<ProductGroup>)
    ensures Merge(Merge(gs)) == Merge(gs)
  {
    MergeNormalised(gs);
    MergeOfNormalised(Merge(gs));
  }

  /** The page's list: merged, then ordered by partner name. */
  function Displayed(gs: seq<ProductGroup>): (r: seq<ProductGroup>)
    ensures SortedBy(r, GroupPartner) && multiset(r) == multiset(Merge(gs))
  {
    SortBy(Merge(gs), GroupPartner)
  }

  /** Reordering keeps merged form. */
  lemma NormalisedPermutation(gs: seq<ProductGroup>, hs: seq<ProductGroup>)
    requires Normalised(gs) && multiset(hs) == multiset(gs)
    ensures Normalised(hs)
  {
    forall i | 0 <= i < |hs|
      ensures hs[i] in gs
    {
      assert hs[i] in multiset(hs);
    }
    forall i, j | 0 <= i < j < |hs|
      ensures Keys(hs)[i] != Keys(hs)[j]
    {
      if MergeKey(hs[i]) == MergeKey(hs[j]) {
        var a :| 0 <= a < |gs| && gs[a] == hs[i];
        var b :| 0 <= b < |gs| && gs[b] == hs[j];
        assert Keys(gs)[a] == Keys(gs)[b];
        assert a == b;
        RepeatedMultiplicity(hs, i, j);
        NoDupGroups(gs, hs[i]);
      }
    }
  }

  /** Distinct keys mean each group occurs once. */
  lemma NoDupGroups(gs: seq<ProductGroup>, g: ProductGroup)
    requires NoDup(Keys(gs))
    ensures multiset(gs)[g] <= 1
  {
    assert NoDup(gs) by {
      forall i, j | 0 <= i < j < |gs|
        ensures gs[i] != gs[j]
      {
        assert Keys(gs)[i] != Keys(gs)[j];
      }
    }
    NoDupMultiplicity(gs, g);
  }

  /** The displayed list is in merged form too. */
  lemma DisplayedNormalised(gs: seq<ProductGroup>)
    ensures Normalised(Displayed(gs))
  {
    MergeNormalised(gs);
    NormalisedPermutation(Merge(gs), Displayed(gs));
  }

  // ------------------------------------------------------------- saving

  /** The form: the selected partner's id and the typed product name. */
  datatype ProductForm = ProductForm(partnerId: string, product: string)

  /** The row being edited, set by the pencil button from a displayed group:
      its `partnerId` and the item's position. `{ partnerId: null, index:
      null }` when adding. */
  datatype ProductEditing = ProductEditing(partnerId: Option<string>, index: Option<nat>)

  /** The form is editing an existing item: the pencil button set a
      non-empty group id and a position. */
  predicate EditMode(e: ProductEditing) {
    Truthy(e.partnerId) && e.index.Some?
  }

  /** The group the form's partner writes into: the same id, or no id and
      the same name. */
  predicate IsFormGroup(g: ProductGroup, partnerId: string, partnerName: string) {
    g.partnerId == Some(partnerId) || (!Truthy(g.partnerId) && g.partner == partnerName)
  }

  function FormGroupIndex(gs: seq<ProductGroup>, partnerId: string, partnerName: string): (i: int)
    ensures -1 <= i < |gs|
    ensures 0 <= i ==> IsFormGroup(gs[i], partnerId, partnerName)
    ensures 0 <= i ==> forall j :: 0 <= j < i ==> !IsFormGroup(gs[j], partnerId, partnerName)
    ensures i == -1 ==> forall j :: 0 <= j < |gs| ==> !IsFormGroup(gs[j], partnerId, partnerName)
    decreases |gs|
  {
    if |gs| == 0 then -1
    else if IsFormGroup(gs[0], partnerId, partnerName) then 0
    else
      var k := FormGroupIndex(gs[1..], partnerId, partnerName);
      if k == -1 then -1 else k + 1
  }

  /** The groups with the form's group guaranteed: a new empty group for the
      partner is appended when none matches. Returns the groups and the
      group's position. */
  function WithFormGroup(gs: seq<ProductGroup>, partnerId: string, partnerName: string): (r: (seq<ProductGroup>, nat))
    ensures r.1 < |r.0| && IsFormGroup(r.0[r.1], partnerId, partnerName)
    ensures gs <= r.0 && |r.0| <= |gs| + 1
    ensures r.1 < |gs| ==> r.0 == gs
    ensures r.1 == |gs| ==> r.0[r.1] == ProductGroup(Some(partnerId), partnerName, [])
  {
    var i := FormGroupIndex(gs, partnerId, partnerName);
    if i == -1 then (gs + [ProductGroup(Some(partnerId), partnerName, [])], |gs|) else (gs, i)
  }

  /** The position of the first group whose id is exactly `id`, or -1; the
      edit writes into that group. */
  function IdIndex(gs: seq<ProductGroup>, id: string): (i: int)
    ensures -1 <= i < |gs|
    ensures 0 <= i ==> gs[i].partnerId == Some(id) && forall j :: 0 <= j < i ==> gs[j].partnerId != Some(id)
    ensures i == -1 ==> forall j :: 0 <= j < |gs| ==> gs[j].partnerId != Some(id)
  {
    FirstIndex(gs, (g: ProductGroup) => g.partnerId == Some(id))
  }

  /** Edit mode: the item at `idx` of the first group with id `id` becomes
      `clean`, when that group has such an item. */
  function EditGroups(us: seq<ProductGroup>, id: string, idx: nat, clean: string): (r: seq<ProductGroup>)
    ensures |r| == |us| && Keys(r) == Keys(us)
    ensures forall j :: 0 <= j < |us| && j != IdIndex(us, id) ==> r[j] == us[j]
    ensures var t := IdIndex(us, id);
      t >= 0 && idx < |us[t].items| ==> r[t].items == us[t].items[idx := clean] && clean in r[t].items
  {
    var t := IdIndex(us, id);
    if t >= 0 then
      var r := us[t := us[t].(items := SetAt(us[t].items, idx, clean))];
      assert MergeKey(r[t]) == MergeKey(us[t]);
      if idx < |us[t].items| then
        assert r[t].items[idx] == clean;
        r
      else r
    else us
  }

  /** Add mode: `clean` is appended to group `g` unless listed there. */
  function AddGroups(us: seq<ProductGroup>, g: nat, clean: string): (r: seq<ProductGroup>)
    requires g < |us|
    ensures |r| == |us| && Keys(r) == Keys(us)
    ensures forall j :: 0 <= j < |us| && j != g ==> r[j] == us[j]
    ensures forall j :: 0 <= j < |us| ==> forall x :: x in us[j].items ==> x in r[j].items
    ensures clean in r[g].items
    ensures r[g].items == if clean in us[g].items then us[g].items else us[g].items + [clean]
  {
    if clean in us[g].items then us
    else
      var r := us[g := us[g].(items := us[g].items + [clean])];
      assert MergeKey(r[g]) == MergeKey(us[g]);
      r
  }

  /** The groups after the save, before normalisation. */
  function SavedGroups(gs: seq<ProductGroup>, partners: seq<Partner>, form: ProductForm, editing: ProductEditing): seq<ProductGroup> {
    var (us, g) := WithFormGroup(gs, form.partnerId, PartnerNameOf(partners, form.partnerId));
    var clean := Trim(form.product);
    if EditMode(editing) then EditGroups(us, editing.partnerId.value, editing.index.value, clean)
    else AddGroups(us, g, clean)
  }

  /** `addOrUpdateProduct`: rejected without a partner or a product name;
      otherwise the saved groups, merged and ordered by partner name. */
  function SaveProduct(d: Document, form: ProductForm, editing: ProductEditing): (r: Document)
    ensures form.partnerId == "" || Trim(form.product) == "" ==> r == d
    ensures r == d.(products := r.products)
    ensures form.partnerId != "" && Trim(form.product) != "" ==> SortedBy(r.products, GroupPartner)
  {
    if form.partnerId == "" || Trim(form.product) == "" then d
    else d.(products := Displayed(SavedGroups(d.products, d.partners, form, editing)))
  }

  /** The key of the group the form writes into. */
  function FormKey(gs: seq<ProductGroup>, partners: seq<Partner>, form: ProductForm): string {
    var (us, g) := WithFormGroup(gs, form.partnerId, PartnerNameOf(partners, form.partnerId));
    MergeKey(us[g])
  }

  /** After an accepted save the products are in merged form. */
  lemma SaveProductNormalised(d: Document, form: ProductForm, editing: ProductEditing)
    requires form.partnerId != "" && Trim(form.product) != ""
    ensures Normalised(SaveProduct(d, form, editing).products)
  {
    DisplayedNormalised(SavedGroups(d.products, d.partners, form, editing));
  }

  /** Some group of `gs` with key `k` lists `x`. */
  predicate Listed(gs: seq<ProductGroup>, k: string, x: string) {
    exists i :: 0 <= i < |gs| && MergeKey(gs[i]) == k && x in gs[i].items
  }

  /** Merging lists an item under a key exactly when some input group of
      that key lists it. */
  lemma MergedListed(gs: seq<ProductGroup>, k: string, x: string)
    ensures Listed(Merge(gs), k, x) <==> Listed(gs, k, x)
  {
    var m := Merge(gs);
    MergeShape(gs);
    if Listed(gs, k, x) {
      var j :| 0 <= j < |gs| && MergeKey(gs[j]) == k && x in gs[j].items;
      assert k in Keys(m);
      var i :| 0 <= i < |m| && Keys(m)[i] == k;
      assert MergeKey(m[i]) == k;
    }
  }

  /** Reordering lists the same items under the same keys. */
  lemma PermutedListed(gs: seq<ProductGroup>, hs: seq<ProductGroup>, k: string, x: string)
    requires multiset(hs) == multiset(gs)
    ensures Listed(hs, k, x) <==> Listed(gs, k, x)
  {
    if Listed(gs, k, x) {
      var i :| 0 <= i < |gs| && MergeKey(gs[i]) == k && x in gs[i].items;
      assert gs[i] in multiset(hs);
      var i' :| 0 <= i' < |hs| && hs[i'] == gs[i];
    }
    if Listed(hs, k, x) {
      var i :| 0 <= i < |hs| && MergeKey(hs[i]) == k && x in hs[i].items;
      assert hs[i] in multiset(gs);
      var i' :| 0 <= i' < |gs| && gs[i'] == hs[i];
    }
  }

  lemma DisplayedListed(gs: seq<ProductGroup>, k: string, x: string)
    ensures Listed(Displayed(gs), k, x) <==> Listed(gs, k, x)
  {
    MergedListed(gs, k, x);
    PermutedListed(Merge(gs), Displayed(gs), k, x);
  }

  /** Adding: the trimmed product is listed under the form's group key, and
      every product listed before is still listed under its key. */
  lemma AddProductLands(d: Document, form: ProductForm, editing: ProductEditing)
    requires form.partnerId != "" && Trim(form.product) != "" && !EditMode(editing)
    ensures var r := SaveProduct(d, form, editing).products;
      && Listed(r, FormKey(d.products, d.partners, form), Trim(form.product))
      && forall j, x :: 0 <= j < |d.products| && x in d.products[j].items ==> Listed(r, MergeKey(d.products[j]), x)
  {
    var gs := d.products;
    var (us, g) := WithFormGroup(gs, form.partnerId, PartnerNameOf(d.partners, form.partnerId));
    var clean := Trim(form.product);
    var ss := AddGroups(us, g, clean);
    assert Keys(ss)[g] == Keys(us)[g];
    DisplayedListed(ss, MergeKey(us[g]), clean);
    forall j, x | 0 <= j < |gs| && x in gs[j].items
      ensures Listed(Displayed(ss), MergeKey(gs[j]), x)
    {
      assert us[j] == gs[j];
      assert Keys(ss)[j] == Keys(us)[j];
      DisplayedListed(ss, MergeKey(gs[j]), x);
    }
  }

  /** Editing: when the edited group has the item, the trimmed product is
      listed under that group's key, and every other group's products are
      still listed under their keys. */
  lemma EditProductLands(d: Document, form: ProductForm, editing: ProductEditing)
    requires form.partnerId != "" && Trim(form.product) != "" && EditMode(editing)
    ensures var r := SaveProduct(d, form, editing).products;
      var (us, _) := WithFormGroup(d.products, form.partnerId, PartnerNameOf(d.partners, form.partnerId));
      var t := IdIndex(us, editing.partnerId.value);
      && (t >= 0 && editing.index.value < |us[t].items| ==> Listed(r, MergeKey(us[t]), Trim(form.product)))
      && forall j, x :: 0 <= j < |us| && j != t && x in us[j].items ==> Listed(r, MergeKey(us[j]), x)
  {
    var (us, g) := WithFormGroup(d.products, form.partnerId, PartnerNameOf(d.partners, form.partnerId));
    var clean := Trim(form.product);
    var id, idx := editing.partnerId.value, editing.index.value;
    var ss := EditGroups(us, id, idx, clean);
    var t := IdIndex(us, id);
    if t >= 0 && idx < |us[t].items| {
      assert Keys(ss)[t] == Keys(us)[t];
      DisplayedListed(ss, MergeKey(us[t]), clean);
    }
    forall j, x | 0 <= j < |us| && j != t && x in us[j].items
      ensures Listed(Displayed(ss), MergeKey(us[j]), x)
    {
      assert ss[j] == us[j];
      DisplayedListed(ss, MergeKey(us[j]), x);
    }
  }

  // ------------------------------------------------------------- deleting

  /** The group `deleteProduct(partnerId, idx)` looks for: the same id, or
      no id and a partner name equal to the id passed. */
  predicate IsDeleteTarget(g: ProductGroup, partnerId: string) {
    g.partnerId == Some(partnerId) || (!Truthy(g.partnerId) && g.partner == partnerId)
  }

  function DeleteTargetIndex(gs: seq<ProductGroup>, partnerId: string): (i: int)
    ensures -1 <= i < |gs|
    ensures 0 <= i ==> IsDeleteTarget(gs[i], partnerId) && forall j :: 0 <= j < i ==> !IsDeleteTarget(gs[j], partnerId)
    ensures i == -1 ==> forall j :: 0 <= j < |gs| ==> !IsDeleteTarget(gs[j], partnerId)
    decreases |gs|
  {
    if |gs| == 0 then -1
    else if IsDeleteTarget(gs[0], partnerId) then 0
    else
      var k := DeleteTargetIndex(gs[1..], partnerId);
      if k == -1 then -1 else k + 1
  }

  /** The item at `idx` of group `i` removed, and the group with it when
      no item is left. */
  function RemoveItem(gs: seq<ProductGroup>, i: nat, idx: nat): (r: seq<ProductGroup>)
    requires i < |gs|
    ensures |RemoveAt(gs[i].items, idx)| == 0 ==> |r| == |gs| - 1 && forall j :: 0 <= j < |r| ==> r[j] == if j < i then gs[j] else gs[j + 1]
    ensures |RemoveAt(gs[i].items, idx)| > 0 ==> r == gs[i := gs[i].(items := RemoveAt(gs[i].items, idx))]
  {
    var items := RemoveAt(gs[i].items, idx);
    if |items| == 0 then RemoveAt(gs, i) else gs[i := gs[i].(items := items)]
  }

  /** `deleteProduct(partnerId, idx)` as written: the first stored group
      whose id equals `partnerId`, or that has no id and whose name equals
      it, loses the item at `idx`; the groups are then normalised. The page
      passes the displayed group's `partnerId`, which is `""` for every group
      that came from the spreadsheet import. */
  function DeleteProductAsWritten(gs: seq<ProductGroup>, partnerId: string, idx: nat): (r: seq<ProductGroup>)
    ensures DeleteTargetIndex(gs, partnerId) == -1 ==> r == Merge(gs)
    ensures DeleteTargetIndex(gs, partnerId) >= 0 ==> r == Merge(RemoveItem(gs, DeleteTargetIndex(gs, partnerId), idx))
  {
    var i := DeleteTargetIndex(gs, partnerId);
    if i == -1 then Merge(gs) else Merge(RemoveItem(gs, i, idx))
  }

  /** Two imported groups with one product each, `a`'s partner first. */
  predicate ImportedPair(a: ProductGroup, b: ProductGroup) {
    && a.partnerId == Some("") && b.partnerId == Some("")
    && a.partner != "" && Less(a.partner, b.partner)
    && |a.items| == 1 && |b.items| == 1
  }

  lemma ImportedPairNormalised(a: ProductGroup, b: ProductGroup)
    requires ImportedPair(a, b)
    ensures Normalised([a, b]) && Normalised([b])
  {
    LessIrreflexive(a.partner);
    assert Keys([a, b]) == [a.partner, b.partner];
    assert Keys([b]) == [b.partner];
  }

  /** Two partners whose groups came from the import and have since been
      stored in merged form, so that both carry the id `""` (any save or
      delete on the products page stores them so), `a` listed before `b`,
      each with one product. Deleting `b`'s product (the page passes `b`'s
      `partnerId`, which is `""`, and position 0) deletes `a`'s product and
      group instead, and `b` keeps the product the user deleted. */
  lemma DeleteAsWrittenHitsOtherPartner(a: ProductGroup, b: ProductGroup)
    requires ImportedPair(a, b)
    ensures Displayed([a, b]) == [a, b]
    ensures DeleteProductAsWritten([a, b], b.partnerId.value, 0) == [b]
  {
    var gs := [a, b];
    ImportedPairNormalised(a, b);
    MergeOfNormalised(gs);
    SortByOfSorted(gs, GroupPartner);
    assert DeleteTargetIndex(gs, "") == 0;
    var r := RemoveItem(gs, 0, 0);
    assert r == [b];
    MergeOfNormalised([b]);
  }

  /** Groups fresh from the spreadsheet import carry no id. A delete on
      them, with the `""` the page passes, finds no target: nothing is
      deleted, and the groups are only stored in merged form, every one
      with the id `""`. */
  lemma DeleteAsWrittenOnFreshImport(gs: seq<ProductGroup>, idx: nat)
    requires forall i :: 0 <= i < |gs| ==> gs[i].partnerId == None && gs[i].partner != ""
    ensures DeleteTargetIndex(gs, "") == -1
    ensures DeleteProductAsWritten(gs, "", idx) == Merge(gs)
    ensures forall i :: 0 <= i < |Merge(gs)| ==> Merge(gs)[i].partnerId == Some("")
  {
    MergeFoldIsEntries(gs);
    var ks := Dedup(Keys(gs));
    forall i | 0 <= i < |Merge(gs)|
      ensures Merge(gs)[i].partnerId == Some("")
    {
      assert ks[i] in ks;
      assert Merge(gs)[i].partnerId == Entry(gs, ks[i]).partnerId;
    }
  }

  /** The same two partners straight after the import: the first delete of
      `b`'s product deletes nothing and stores the groups in merged form;
      the second deletes `a`'s product and group. */
  lemma DeleteAsWrittenFreshThenAgain(a: ProductGroup, b: ProductGroup)
    requires a.partnerId == None && b.partnerId == None
    requires ImportedPair(Opened(a), Opened(b))
    ensures DeleteProductAsWritten([a, b], "", 0) == [Opened(a), Opened(b)]
    ensures DeleteProductAsWritten([Opened(a), Opened(b)], "", 0) == [Opened(b)]
  {
    DeleteAsWrittenOnFreshImport([a, b], 0);
    FreshPairMerges(a, b);
    DeleteAsWrittenHitsOtherPartner(Opened(a), Opened(b));
  }

  /** Merging the two fresh groups gives each its id `""`, in order. */
  lemma FreshPairMerges(a: ProductGroup, b: ProductGroup)
    requires a.partnerId == None && b.partnerId == None
    requires ImportedPair(Opened(a), Opened(b))
    ensures Merge([a, b]) == [Opened(a), Opened(b)]
  {
    var gs := [a, b];
    assert MergeFold([a]) == [Opened(a)] by {
      assert [a][..0] == [];
    }
    assert gs[..1] == [a];
    assert MergeFold(gs) == MergeFold([Opened(a), Opened(b)]) by {
      assert [Opened(a), Opened(b)][..1] == [Opened(a)];
      assert MergeFold([Opened(a)]) == [Opened(a)] by {
        assert [Opened(a)][..0] == [];
      }
    }
    ImportedPairNormalised(Opened(a), Opened(b));
    MergeOfNormalised([Opened(a), Opened(b)]);
  }

  /** The deletion the page means: the displayed group with key `key` (the
      key the page lists it under) loses its `idx`-th displayed item, and
      disappears when that was its last one. */
  function DeleteProduct(gs: seq<ProductGroup>, key: string, idx: nat): (r: seq<ProductGroup>)
    ensures KeyIndex(Displayed(gs), key) == -1 ==> r == Displayed(gs)
    ensures KeyIndex(Displayed(gs), key) >= 0 ==> r == RemoveItem(Displayed(gs), KeyIndex(Displayed(gs), key), idx)
  {
    var m := Displayed(gs);
    var i := KeyIndex(m, key);
    if i == -1 then m else RemoveItem(m, i, idx)
  }

  /** Removing an element keeps a strictly sorted sequence strictly sorted
      and drops exactly that element. */
  lemma RemoveAtSorted(s: seq<string>, idx: nat)
    requires StrictlySorted(s) && idx < |s|
    ensures StrictlySorted(RemoveAt(s, idx))
    ensures forall y :: y in RemoveAt(s, idx) <==> y in s && y != s[idx]
  {
    var r := RemoveAt(s, idx);
    StrictlySortedNoDup(s);
    forall y | y in s && y != s[idx]
      ensures y in r
    {
      var k :| 0 <= k < |s| && s[k] == y;
      if k < idx {
        assert r[k] == y;
      } else {
        assert r[k - 1] == y;
      }
    }
  }

  /** Dropping a whole group keeps the others, in order, and no group of
      the dropped key is left. */
  lemma DropGroup(gs: seq<ProductGroup>, i: nat, idx: nat)
    requires Normalised(gs) && i < |gs| && idx < |gs[i].items| && |gs[i].items| == 1
    ensures var r := RemoveItem(gs, i, idx);
      && Normalised(r)
      && (forall j :: 0 <= j < |r| ==> MergeKey(r[j]) != MergeKey(gs[i]))
      && (forall j :: 0 <= j < |gs| && j != i ==> gs[j] in r)
  {
    var r := RemoveItem(gs, i, idx);
    forall a, b | 0 <= a < b < |r|
      ensures Keys(r)[a] != Keys(r)[b]
    {
      var a', b' := if a < i then a else a + 1, if b < i then b else b + 1;
      assert Keys(gs)[a'] != Keys(gs)[b'];
    }
    forall j | 0 <= j < |r|
      ensures MergeKey(r[j]) != MergeKey(gs[i])
    {
      var j' := if j < i then j else j + 1;
      assert Keys(gs)[j'] != Keys(gs)[i];
    }
    forall j | 0 <= j < |gs| && j != i
      ensures gs[j] in r
    {
      if j < i {
        assert r[j] == gs[j];
      } else {
        assert r[j - 1] == gs[j];
      }
    }
  }

  /** Shortening a group keeps every group where it was. */
  lemma ShortenGroup(gs: seq<ProductGroup>, i: nat, idx: nat)
    requires Normalised(gs) && i < |gs| && idx < |gs[i].items| && |gs[i].items| > 1
    ensures var r := RemoveItem(gs, i, idx);
      && Normalised(r)
      && Keys(r) == Keys(gs)
      && r[i].items == RemoveAt(gs[i].items, idx)
      && (forall j :: 0 <= j < |gs| && j != i ==> r[j] == gs[j])
  {
    RemoveAtSorted(gs[i].items, idx);
  }

  /** In a merged list, a key names at most one group. */
  lemma ListedAt(gs: seq<ProductGroup>, i: nat, x: string)
    requires Normalised(gs) && i < |gs|
    ensures Listed(gs, MergeKey(gs[i]), x) <==> x in gs[i].items
  {
    if Listed(gs, MergeKey(gs[i]), x) {
      var j :| 0 <= j < |gs| && MergeKey(gs[j]) == MergeKey(gs[i]) && x in gs[j].items;
      assert Keys(gs)[j] == Keys(gs)[i];
    }
  }

  /** Deleting the `idx`-th item of the group at `i` of a merged list: that
      item is no longer listed under the group's key, the group's other
      items still are, every other group is kept, and the list stays in
      merged form. */
  lemma RemoveItemEffect(gs: seq<ProductGroup>, i: nat, idx: nat)
    requires Normalised(gs) && i < |gs| && idx < |gs[i].items|
    ensures var r := RemoveItem(gs, i, idx); var key := MergeKey(gs[i]);
      && Normalised(r)
      && (forall y :: Listed(r, key, y) <==> y in gs[i].items && y != gs[i].items[idx])
      && (forall j :: 0 <= j < |gs| && j != i ==> gs[j] in r)
  {
    var r := RemoveItem(gs, i, idx);
    var key := MergeKey(gs[i]);
    RemoveAtSorted(gs[i].items, idx);
    if |gs[i].items| == 1 {
      DropGroup(gs, i, idx);
      forall y
        ensures Listed(r, key, y) <==> y in gs[i].items && y != gs[i].items[idx]
      {
        assert y in gs[i].items ==> y == gs[i].items[idx];
      }
    } else {
      ShortenGroup(gs, i, idx);
      assert MergeKey(r[i]) == key;
      forall y
        ensures Listed(r, key, y) <==> y in gs[i].items && y != gs[i].items[idx]
      {
        ListedAt(r, i, y);
      }
      forall j | 0 <= j < |gs| && j != i
        ensures gs[j] in r
      {
        assert r[j] == gs[j];
      }
    }
  }

  /** Deleting the `idx`-th displayed item of the group listed under `key`
      removes exactly that item from the key, keeps every other displayed
      group, and leaves the list in merged form. */
  lemma DeleteProductRemoves(gs: seq<ProductGroup>, key: string, idx: nat)
    requires var m := Displayed(gs); var i := KeyIndex(m, key); i >= 0 && idx < |m[i].items|
    ensures var m := Displayed(gs); var i := KeyIndex(m, key); var r := DeleteProduct(gs, key, idx);
      && Normalised(r)
      && (forall y :: Listed(r, key, y) <==> y in m[i].items && y != m[i].items[idx])
      && (forall j :: 0 <= j < |m| && j != i ==> m[j] in r)
  {
    var m := Displayed(gs);
    DisplayedNormalised(gs);
    RemoveItemEffect(m, KeyIndex(m, key), idx);
  }
}

=== FILE: projects.dfy ===
/** The projects page: adding, editing and deleting projects, and the
    project list ordered by name. */
module Projects {
  import opened Base
  import opened Strings
  import opened Sorting
  import opened Crm

  /** The input row. The partner is `None` only when the row was loaded from
      an imported project without one. */
  datatype ProjectForm = ProjectForm(
    name: string,
    clientId: string,
    partnerId: Option<string>,
    productId: string,
    startDate: string,
    status: string)

  /** The row may be saved: a name that is not blank, and a client. */
  predicate Acceptable(form: ProjectForm) {
    Trim(form.name) != "" && form.clientId != ""
  }

  /** The form's fields written over a project, which keeps its id. The name is stored as typed, untrimmed. */
  function Overlay(p: Project, form: ProjectForm): Project {
    p.(name := form.name, clientId := Some(form.clientId), partnerId := form.partnerId,
       productId := form.productId, startDate := form.startDate, status := form.status)
  }

  /** The project holds exactly the row's fields. */
  predicate Holds(p: Project, form: ProjectForm) {
    && p.name == form.name && p.clientId == Some(form.clientId) && p.partnerId == form.partnerId
    && p.productId == form.productId && p.startDate == form.startDate && p.status == form.status
  }

  function IdIndex(ps: seq<Project>, id: string): (i: int)
    ensures -1 <= i < |ps|
    ensures 0 <= i ==> ps[i].id == id && forall j :: 0 <= j < i ==> ps[j].id != id
    ensures i == -1 <==> forall j :: 0 <= j < |ps| ==> ps[j].id != id
  {
    FirstIndex(ps, (p: Project) => p.id == id)
  }

  /** The ids of the projects, in order. */
  function Ids(ps: seq<Project>): (r: seq<string>)
    ensures |r| == |ps|
    ensures forall j :: 0 <= j < |ps| ==> r[j] == ps[j].id
  {
    seq(|ps|, j requires 0 <= j < |ps| => ps[j].id)
  }

  /** `addOrUpdateProject`: a blank name or a missing client changes nothing.
      While editing, the first project with the edited id takes the row's
      fields (a vanished id changes nothing); otherwise one project with the
      fresh `id` is appended. `id` stands for the random identifier the page
      generates. */
  function SaveProject(ps: seq<Project>, form: ProjectForm, editingId: Option<string>, id: string): (r: seq<Project>)
    ensures !Acceptable(form) ==> r == ps
    ensures Acceptable(form) && Truthy(editingId) ==>
      && Ids(r) == Ids(ps)
      && (forall j :: 0 <= j < |ps| && j != IdIndex(ps, editingId.value) ==> r[j] == ps[j])
      && (IdIndex(ps, editingId.value) >= 0 ==> Holds(r[IdIndex(ps, editingId.value)], form))
    ensures Acceptable(form) && !Truthy(editingId) ==>
      && |r| == |ps| + 1 && r[..|ps|] == ps
      && r[|ps|].id == id && Holds(r[|ps|], form)
  {
    if !Acceptable(form) then ps
    else if Truthy(editingId) then
      var i := IdIndex(ps, editingId.value);
      if i == -1 then ps
      else
        var r := ps[i := Overlay(ps[i], form)];
        assert Ids(r) == Ids(ps);
        r
    else
      ps + [Project(id, form.name, Some(form.clientId), form.partnerId, form.productId, form.startDate, form.status)]
  }

  /** Adding under an id no project has keeps the ids distinct. */
  lemma AddKeepsIdsDistinct(ps: seq<Project>, form: ProjectForm, id: string)
    requires NoDup(Ids(ps)) && id !in Ids(ps)
    ensures NoDup(Ids(SaveProject(ps, form, None, id)))
  {
    var r := SaveProject(ps, form, None, id);
    if Acceptable(form) {
      assert Ids(r) == Ids(ps) + [id];
    }
  }

  /** `deleteProject(id)`: every project with the id goes, and nothing
      else. */
  function DeleteProject(ps: seq<Project>, id: string): (r: seq<Project>)
    ensures forall p :: multiset(r)[p] == if p.id != id then multiset(ps)[p] else 0
    ensures id !in Ids(r)
  {
    var r := Filter(ps, (p: Project) => p.id != id);
    assert forall j :: 0 <= j < |r| ==> r[j] in r;
    r
  }

  /** Deleting the project just added, under an id no other project has,
      gives back the list as it was. */
  lemma DeleteUndoesAdd(ps: seq<Project>, form: ProjectForm, id: string)
    requires Acceptable(form) && id !in Ids(ps)
    ensures DeleteProject(SaveProject(ps, form, None, id), id) == ps
  {
    var r := SaveProject(ps, form, None, id);
    assert r == ps + [r[|ps|]];
    assert forall j :: 0 <= j < |ps| ==> ps[j].id != id by {
      forall j | 0 <= j < |ps|
        ensures ps[j].id != id
      {
        assert Ids(ps)[j] == ps[j].id;
      }
    }
    FilterDropsLast(ps, r[|ps|], (p: Project) => p.id != id);
  }

  /** The document after `deleteProject`: only the project list changes;
      follow-ups and comments that referred to the project keep referring to
      it. */
  function DeleteProjectIn(d: Document, id: string): (r: Document)
    ensures r.projects == DeleteProject(d.projects, id)
    ensures r.clients == d.clients && r.partners == d.partners && r.products == d.products
    ensures r.followups == d.followups && r.projectComments == d.projectComments
  {
    d.(projects := DeleteProject(d.projects, id))
  }

  /** Nothing cascades: a follow-up of the deleted project now refers to a
      project that is not there. */
  lemma DeleteLeavesFollowupsDangling(d: Document, id: string, k: nat)
    requires k < |d.followups| && d.followups[k].projectId == Some(id)
    ensures var r := DeleteProjectIn(d, id);
      && r.followups[k].projectId == Some(id)
      && forall j :: 0 <= j < |r.projects| ==> r.projects[j].id != id
  {
    var r := DeleteProjectIn(d, id);
    assert forall j :: 0 <= j < |r.projects| ==> Ids(r.projects)[j] == r.projects[j].id;
  }

  /** `sorted`: the projects ordered by name, each as often as in the
      document. */
  function SortedProjects(ps: seq<Project>): (r: seq<Project>)
    ensures SortedBy(r, ProjectName)
    ensures multiset(r) == multiset(ps)
  {
    SortBy(ps, ProjectName)
  }
}

=== FILE: sorting.dfy ===
/** `Array.prototype.sort` with a string-keyed comparator, as the pages use
    it to order clients, partners, projects, products and follow-ups. The
    sort is stable, like every conforming engine's, and compares keys with
    the fixed order `Strings.Less`. */
module Sorting {
  import opened Strings
  import opened Base

  /** Keys never decrease from left to right. */
  predicate SortedBy<T>(s: seq<T>, key: T -> string) {
    forall i, j :: 0 <= i < j < |s| ==> LessEq(key(s[i]), key(s[j]))
  }

  /** Keys strictly increase from left to right. */
  predicate StrictlySorted(s: seq<string>) {
    forall i, j :: 0 <= i < j < |s| ==> Less(s[i], s[j])
  }

  /** Places `x` before the first element whose key is not below its own. */
  function Insert<T>(x: T, s: seq<T>, key: T -> string): (r: seq<T>)
    requires SortedBy(s, key)
    ensures SortedBy(r, key)
    ensures multiset(r) == multiset(s) + multiset{x}
    decreases |s|
  {
    if |s| == 0 then [x]
    else if LessEq(key(x), key(s[0])) then
      ConsSorted(x, s, key);
      assert s == [s[0]] + s[1..];
      [x] + s
    else
      LessTotal(key(x), key(s[0]));
      var rest := Insert(x, s[1..], key);
      assert s == [s[0]] + s[1..];
      ConsSortedAfter(s[0], x, s[1..], rest, key);
      [s[0]] + rest
  }

  /** A key no greater than the head's may go first. */
  lemma ConsSorted<T>(x: T, s: seq<T>, key: T -> string)
    requires SortedBy(s, key) && |s| > 0 && LessEq(key(x), key(s[0]))
    ensures SortedBy([x] + s, key)
  {
    forall j | 0 <= j < |s|
      ensures LessEq(key(x), key(s[j]))
    {
      LessEqTransitive(key(x), key(s[0]), key(s[j]));
    }
  }

  /** The head stays first when what follows it is the sorted tail with one
      larger key added. */
  lemma ConsSortedAfter<T>(h: T, x: T, tail: seq<T>, rest: seq<T>, key: T -> string)
    requires SortedBy([h] + tail, key) && SortedBy(rest, key) && LessEq(key(h), key(x))
    requires multiset(rest) == multiset(tail) + multiset{x}
    ensures SortedBy([h] + rest, key)
  {
    forall j | 0 <= j < |rest|
      ensures LessEq(key(h), key(rest[j]))
    {
      assert rest[j] in multiset(rest);
      if rest[j] != x {
        assert rest[j] in tail;
        var k :| 0 <= k < |tail| && tail[k] == rest[j];
        var ht := [h] + tail;
        assert ht[0] == h && ht[k + 1] == rest[j];
        assert LessEq(key(ht[0]), key(ht[k + 1]));
      }
    }
  }

  /** A stable insertion sort by `key`: the result is ordered by key and is a
      permutation of the input. */
  function SortBy<T>(s: seq<T>, key: T -> string): (r: seq<T>)
    ensures SortedBy(r, key)
    ensures multiset(r) == multiset(s)
    ensures |r| == |s|
    decreases |s|
  {
    if |s| == 0 then []
    else
      assert s == [s[0]] + s[1..];
      var r := Insert(s[0], SortBy(s[1..], key), key);
      assert |r| == |multiset(r)| == |multiset(s)| == |s|;
      r
  }

  /** Sorting does not add or lose elements. */
  lemma SortByMembers<T>(s: seq<T>, key: T -> string)
    ensures forall x :: x in SortBy(s, key) <==> x in s
  {
    var r := SortBy(s, key);
    forall x
      ensures x in r <==> x in s
    {
      assert x in r <==> x in multiset(r);
      assert x in s <==> x in multiset(s);
    }
  }

  /** Sorting an already sorted sequence returns it unchanged (the sort is
      stable). */
  lemma {:induction false} SortByOfSorted<T>(s: seq<T>, key: T -> string)
    requires SortedBy(s, key)
    ensures SortBy(s, key) == s
    decreases |s|
  {
    if |s| > 0 {
      SortByOfSorted(s[1..], key);
      if |s| > 1 {
        assert LessEq(key(s[0]), key(s[1..][0]));
      }
      assert s == [s[0]] + s[1..];
    }
  }

  function Identity(s: string): string {
    s
  }

  /** `Array.prototype.sort()` on strings. */
  function SortStrings(s: seq<string>): (r: seq<string>)
    ensures SortedBy(r, Identity)
    ensures multiset(r) == multiset(s)
  {
    SortBy(s, Identity)
  }

  /** Sorting distinct strings orders them strictly and keeps exactly the
      same elements. */
  lemma SortDistinctStrings(s: seq<string>)
    requires NoDup(s)
    ensures StrictlySorted(SortStrings(s))
    ensures forall x :: x in SortStrings(s) <==> x in s
  {
    var r := SortStrings(s);
    SortByMembers(s, Identity);
    forall i, j | 0 <= i < j < |r|
      ensures Less(r[i], r[j])
    {
      assert LessEq(Identity(r[i]), Identity(r[j]));
      if r[i] == r[j] {
        RepeatedMultiplicity(r, i, j);
        NoDupMultiplicity(s, r[i]);
        assert false;
      }
    }
  }

  lemma RepeatedMultiplicity<T>(s: seq<T>, i: nat, j: nat)
    requires i < j < |s| && s[i] == s[j]
    ensures multiset(s)[s[i]] >= 2
  {
    assert s == s[..j] + s[j..];
    assert s[i] in s[..j];
    assert s[j] in s[j..];
    assert multiset(s) == multiset(s[..j]) + multiset(s[j..]);
  }

  lemma {:induction false} NoDupMultiplicity<T>(s: seq<T>, x: T)
    requires NoDup(s)
    ensures multiset(s)[x] <= 1
    decreases |s|
  {
    if |s| > 0 {
      assert s == [s[0]] + s[1..];
      assert NoDup(s[1..]);
      NoDupMultiplicity(s[1..], x);
      if s[0] == x {
        assert x !in s[1..];
      }
    }
  }

  /** A strictly sorted sequence is determined by its elements: two of them
      holding the same strings are equal. */
  lemma {:induction false} StrictlySortedUnique(a: seq<string>, b: seq<string>)
    requires StrictlySorted(a) && StrictlySorted(b)
    requires forall x :: x in a <==> x in b
    ensures a == b
    decreases |a|
  {
    assert |b| > 0 ==> b[0] in a;
    if |a| == 0 {
    } else {
      assert a[0] in b;
      assert b != [];
      assert b[0] in a;
      if a[0] != b[0] {
        var i :| 0 <= i < |a| && a[i] == b[0];
        var j :| 0 <= j < |b| && b[j] == a[0];
        assert Less(a[0], b[0]) by {
          assert i != 0;
        }
        assert Less(b[0], a[0]) by {
          assert j != 0;
        }
        LessAsymmetric(a[0], b[0]);
      }
      assert a == [a[0]] + a[1..] && b == [b[0]] + b[1..];
      forall x
        ensures x in a[1..] <==> x in b[1..]
      {
        if x in a[1..] {
          var i :| 1 <= i < |a| && a[i] == x;
          assert Less(a[0], x);
          LessIrreflexive(x);
          assert x in b && x != b[0];
        }
        if x in b[1..] {
          var j :| 1 <= j < |b| && b[j] == x;
          assert Less(b[0], x);
          LessIrreflexive(x);
          assert x in a && x != a[0];
        }
      }
      StrictlySortedUnique(a[1..], b[1..]);
      assert a == [a[0]] + a[1..] && b == [b[0]] + b[1..];
    }
  }

  /** A strictly sorted sequence has no duplicates. */
  lemma StrictlySortedNoDup(s: seq<string>)
    requires StrictlySorted(s)
    ensures NoDup(s)
  {
    forall i, j | 0 <= i < j < |s|
      ensures s[i] != s[j]
    {
      LessIrreflexive(s[i]);
    }
  }

  /** A strictly sorted sequence is also sorted for `SortBy`'s purposes. */
  lemma StrictlySortedIsSorted(s: seq<string>)
    requires StrictlySorted(s)
    ensures SortedBy(s, Identity)
  {
  }
}

=== FILE: spreadsheet.dfy ===
/** Workbook import and export (src/App.jsx). Import turns the loosely
    structured sheet rows into the normalised document: clients and
    partners deduplicated by case-insensitive name with their contacts
    merged, products grouped per partner, and projects, follow-ups and
    comments mapped one row to one record. Export flattens clients back into
    one row per contact. */
module Spreadsheet {
  import opened Base
  import opened Strings
  import opened Crm

  /** One worksheet row: column header to cell text. A row read by
      `sheet_to_json` has no entry for an empty cell; a row the export hands
      to `json_to_sheet` has an entry for every column, `""` included. */
  type Row = map<string, string>

  /** Sheet name to rows; a sheet the workbook lacks reads as no rows. */
  type Workbook = map<string, seq<Row>>

  function Cell(r: Row, header: string): Option<string> {
    if header in r then Some(r[header]) else None
  }

  function Sheet(wb: Workbook, name: string): seq<Row> {
    if name in wb then wb[name] else []
  }

  // ---------------------------------------------------------------- contacts

  /** At least one of the three contact cells is filled in. */
  predicate HasContactCells(r: Row) {
    Truthy(Cell(r, "Contact Person")) || Truthy(Cell(r, "Email")) || Truthy(Cell(r, "Phone"))
  }

  /** The contact a row describes, missing cells read as empty strings. */
  function RowContact(r: Row): Contact {
    Contact(OrElse(Cell(r, "Contact Person"), ""), OrElse(Cell(r, "Email"), ""), OrElse(Cell(r, "Phone"), ""))
  }

  /** The duplicate test as the import writes it: the stored contact's
      fields are compared with the raw cells, so a missing cell (undefined)
      never equals the empty string stored for it. */
  predicate MatchesRawCells(ct: Contact, r: Row) {
    Cell(r, "Contact Person") == Some(ct.contact) && Cell(r, "Email") == Some(ct.email) && Cell(r, "Phone") == Some(ct.phone)
  }

  /** Contact merging exactly as the import writes it. */
  function AddRowContactAsWritten(contacts: seq<Contact>, r: Row): (cs: seq<Contact>)
    ensures !HasContactCells(r) ==> cs == contacts
    ensures HasContactCells(r) ==> (cs == contacts <==> exists k :: 0 <= k < |contacts| && MatchesRawCells(contacts[k], r))
    ensures cs != contacts ==> cs == contacts + [RowContact(r)]
  {
    if !HasContactCells(r) then contacts
    else if exists k :: 0 <= k < |contacts| && MatchesRawCells(contacts[k], r) then contacts
    else contacts + [RowContact(r)]
  }

  /** Importing the same row twice, with the e-mail and phone cells left
      empty, stores the same contact twice. */
  lemma AsWrittenStoresDuplicateContact()
    ensures var r := map["Client Name" := "Acme", "Contact Person" := "Jo"];
            AddRowContactAsWritten(AddRowContactAsWritten([], r), r) == [Contact("Jo", "", ""), Contact("Jo", "", "")]
  {
    var r := map["Client Name" := "Acme", "Contact Person" := "Jo"];
    assert "Email" !in r && "Phone" !in r;
    assert Cell(r, "Contact Person") == Some("Jo");
    assert RowContact(r) == Contact("Jo", "", "");
    var once := AddRowContactAsWritten([], r);
    assert once == [Contact("Jo", "", "")];
    assert !MatchesRawCells(once[0], r);
  }

  /** Contact merging as intended: the row's contact is appended unless an
      equal contact is already stored. The list only grows at its end, and it
      stays free of duplicates. */
  function AddRowContact(contacts: seq<Contact>, r: Row): (cs: seq<Contact>)
    ensures !HasContactCells(r) ==> cs == contacts
    ensures HasContactCells(r) ==> RowContact(r) in cs
    ensures |contacts| <= |cs| <= |contacts| + 1 && cs[..|contacts|] == contacts
    ensures forall c :: c in cs <==> c in contacts || (HasContactCells(r) && c == RowContact(r))
    ensures NoDup(contacts) ==> NoDup(cs)
  {
    if HasContactCells(r) && RowContact(r) !in contacts then contacts + [RowContact(r)] else contacts
  }

  /** With the intended merge a repeated row adds nothing. */
  lemma AddRowContactIdempotent(contacts: seq<Contact>, r: Row)
    ensures AddRowContact(AddRowContact(contacts, r), r) == AddRowContact(contacts, r)
  {
  }

  /** All three contact cells are present, possibly empty, as in every row
      the export writes. */
  predicate HasAllContactCells(r: Row) {
    "Contact Person" in r && "Email" in r && "Phone" in r
  }

  /** A stored contact that equals the raw cells is the row's contact; when
      all three cells are present, the row's contact equals the raw cells. */
  lemma MatchesRawCellsContact(ct: Contact, r: Row)
    ensures MatchesRawCells(ct, r) ==> ct == RowContact(r)
    ensures HasAllContactCells(r) ==> (MatchesRawCells(ct, r) <==> ct == RowContact(r))
  {
  }

  /** On a row carrying all three contact cells the merge as written is the
      intended one. */
  lemma AddRowContactAgrees(contacts: seq<Contact>, r: Row)
    requires HasAllContactCells(r)
    ensures AddRowContactAsWritten(contacts, r) == AddRowContact(contacts, r)
  {
    if HasContactCells(r) {
      if RowContact(r) in contacts {
        var k :| 0 <= k < |contacts| && contacts[k] == RowContact(r);
        MatchesRawCellsContact(contacts[k], r);
      } else {
        forall k | 0 <= k < |contacts|
          ensures !MatchesRawCells(contacts[k], r)
        {
          MatchesRawCellsContact(contacts[k], r);
        }
      }
    }
  }

  /** The two merges keep the same contacts, counted without repetition:
      from lists holding the same contacts they reach lists holding the same
      contacts. The merge as written can only add a contact already stored. */
  lemma AddRowContactSameMembers(a: seq<Contact>, b: seq<Contact>, r: Row)
    requires forall c :: c in a <==> c in b
    ensures forall c :: c in AddRowContactAsWritten(a, r) <==> c in AddRowContact(b, r)
  {
    if HasContactCells(r) && exists k :: 0 <= k < |a| && MatchesRawCells(a[k], r) {
      var k :| 0 <= k < |a| && MatchesRawCells(a[k], r);
      MatchesRawCellsContact(a[k], r);
      assert RowContact(r) in a;
    }
  }

  // ------------------------------------------------------------------- folds

  /** A `rows.forEach` over an accumulator: `step` sees the state so far,
      the row, and the fresh id the row at position `k` may draw,
      `uuid(k)`. */
  function FoldRows<A>(acc: A, rows: seq<Row>, step: (A, Row, string) -> A, uuid: nat -> string): A
    decreases |rows|
  {
    if |rows| == 0 then acc
    else
      var n := |rows| - 1;
      step(FoldRows(acc, rows[..n], step, uuid), rows[n], uuid(n))
  }

  /** The id source that skips its first `n` ids. */
  function Shift(uuid: nat -> string, n: nat): nat -> string {
    (k: nat) => uuid(n + k)
  }

  /** Folding over two batches of rows one after the other is folding over
      both at once, the second batch drawing the ids that follow the first. */
  lemma {:induction false} FoldRowsConcat<A>(acc: A, a: seq<Row>, b: seq<Row>, step: (A, Row, string) -> A, uuid: nat -> string)
    ensures FoldRows(acc, a + b, step, uuid)
         == FoldRows(FoldRows(acc, a, step, uuid), b, step, Shift(uuid, |a|))
    decreases |b|
  {
    if |b| == 0 {
      assert a + b == a;
    } else {
      var n := |b| - 1;
      assert (a + b)[..|a + b| - 1] == a + b[..n];
      assert (a + b)[|a + b| - 1] == b[n];
      FoldRowsConcat(acc, a, b[..n], step, uuid);
    }
  }

  /** Induction over a fold: a property of the number of rows consumed and
      the state reached, which holds at the start and survives every step,
      holds at the end. */
  lemma {:induction false} FoldRowsInduction<A>(acc: A, rows: seq<Row>, step: (A, Row, string) -> A, uuid: nat -> string, inv: (nat, A) -> bool)
    requires inv(0, acc)
    requires forall k: nat, a :: k < |rows| && inv(k, a) ==> inv(k + 1, step(a, rows[k], uuid(k)))
    ensures inv(|rows|, FoldRows(acc, rows, step, uuid))
    decreases |rows|
  {
    if |rows| > 0 {
      var n := |rows| - 1;
      assert forall k :: 0 <= k < n ==> rows[..n][k] == rows[k];
      FoldRowsInduction(acc, rows[..n], step, uuid, inv);
    }
  }

  /** Two folds over the same rows stay related by `rel` when their steps
      keep it on every row. */
  lemma {:induction false} FoldRowsSimulate<A, B>(acc: A, acc': B, rows: seq<Row>, step: (A, Row, string) -> A,
                                                  step': (B, Row, string) -> B, uuid: nat -> string, rel: (A, B) -> bool)
    requires rel(acc, acc')
    requires forall k: nat, a, b :: k < |rows| && rel(a, b) ==> rel(step(a, rows[k], uuid(k)), step'(b, rows[k], uuid(k)))
    ensures rel(FoldRows(acc, rows, step, uuid), FoldRows(acc', rows, step', uuid))
    decreases |rows|
  {
    if |rows| > 0 {
      var n := |rows| - 1;
      assert forall k :: 0 <= k < n ==> rows[..n][k] == rows[k];
      FoldRowsSimulate(acc, acc', rows[..n], step, step', uuid, rel);
    }
  }

  // ----------------------------------------------------------------- clients

  /** The client name a row carries, trimmed; empty means "skip the row". */
  function ClientRowName(r: Row): string {
    Trim(OrElse(Cell(r, "Client Name"), ""))
  }

  /** The invariant the client import keeps: names are trimmed, non-empty
      and distinct up to case. */
  predicate ClientNamesWellFormed(cs: seq<Client>) {
    && DistinctClientNames(cs)
    && (forall i :: 0 <= i < |cs| ==> cs[i].name != "" && IsTrimmed(cs[i].name))
  }

  /** The invariant the intended import keeps on top: no client lists a
      contact twice. */
  predicate ClientsWellFormed(cs: seq<Client>) {
    && ClientNamesWellFormed(cs)
    && (forall i :: 0 <= i < |cs| ==> NoDup(cs[i].contacts))
  }

  /** Position of the client whose name matches `name` up to case. */
  function ClientIndex(cs: seq<Client>, name: string): (i: int)
    ensures -1 <= i < |cs|
    ensures 0 <= i ==> NameKey(cs[i].name) == NameKey(name)
    ensures 0 <= i ==> forall j :: 0 <= j < i ==> NameKey(cs[j].name) != NameKey(name)
    ensures i == -1 ==> forall j :: 0 <= j < |cs| ==> NameKey(cs[j].name) != NameKey(name)
  {
    FirstIndex(cs, (c: Client) => NameKey(c.name) == NameKey(name))
  }

  /** One iteration of the import's `rawClients.forEach`, with the contact
      merge as written. A row with a blank name changes nothing; a row whose
      name matches an existing client up to case only merges its contact
      into that client; any other row appends a new client. Ids, names and
      countries already stored never change. */
  function ClientStep(cs: seq<Client>, r: Row, uuid: string): (cs': seq<Client>)
    ensures ClientRowName(r) == "" ==> cs' == cs
    ensures |cs'| == |cs| || |cs'| == |cs| + 1
    ensures forall i :: 0 <= i < |cs| ==>
      cs'[i].id == cs[i].id && cs'[i].name == cs[i].name && cs'[i].country == cs[i].country
    ensures !HasContactCells(r) ==> cs'[..|cs|] == cs
  {
    var name := ClientRowName(r);
    if name == "" then cs
    else
      var i := ClientIndex(cs, name);
      if i == -1 then
        cs + [Client(OrElse(Cell(r, "Client ID"), uuid), name, OrElse(Cell(r, "Country"), ""), AddRowContactAsWritten([], r))]
      else
        cs[i := cs[i].(contacts := AddRowContactAsWritten(cs[i].contacts, r))]
  }

  /** A row creates a client exactly when its trimmed name is non-blank and
      matches no stored name up to case; the new client takes the row's id
      (or the fresh one), its trimmed name, its country and its contact. */
  lemma ClientStepAppends(cs: seq<Client>, r: Row, uuid: string)
    ensures var cs' := ClientStep(cs, r, uuid);
      && (|cs'| == |cs| + 1 <==>
            ClientRowName(r) != "" && forall i :: 0 <= i < |cs| ==> NameKey(cs[i].name) != NameKey(ClientRowName(r)))
      && (|cs'| == |cs| + 1 ==>
            cs'[|cs|] == Client(OrElse(Cell(r, "Client ID"), uuid), ClientRowName(r), OrElse(Cell(r, "Country"), ""),
                                if HasContactCells(r) then [RowContact(r)] else []))
  {
  }

  /** A row whose name matches a stored client up to case adds no client:
      that client keeps the first row's id, name and country and its
      contacts go through the merge as written; every other client is
      untouched. */
  lemma ClientStepMerges(cs: seq<Client>, r: Row, uuid: string, i: nat)
    requires DistinctClientNames(cs)
    requires i < |cs| && ClientRowName(r) != "" && NameKey(cs[i].name) == NameKey(ClientRowName(r))
    ensures var cs' := ClientStep(cs, r, uuid);
      && |cs'| == |cs|
      && cs'[i] == cs[i].(contacts := AddRowContactAsWritten(cs[i].contacts, r))
      && forall j :: 0 <= j < |cs| && j != i ==> cs'[j] == cs[j]
  {
    var k := ClientIndex(cs, ClientRowName(r));
    assert k == i;
  }

  /** Each step keeps names trimmed, non-blank and distinct up to case. */
  lemma ClientStepWellFormed(cs: seq<Client>, r: Row, uuid: string)
    requires ClientNamesWellFormed(cs)
    ensures ClientNamesWellFormed(ClientStep(cs, r, uuid))
  {
    var name := ClientRowName(r);
    if name != "" {
      var i := ClientIndex(cs, name);
      var cs' := ClientStep(cs, r, uuid);
      if i == -1 {
        assert forall j :: 0 <= j < |cs| ==> NameKey(cs[j].name) != NameKey(name);
        assert cs'[|cs|].name == name;
      } else {
        assert forall j :: 0 <= j < |cs| ==> cs'[j].name == cs[j].name;
      }
    }
  }

  /** What the import keeps of the clients it starts from, after `k` rows. */
  predicate ClientsKept(acc: seq<Client>, k: nat, cs: seq<Client>) {
    && |acc| <= |cs| <= |acc| + k
    && forall i :: 0 <= i < |acc| ==>
         cs[i].id == acc[i].id && cs[i].name == acc[i].name && cs[i].country == acc[i].country
  }

  lemma ImportClientsFromKeeps(acc: seq<Client>, rows: seq<Row>, uuid: nat -> string)
    ensures ClientsKept(acc, |rows|, FoldRows(acc, rows, ClientStep, uuid))
  {
    var inv := (k: nat, cs: seq<Client>) => ClientsKept(acc, k, cs);
    forall k: nat, cs: seq<Client> | k < |rows| && inv(k, cs)
      ensures inv(k + 1, ClientStep(cs, rows[k], uuid(k)))
    {
      var cs' := ClientStep(cs, rows[k], uuid(k));
      assert forall i :: 0 <= i < |acc| ==> cs'[i].id == cs[i].id && cs'[i].name == cs[i].name && cs'[i].country == cs[i].country;
    }
    FoldRowsInduction(acc, rows, ClientStep, uuid, inv);
  }

  /** The client import run over `rows` on top of `acc`: the clients already
      there keep their place, id, name and country, and each row adds at most
      one client. */
  function ImportClientsFrom(acc: seq<Client>, rows: seq<Row>, uuid: nat -> string): (cs: seq<Client>)
    ensures |acc| <= |cs| <= |acc| + |rows|
    ensures forall i :: 0 <= i < |acc| ==>
      cs[i].id == acc[i].id && cs[i].name == acc[i].name && cs[i].country == acc[i].country
  {
    ImportClientsFromKeeps(acc, rows, uuid);
    FoldRows(acc, rows, ClientStep, uuid)
  }

  /** The import keeps the name invariant. */
  lemma ImportClientsFromWellFormed(acc: seq<Client>, rows: seq<Row>, uuid: nat -> string)
    requires ClientNamesWellFormed(acc)
    ensures ClientNamesWellFormed(ImportClientsFrom(acc, rows, uuid))
  {
    var inv := (k: nat, cs: seq<Client>) => ClientNamesWellFormed(cs);
    forall k: nat, cs: seq<Client> | k < |rows| && inv(k, cs)
      ensures inv(k + 1, ClientStep(cs, rows[k], uuid(k)))
    {
      ClientStepWellFormed(cs, rows[k], uuid(k));
    }
    FoldRowsInduction(acc, rows, ClientStep, uuid, inv);
  }

  /** Every row with a non-blank name among `done` is represented in `cs` by
      a client with the same name up to case, and every client after the
      first `start` carries the trimmed name of some row in `done`. */
  predicate ClientsCover(done: seq<Row>, start: nat, cs: seq<Client>) {
    && (forall k :: 0 <= k < |done| && ClientRowName(done[k]) != "" ==>
          exists i :: 0 <= i < |cs| && NameKey(cs[i].name) == NameKey(ClientRowName(done[k])))
    && (forall i :: start <= i < |cs| ==>
          exists k :: 0 <= k < |done| && ClientRowName(done[k]) == cs[i].name)
  }

  /** Coverage grows by the row a step consumes, given only what the step
      promises: earlier names survive, and the row's name is either blank,
      already represented, or the name of the one new entry. */
  lemma ClientsCoverExtend(done: seq<Row>, start: nat, cs: seq<Client>, cs': seq<Client>, r: Row)
    requires ClientsCover(done, start, cs) && start <= |cs|
    requires |cs'| == |cs| || |cs'| == |cs| + 1
    requires forall i :: 0 <= i < |cs| ==> cs'[i].name == cs[i].name
    requires |cs'| == |cs| ==>
      ClientRowName(r) == "" || exists i :: 0 <= i < |cs| && NameKey(cs[i].name) == NameKey(ClientRowName(r))
    requires |cs'| == |cs| + 1 ==> cs'[|cs|].name == ClientRowName(r)
    ensures ClientsCover(done + [r], start, cs')
  {
    var done' := done + [r];
    forall k | 0 <= k < |done'| && ClientRowName(done'[k]) != ""
      ensures exists i :: 0 <= i < |cs'| && NameKey(cs'[i].name) == NameKey(ClientRowName(done'[k]))
    {
      if k < |done| {
        assert done'[k] == done[k];
        var i :| 0 <= i < |cs| && NameKey(cs[i].name) == NameKey(ClientRowName(done[k]));
        assert cs'[i].name == cs[i].name;
      } else if |cs'| == |cs| {
        var i :| 0 <= i < |cs| && NameKey(cs[i].name) == NameKey(ClientRowName(r));
        assert cs'[i].name == cs[i].name;
      } else {
        assert cs'[|cs|].name == ClientRowName(r);
      }
    }
    forall i | start <= i < |cs'|
      ensures exists k :: 0 <= k < |done'| && ClientRowName(done'[k]) == cs'[i].name
    {
      if i < |cs| {
        var k :| 0 <= k < |done| && ClientRowName(done[k]) == cs[i].name;
        assert done'[k] == done[k];
      } else {
        assert done'[|done|] == r;
      }
    }
    assert ClientsCover(done', start, cs');
  }

  lemma ClientStepCovers(done: seq<Row>, start: nat, cs: seq<Client>, r: Row, uuid: string, done': seq<Row>)
    requires ClientsCover(done, start, cs) && start <= |cs|
    requires done' == done + [r]
    ensures ClientsCover(done', start, ClientStep(cs, r, uuid))
  {
    ClientStepAppends(cs, r, uuid);
    ClientsCoverExtend(done, start, cs, ClientStep(cs, r, uuid), r);
  }

  /** The coverage the fold has reached after its first `k` rows. */
  predicate ClientsCoverPrefix(rows: seq<Row>, start: nat, k: nat, cs: seq<Client>) {
    k <= |rows| && ClientsCover(rows[..k], start, cs) && start <= |cs|
  }

  lemma ClientsCoverPrefixStep(rows: seq<Row>, start: nat, uuid: nat -> string)
    ensures forall k: nat, cs :: k < |rows| && ClientsCoverPrefix(rows, start, k, cs) ==>
      ClientsCoverPrefix(rows, start, k + 1, ClientStep(cs, rows[k], uuid(k)))
  {
    forall k: nat, cs | k < |rows| && ClientsCoverPrefix(rows, start, k, cs)
      ensures ClientsCoverPrefix(rows, start, k + 1, ClientStep(cs, rows[k], uuid(k)))
    {
      assert rows[..k] + [rows[k]] == rows[..k + 1];
      ClientStepCovers(rows[..k], start, cs, rows[k], uuid(k), rows[..k + 1]);
    }
  }

  /** Coverage of the whole batch: see `ClientsCover`. */
  lemma ImportClientsFromCovers(acc: seq<Client>, rows: seq<Row>, uuid: nat -> string)
    ensures ClientsCover(rows, |acc|, ImportClientsFrom(acc, rows, uuid))
    ensures |acc| <= |ImportClientsFrom(acc, rows, uuid)|
  {
    var start := |acc|;
    var inv := (k: nat, cs: seq<Client>) => ClientsCoverPrefix(rows, start, k, cs);
    ClientsCoverPrefixStep(rows, start, uuid);
    assert inv(0, acc) by {
      assert ClientsCover(rows[..0], start, acc);
    }
    FoldRowsInduction(acc, rows, ClientStep, uuid, inv);
    assert rows[..|rows|] == rows;
  }

  /** The import's client list: every non-blank row name is represented,
      names are distinct up to case, and every client comes from a row. */
  function ImportClients(rows: seq<Row>, uuid: nat -> string): (cs: seq<Client>)
    ensures ClientNamesWellFormed(cs)
    ensures forall k :: 0 <= k < |rows| && ClientRowName(rows[k]) != "" ==>
      exists i :: 0 <= i < |cs| && NameKey(cs[i].name) == NameKey(ClientRowName(rows[k]))
    ensures forall i :: 0 <= i < |cs| ==> exists k :: 0 <= k < |rows| && ClientRowName(rows[k]) == cs[i].name
  {
    ImportClientsFromWellFormed([], rows, uuid);
    ImportClientsFromCovers([], rows, uuid);
    ImportClientsFrom([], rows, uuid)
  }

  /** The client step with the intended contact merge: a row's contact is
      added only when no equal contact is stored, so contact lists stay
      free of duplicates. */
  function ClientStepIntended(cs: seq<Client>, r: Row, uuid: string): (cs': seq<Client>)
    ensures |cs'| == |cs| || |cs'| == |cs| + 1
    ensures forall i :: 0 <= i < |cs| ==> cs'[i].name == cs[i].name && (NoDup(cs[i].contacts) ==> NoDup(cs'[i].contacts))
    ensures |cs'| == |cs| + 1 ==> NoDup(cs'[|cs|].contacts) && cs'[|cs|].name == ClientRowName(r)
  {
    var name := ClientRowName(r);
    if name == "" then cs
    else
      var i := ClientIndex(cs, name);
      if i == -1 then
        cs + [Client(OrElse(Cell(r, "Client ID"), uuid), name, OrElse(Cell(r, "Country"), ""), AddRowContact([], r))]
      else
        cs[i := cs[i].(contacts := AddRowContact(cs[i].contacts, r))]
  }

  /** Each intended step keeps the names well formed and contact lists free
      of duplicates. */
  lemma ClientStepIntendedWellFormed(cs: seq<Client>, r: Row, uuid: string)
    requires ClientsWellFormed(cs)
    ensures ClientsWellFormed(ClientStepIntended(cs, r, uuid))
  {
    var name := ClientRowName(r);
    if name != "" && ClientIndex(cs, name) == -1 {
      assert forall j :: 0 <= j < |cs| ==> NameKey(cs[j].name) != NameKey(name);
    }
  }

  /** The client import with the intended contact merge: names well formed
      and no client listing a contact twice. */
  function ImportClientsIntended(rows: seq<Row>, uuid: nat -> string): (cs: seq<Client>)
    ensures ClientsWellFormed(cs)
  {
    var inv := (k: nat, cs: seq<Client>) => ClientsWellFormed(cs);
    assert forall k: nat, cs :: k < |rows| && inv(k, cs) ==> inv(k + 1, ClientStepIntended(cs, rows[k], uuid(k))) by {
      forall k: nat, cs: seq<Client> | k < |rows| && inv(k, cs)
        ensures inv(k + 1, ClientStepIntended(cs, rows[k], uuid(k)))
      {
        ClientStepIntendedWellFormed(cs, rows[k], uuid(k));
      }
    }
    FoldRowsInduction([], rows, ClientStepIntended, uuid, inv);
    FoldRows([], rows, ClientStepIntended, uuid)
  }

  /** The same client up to repeated contacts: same id, name and country,
      and the same contacts once repetitions are ignored. */
  ghost predicate ClientAlike(x: Client, y: Client) {
    x.id == y.id && x.name == y.name && x.country == y.country && forall c :: c in x.contacts <==> c in y.contacts
  }

  /** Alike clients, one for one, in the same order. */
  ghost predicate ClientsAlike(xs: seq<Client>, ys: seq<Client>) {
    |xs| == |ys| && forall i :: 0 <= i < |xs| ==> ClientAlike(xs[i], ys[i])
  }

  /** The same position matches a name in two client lists with the same
      names. */
  lemma ClientIndexSameNames(xs: seq<Client>, ys: seq<Client>, name: string)
    requires |xs| == |ys| && forall i :: 0 <= i < |xs| ==> xs[i].name == ys[i].name
    ensures ClientIndex(xs, name) == ClientIndex(ys, name)
  {
    var i, j := ClientIndex(xs, name), ClientIndex(ys, name);
    if i != -1 {
      assert ys[i].name == xs[i].name;
    }
    if j != -1 {
      assert xs[j].name == ys[j].name;
    }
  }

  /** The step as written and the intended step keep alike lists alike. */
  lemma ClientStepsAlike(xs: seq<Client>, ys: seq<Client>, r: Row, uuid: string)
    requires ClientsAlike(xs, ys)
    ensures ClientsAlike(ClientStep(xs, r, uuid), ClientStepIntended(ys, r, uuid))
  {
    var name := ClientRowName(r);
    if name != "" {
      assert forall j :: 0 <= j < |xs| ==> xs[j].name == ys[j].name by {
        forall j | 0 <= j < |xs| ensures xs[j].name == ys[j].name {
          assert ClientAlike(xs[j], ys[j]);
        }
      }
      ClientIndexSameNames(xs, ys, name);
      var i := ClientIndex(xs, name);
      if i == -1 {
        var x := Client(OrElse(Cell(r, "Client ID"), uuid), name, OrElse(Cell(r, "Country"), ""), AddRowContactAsWritten([], r));
        var y := x.(contacts := AddRowContact([], r));
        AddRowContactSameMembers([], [], r);
        ClientsAlikeAppend(xs, ys, x, y);
      } else {
        var x := xs[i].(contacts := AddRowContactAsWritten(xs[i].contacts, r));
        var y := ys[i].(contacts := AddRowContact(ys[i].contacts, r));
        assert ClientAlike(xs[i], ys[i]);
        AddRowContactSameMembers(xs[i].contacts, ys[i].contacts, r);
        ClientsAlikeUpdate(xs, ys, i, x, y);
      }
    }
  }

  lemma ClientsAlikeAppend(xs: seq<Client>, ys: seq<Client>, x: Client, y: Client)
    requires ClientsAlike(xs, ys) && ClientAlike(x, y)
    ensures ClientsAlike(xs + [x], ys + [y])
  {
    forall j | 0 <= j < |xs| + 1
      ensures ClientAlike((xs + [x])[j], (ys + [y])[j])
    {
      if j < |xs| {
        assert (xs + [x])[j] == xs[j] && (ys + [y])[j] == ys[j];
      }
    }
  }

  lemma ClientsAlikeUpdate(xs: seq<Client>, ys: seq<Client>, i: nat, x: Client, y: Client)
    requires ClientsAlike(xs, ys) && i < |xs| && ClientAlike(x, y)
    ensures ClientsAlike(xs[i := x], ys[i := y])
  {
  }

  /** The import as written differs from the intended one only in listing
      some contacts more than once. */
  lemma ImportClientsAlike(rows: seq<Row>, uuid: nat -> string)
    ensures ClientsAlike(ImportClients(rows, uuid), ImportClientsIntended(rows, uuid))
  {
    forall k: nat, xs: seq<Client>, ys: seq<Client> | k < |rows| && ClientsAlike(xs, ys)
      ensures ClientsAlike(ClientStep(xs, rows[k], uuid(k)), ClientStepIntended(ys, rows[k], uuid(k)))
    {
      ClientStepsAlike(xs, ys, rows[k], uuid(k));
    }
    FoldRowsSimulate([], [], rows, ClientStep, ClientStepIntended, uuid, ClientsAlike);
  }

  /** On a row carrying all three contact cells the two steps agree. */
  lemma ClientStepAgrees(cs: seq<Client>, r: Row, uuid: string)
    requires HasAllContactCells(r)
    ensures ClientStep(cs, r, uuid) == ClientStepIntended(cs, r, uuid)
  {
    var name := ClientRowName(r);
    if name != "" {
      var i := ClientIndex(cs, name);
      if i == -1 {
        AddRowContactAgrees([], r);
      } else {
        AddRowContactAgrees(cs[i].contacts, r);
      }
    }
  }

  /** When every row carries all three contact cells, as exported rows do,
      the import as written is the intended one. */
  lemma ImportClientsAgree(rows: seq<Row>, uuid: nat -> string)
    requires forall k :: 0 <= k < |rows| ==> HasAllContactCells(rows[k])
    ensures ImportClients(rows, uuid) == ImportClientsIntended(rows, uuid)
  {
    var same := (xs: seq<Client>, ys: seq<Client>) => xs == ys;
    forall k: nat, xs: seq<Client>, ys: seq<Client> | k < |rows| && same(xs, ys)
      ensures same(ClientStep(xs, rows[k], uuid(k)), ClientStepIntended(ys, rows[k], uuid(k)))
    {
      ClientStepAgrees(xs, rows[k], uuid(k));
    }
    FoldRowsSimulate([], [], rows, ClientStep, ClientStepIntended, uuid, same);
  }

  // ---------------------------------------------------------------- partners

  /** The partner name a row carries, trimmed; empty means "skip the row". */
  function PartnerRowName(r: Row): string {
    Trim(OrElse(Cell(r, "Partner Name"), ""))
  }

  /** The partner import keeps the client name invariant, on partner
      names. */
  predicate PartnerNamesWellFormed(ps: seq<Partner>) {
    && DistinctPartnerNames(ps)
    && (forall i :: 0 <= i < |ps| ==> ps[i].name != "" && IsTrimmed(ps[i].name))
  }

  /** The invariant the intended partner import keeps on top: no partner
      lists a contact twice. */
  predicate PartnersWellFormed(ps: seq<Partner>) {
    && PartnerNamesWellFormed(ps)
    && (forall i :: 0 <= i < |ps| ==> NoDup(ps[i].contacts))
  }

  /** Position of the partner whose name matches `name` up to case. */
  function PartnerIndex(ps: seq<Partner>, name: string): (i: int)
    ensures -1 <= i < |ps|
    ensures 0 <= i ==> NameKey(ps[i].name) == NameKey(name)
    ensures 0 <= i ==> forall j :: 0 <= j < i ==> NameKey(ps[j].name) != NameKey(name)
    ensures i == -1 ==> forall j :: 0 <= j < |ps| ==> NameKey(ps[j].name) != NameKey(name)
  {
    FirstIndex(ps, (p: Partner) => NameKey(p.name) == NameKey(name))
  }

  /** One iteration of `rawPartners.forEach`: the client rule keyed on the
      partner name, with no country, and the contact merge as written. Ids
      and names already stored never change. */
  function PartnerStep(ps: seq<Partner>, r: Row, uuid: string): (ps': seq<Partner>)
    ensures PartnerRowName(r) == "" ==> ps' == ps
    ensures |ps'| == |ps| || |ps'| == |ps| + 1
    ensures forall i :: 0 <= i < |ps| ==> ps'[i].id == ps[i].id && ps'[i].name == ps[i].name
    ensures !HasContactCells(r) ==> ps'[..|ps|] == ps
  {
    var name := PartnerRowName(r);
    if name == "" then ps
    else
      var i := PartnerIndex(ps, name);
      if i == -1 then
        ps + [Partner(OrElse(Cell(r, "Partner ID"), uuid), name, AddRowContactAsWritten([], r))]
      else
        ps[i := ps[i].(contacts := AddRowContactAsWritten(ps[i].contacts, r))]
  }

  /** A row creates a partner exactly when its trimmed name is non-blank and
      matches no stored name up to case; the new partner takes the row's id
      (or the fresh one), its trimmed name and its contact. */
  lemma PartnerStepAppends(ps: seq<Partner>, r: Row, uuid: string)
    ensures var ps' := PartnerStep(ps, r, uuid);
      && (|ps'| == |ps| + 1 <==>
            PartnerRowName(r) != "" && forall i :: 0 <= i < |ps| ==> NameKey(ps[i].name) != NameKey(PartnerRowName(r)))
      && (|ps'| == |ps| + 1 ==>
            ps'[|ps|] == Partner(OrElse(Cell(r, "Partner ID"), uuid), PartnerRowName(r),
                                 if HasContactCells(r) then [RowContact(r)] else []))
  {
  }

  /** A row whose name matches a stored partner up to case only puts its
      contact through the merge as written into that partner. */
  lemma PartnerStepMerges(ps: seq<Partner>, r: Row, uuid: string, i: nat)
    requires DistinctPartnerNames(ps)
    requires i < |ps| && PartnerRowName(r) != "" && NameKey(ps[i].name) == NameKey(PartnerRowName(r))
    ensures var ps' := PartnerStep(ps, r, uuid);
      && |ps'| == |ps|
      && ps'[i] == ps[i].(contacts := AddRowContactAsWritten(ps[i].contacts, r))
      && forall j :: 0 <= j < |ps| && j != i ==> ps'[j] == ps[j]
  {
    var k := PartnerIndex(ps, PartnerRowName(r));
    assert k == i;
  }

  lemma PartnerStepWellFormed(ps: seq<Partner>, r: Row, uuid: string)
    requires PartnerNamesWellFormed(ps)
    ensures PartnerNamesWellFormed(PartnerStep(ps, r, uuid))
  {
    var name := PartnerRowName(r);
    if name != "" {
      var i := PartnerIndex(ps, name);
      var ps' := PartnerStep(ps, r, uuid);
      if i == -1 {
        assert forall j :: 0 <= j < |ps| ==> NameKey(ps[j].name) != NameKey(name);
        assert ps'[|ps|].name == name;
      } else {
        assert forall j :: 0 <= j < |ps| ==> ps'[j].name == ps[j].name;
      }
    }
  }

  /** What the partner import keeps of the partners it starts from, after
      `k` rows. */
  predicate PartnersKept(acc: seq<Partner>, k: nat, ps: seq<Partner>) {
    && |acc| <= |ps| <= |acc| + k
    && forall i :: 0 <= i < |acc| ==> ps[i].id == acc[i].id && ps[i].name == acc[i].name
  }

  lemma ImportPartnersFromKeeps(acc: seq<Partner>, rows: seq<Row>, uuid: nat -> string)
    ensures PartnersKept(acc, |rows|, FoldRows(acc, rows, PartnerStep, uuid))
  {
    var inv := (k: nat, ps: seq<Partner>) => PartnersKept(acc, k, ps);
    forall k: nat, ps: seq<Partner> | k < |rows| && inv(k, ps)
      ensures inv(k + 1, PartnerStep(ps, rows[k], uuid(k)))
    {
      var ps' := PartnerStep(ps, rows[k], uuid(k));
      assert forall i :: 0 <= i < |acc| ==> ps'[i].id == ps[i].id && ps'[i].name == ps[i].name;
    }
    FoldRowsInduction(acc, rows, PartnerStep, uuid, inv);
  }

  /** The partner import run over `rows` on top of `acc`: the partners
      already there keep their place, id and name, and each row adds at most
      one partner. */
  function ImportPartnersFrom(acc: seq<Partner>, rows: seq<Row>, uuid: nat -> string): (ps: seq<Partner>)
    ensures |acc| <= |ps| <= |acc| + |rows|
    ensures forall i :: 0 <= i < |acc| ==> ps[i].id == acc[i].id && ps[i].name == acc[i].name
  {
    ImportPartnersFromKeeps(acc, rows, uuid);
    FoldRows(acc, rows, PartnerStep, uuid)
  }

  lemma ImportPartnersFromWellFormed(acc: seq<Partner>, rows: seq<Row>, uuid: nat -> string)
    requires PartnerNamesWellFormed(acc)
    ensures PartnerNamesWellFormed(ImportPartnersFrom(acc, rows, uuid))
  {
    var inv := (k: nat, ps: seq<Partner>) => PartnerNamesWellFormed(ps);
    forall k: nat, ps: seq<Partner> | k < |rows| && inv(k, ps)
      ensures inv(k + 1, PartnerStep(ps, rows[k], uuid(k)))
    {
      PartnerStepWellFormed(ps, rows[k], uuid(k));
    }
    FoldRowsInduction(acc, rows, PartnerStep, uuid, inv);
  }

  /** Every row with a non-blank partner name among `done` is represented in
      `ps` up to case, and every partner after the first `start` carries the
      trimmed name of some row in `done`. */
  predicate PartnersCover(done: seq<Row>, start: nat, ps: seq<Partner>) {
    && (forall k :: 0 <= k < |done| && PartnerRowName(done[k]) != "" ==>
          exists i :: 0 <= i < |ps| && NameKey(ps[i].name) == NameKey(PartnerRowName(done[k])))
    && (forall i :: start <= i < |ps| ==>
          exists k :: 0 <= k < |done| && PartnerRowName(done[k]) == ps[i].name)
  }

  /** Coverage grows by the row a step consumes, given only what the step
      promises: earlier names survive, and the row's name is either blank,
      already represented, or the name of the one new entry. */
  lemma PartnersCoverExtend(done: seq<Row>, start: nat, ps: seq<Partner>, ps': seq<Partner>, r: Row)
    requires PartnersCover(done, start, ps) && start <= |ps|
    requires |ps'| == |ps| || |ps'| == |ps| + 1
    requires forall i :: 0 <= i < |ps| ==> ps'[i].name == ps[i].name
    requires |ps'| == |ps| ==>
      PartnerRowName(r) == "" || exists i :: 0 <= i < |ps| && NameKey(ps[i].name) == NameKey(PartnerRowName(r))
    requires |ps'| == |ps| + 1 ==> ps'[|ps|].name == PartnerRowName(r)
    ensures PartnersCover(done + [r], start, ps')
  {
    var done' := done + [r];
    forall k | 0 <= k < |done'| && PartnerRowName(done'[k]) != ""
      ensures exists i :: 0 <= i < |ps'| && NameKey(ps'[i].name) == NameKey(PartnerRowName(done'[k]))
    {
      if k < |done| {
        assert done'[k] == done[k];
        var i :| 0 <= i < |ps| && NameKey(ps[i].name) == NameKey(PartnerRowName(done[k]));
        assert ps'[i].name == ps[i].name;
      } else if |ps'| == |ps| {
        var i :| 0 <= i < |ps| && NameKey(ps[i].name) == NameKey(PartnerRowName(r));
        assert ps'[i].name == ps[i].name;
      } else {
        assert ps'[|ps|].name == PartnerRowName(r);
      }
    }
    forall i | start <= i < |ps'|
      ensures exists k :: 0 <= k < |done'| && PartnerRowName(done'[k]) == ps'[i].name
    {
      if i < |ps| {
        var k :| 0 <= k < |done| && PartnerRowName(done[k]) == ps[i].name;
        assert done'[k] == done[k];
      } else {
        assert done'[|done|] == r;
      }
    }
    assert PartnersCover(done', start, ps');
  }

  lemma PartnerStepCovers(done: seq<Row>, start: nat, ps: seq<Partner>, r: Row, uuid: string, done': seq<Row>)
    requires PartnersCover(done, start, ps) && start <= |ps|
    requires done' == done + [r]
    ensures PartnersCover(done', start, PartnerStep(ps, r, uuid))
  {
    PartnerStepAppends(ps, r, uuid);
    PartnersCoverExtend(done, start, ps, PartnerStep(ps, r, uuid), r);
  }

  /** The coverage the fold has reached after its first `k` rows. */
  predicate PartnersCoverPrefix(rows: seq<Row>, start: nat, k: nat, ps: seq<Partner>) {
    k <= |rows| && PartnersCover(rows[..k], start, ps) && start <= |ps|
  }

  lemma PartnersCoverPrefixStep(rows: seq<Row>, start: nat, uuid: nat -> string)
    ensures forall k: nat, ps :: k < |rows| && PartnersCoverPrefix(rows, start, k, ps) ==>
      PartnersCoverPrefix(rows, start, k + 1, PartnerStep(ps, rows[k], uuid(k)))
  {
    forall k: nat, ps | k < |rows| && PartnersCoverPrefix(rows, start, k, ps)
      ensures PartnersCoverPrefix(rows, start, k + 1, PartnerStep(ps, rows[k], uuid(k)))
    {
      assert rows[..k] + [rows[k]] == rows[..k + 1];
      PartnerStepCovers(rows[..k], start, ps, rows[k], uuid(k), rows[..k + 1]);
    }
  }

  lemma ImportPartnersFromCovers(acc: seq<Partner>, rows: seq<Row>, uuid: nat -> string)
    ensures PartnersCover(rows, |acc|, ImportPartnersFrom(acc, rows, uuid))
    ensures |acc| <= |ImportPartnersFrom(acc, rows, uuid)|
  {
    var start := |acc|;
    var inv := (k: nat, ps: seq<Partner>) => PartnersCoverPrefix(rows, start, k, ps);
    PartnersCoverPrefixStep(rows, start, uuid);
    assert inv(0, acc) by {
      assert PartnersCover(rows[..0], start, acc);
    }
    FoldRowsInduction(acc, rows, PartnerStep, uuid, inv);
    assert rows[..|rows|] == rows;
  }

  /** The import's partner list: every non-blank row name is represented,
      names are distinct up to case, and every partner comes from a row. */
  function ImportPartners(rows: seq<Row>, uuid: nat -> string): (ps: seq<Partner>)
    ensures PartnerNamesWellFormed(ps)
    ensures forall k :: 0 <= k < |rows| && PartnerRowName(rows[k]) != "" ==>
      exists i :: 0 <= i < |ps| && NameKey(ps[i].name) == NameKey(PartnerRowName(rows[k]))
    ensures forall i :: 0 <= i < |ps| ==> exists k :: 0 <= k < |rows| && PartnerRowName(rows[k]) == ps[i].name
  {
    ImportPartnersFromWellFormed([], rows, uuid);
    ImportPartnersFromCovers([], rows, uuid);
    ImportPartnersFrom([], rows, uuid)
  }

  /** The partner step with the intended contact merge. */
  function PartnerStepIntended(ps: seq<Partner>, r: Row, uuid: string): (ps': seq<Partner>)
    ensures |ps'| == |ps| || |ps'| == |ps| + 1
    ensures forall i :: 0 <= i < |ps| ==> ps'[i].name == ps[i].name && (NoDup(ps[i].contacts) ==> NoDup(ps'[i].contacts))
    ensures |ps'| == |ps| + 1 ==> NoDup(ps'[|ps|].contacts) && ps'[|ps|].name == PartnerRowName(r)
  {
    var name := PartnerRowName(r);
    if name == "" then ps
    else
      var i := PartnerIndex(ps, name);
      if i == -1 then
        ps + [Partner(OrElse(Cell(r, "Partner ID"), uuid), name, AddRowContact([], r))]
      else
        ps[i := ps[i].(contacts := AddRowContact(ps[i].contacts, r))]
  }

  lemma PartnerStepIntendedWellFormed(ps: seq<Partner>, r: Row, uuid: string)
    requires PartnersWellFormed(ps)
    ensures PartnersWellFormed(PartnerStepIntended(ps, r, uuid))
  {
    var name := PartnerRowName(r);
    if name != "" && PartnerIndex(ps, name) == -1 {
      assert forall j :: 0 <= j < |ps| ==> NameKey(ps[j].name) != NameKey(name);
    }
  }

  /** The partner import with the intended contact merge: names well
      formed and no partner listing a contact twice. */
  function ImportPartnersIntended(rows: seq<Row>, uuid: nat -> string): (ps: seq<Partner>)
    ensures PartnersWellFormed(ps)
  {
    var inv := (k: nat, ps: seq<Partner>) => PartnersWellFormed(ps);
    assert forall k: nat, ps :: k < |rows| && inv(k, ps) ==> inv(k + 1, PartnerStepIntended(ps, rows[k], uuid(k))) by {
      forall k: nat, ps: seq<Partner> | k < |rows| && inv(k, ps)
        ensures inv(k + 1, PartnerStepIntended(ps, rows[k], uuid(k)))
      {
        PartnerStepIntendedWellFormed(ps, rows[k], uuid(k));
      }
    }
    FoldRowsInduction([], rows, PartnerStepIntended, uuid, inv);
    FoldRows([], rows, PartnerStepIntended, uuid)
  }

  /** The same partner up to repeated contacts. */
  ghost predicate PartnerAlike(x: Partner, y: Partner) {
    x.id == y.id && x.name == y.name && forall c :: c in x.contacts <==> c in y.contacts
  }

  /** Alike partners, one for one, in the same order. */
  ghost predicate PartnersAlike(xs: seq<Partner>, ys: seq<Partner>) {
    |xs| == |ys| && forall i :: 0 <= i < |xs| ==> PartnerAlike(xs[i], ys[i])
  }

  lemma PartnerIndexSameNames(xs: seq<Partner>, ys: seq<Partner>, name: string)
    requires |xs| == |ys| && forall i :: 0 <= i < |xs| ==> xs[i].name == ys[i].name
    ensures PartnerIndex(xs, name) == PartnerIndex(ys, name)
  {
    var i, j := PartnerIndex(xs, name), PartnerIndex(ys, name);
    if i != -1 {
      assert ys[i].name == xs[i].name;
    }
    if j != -1 {
      assert xs[j].name == ys[j].name;
    }
  }

  lemma PartnerStepsAlike(xs: seq<Partner>, ys: seq<Partner>, r: Row, uuid: string)
    requires PartnersAlike(xs, ys)
    ensures PartnersAlike(PartnerStep(xs, r, uuid), PartnerStepIntended(ys, r, uuid))
  {
    var name := PartnerRowName(r);
    if name != "" {
      assert forall j :: 0 <= j < |xs| ==> xs[j].name == ys[j].name by {
        forall j | 0 <= j < |xs| ensures xs[j].name == ys[j].name {
          assert PartnerAlike(xs[j], ys[j]);
        }
      }
      PartnerIndexSameNames(xs, ys, name);
      var i := PartnerIndex(xs, name);
      if i == -1 {
        var x := Partner(OrElse(Cell(r, "Partner ID"), uuid), name, AddRowContactAsWritten([], r));
        var y := x.(contacts := AddRowContact([], r));
        AddRowContactSameMembers([], [], r);
        PartnersAlikeAppend(xs, ys, x, y);
      } else {
        var x := xs[i].(contacts := AddRowContactAsWritten(xs[i].contacts, r));
        var y := ys[i].(contacts := AddRowContact(ys[i].contacts, r));
        assert PartnerAlike(xs[i], ys[i]);
        AddRowContactSameMembers(xs[i].contacts, ys[i].contacts, r);
        PartnersAlikeUpdate(xs, ys, i, x, y);
      }
    }
  }

  lemma PartnersAlikeAppend(xs: seq<Partner>, ys: seq<Partner>, x: Partner, y: Partner)
    requires PartnersAlike(xs, ys) && PartnerAlike(x, y)
    ensures PartnersAlike(xs + [x], ys + [y])
  {
    forall j | 0 <= j < |xs| + 1
      ensures PartnerAlike((xs + [x])[j], (ys + [y])[j])
    {
      if j < |xs| {
        assert (xs + [x])[j] == xs[j] && (ys + [y])[j] == ys[j];
      }
    }
  }

  lemma PartnersAlikeUpdate(xs: seq<Partner>, ys: seq<Partner>, i: nat, x: Partner, y: Partner)
    requires PartnersAlike(xs, ys) && i < |xs| && PartnerAlike(x, y)
    ensures PartnersAlike(xs[i := x], ys[i := y])
  {
  }

  /** The partner import as written differs from the intended one only in
      listing some contacts more than once. */
  lemma ImportPartnersAlike(rows: seq<Row>, uuid: nat -> string)
    ensures PartnersAlike(ImportPartners(rows, uuid), ImportPartnersIntended(rows, uuid))
  {
    forall k: nat, xs: seq<Partner>, ys: seq<Partner> | k < |rows| && PartnersAlike(xs, ys)
      ensures PartnersAlike(PartnerStep(xs, rows[k], uuid(k)), PartnerStepIntended(ys, rows[k], uuid(k)))
    {
      PartnerStepsAlike(xs, ys, rows[k], uuid(k));
    }
    FoldRowsSimulate([], [], rows, PartnerStep, PartnerStepIntended, uuid, PartnersAlike);
  }

  lemma PartnerStepAgrees(ps: seq<Partner>, r: Row, uuid: string)
    requires HasAllContactCells(r)
    ensures PartnerStep(ps, r, uuid) == PartnerStepIntended(ps, r, uuid)
  {
    var name := PartnerRowName(r);
    if name != "" {
      var i := PartnerIndex(ps, name);
      if i == -1 {
        AddRowContactAgrees([], r);
      } else {
        AddRowContactAgrees(ps[i].contacts, r);
      }
    }
  }

  /** When every row carries all three contact cells the partner import as
      written is the intended one. */
  lemma ImportPartnersAgree(rows: seq<Row>, uuid: nat -> string)
    requires forall k :: 0 <= k < |rows| ==> HasAllContactCells(rows[k])
    ensures ImportPartners(rows, uuid) == ImportPartnersIntended(rows, uuid)
  {
    var same := (xs: seq<Partner>, ys: seq<Partner>) => xs == ys;
    forall k: nat, xs: seq<Partner>, ys: seq<Partner> | k < |rows| && same(xs, ys)
      ensures same(PartnerStep(xs, rows[k], uuid(k)), PartnerStepIntended(ys, rows[k], uuid(k)))
    {
      PartnerStepAgrees(xs, rows[k], uuid(k));
    }
    FoldRowsSimulate([], [], rows, PartnerStep, PartnerStepIntended, uuid, same);
  }

  // ---------------------------------------------------------------- products

  /** A product row fills in both the partner and the product cell; any other
      row of the sheet is skipped. */
  predicate IsProductRow(r: Row) {
    Truthy(Cell(r, "Partner")) && Truthy(Cell(r, "Product"))
  }

  function RowPartner(r: Row): string {
    OrElse(Cell(r, "Partner"), "")
  }

  function RowProduct(r: Row): string {
    OrElse(Cell(r, "Product"), "")
  }

  /** A product appended to a group's items unless it is already listed. */
  function AddItem(items: seq<string>, x: string): (r: seq<string>)
    ensures x in r && forall y :: y in r <==> y in items || y == x
    ensures NoDup(items) ==> NoDup(r)
  {
    if x in items then items else items + [x]
  }

  /** Position of the group for exactly this partner value (no trimming, no
      case folding). */
  function GroupIndex(gs: seq<ProductGroup>, partner: string): (i: int)
    ensures -1 <= i < |gs|
    ensures 0 <= i ==> gs[i].partner == partner && forall j :: 0 <= j < i ==> gs[j].partner != partner
    ensures i == -1 ==> forall j :: 0 <= j < |gs| ==> gs[j].partner != partner
    decreases |gs|
  {
    if |gs| == 0 then -1
    else if gs[0].partner == partner then 0
    else
      var k := GroupIndex(gs[1..], partner);
      if k == -1 then -1 else k + 1
  }

  /** One iteration of `rawProducts.forEach`: a product row adds its product
      to the group of its partner, creating the group at the end when there
      is none yet. The groups carry no partner id. */
  function ProductStep(gs: seq<ProductGroup>, r: Row): seq<ProductGroup> {
    if !IsProductRow(r) then gs
    else
      var partner := RowPartner(r);
      var i := GroupIndex(gs, partner);
      if i == -1 then gs + [ProductGroup(None, partner, AddItem([], RowProduct(r)))]
      else gs[i := gs[i].(items := AddItem(gs[i].items, RowProduct(r)))]
  }

  /** The partner value of every product row, in row order, repeats kept. */
  function RowPartners(rows: seq<Row>): seq<string>
    decreases |rows|
  {
    if |rows| == 0 then []
    else
      var n := |rows| - 1;
      RowPartners(rows[..n]) + if IsProductRow(rows[n]) then [RowPartner(rows[n])] else []
  }

  /** The product of every product row for `partner`, in row order, repeats
      kept. */
  function RowItems(rows: seq<Row>, partner: string): seq<string>
    decreases |rows|
  {
    if |rows| == 0 then []
    else
      var n := |rows| - 1;
      RowItems(rows[..n], partner) + if IsProductRow(rows[n]) && RowPartner(rows[n]) == partner then [RowProduct(rows[n])] else []
  }

  lemma RowPartnersSnoc(rows: seq<Row>, r: Row)
    ensures RowPartners(rows + [r]) == RowPartners(rows) + if IsProductRow(r) then [RowPartner(r)] else []
  {
    assert (rows + [r])[..|rows|] == rows;
  }

  lemma RowItemsSnoc(rows: seq<Row>, r: Row, partner: string)
    ensures RowItems(rows + [r], partner)
         == RowItems(rows, partner) + if IsProductRow(r) && RowPartner(r) == partner then [RowProduct(r)] else []
  {
    assert (rows + [r])[..|rows|] == rows;
  }

  /** A partner value is listed exactly when some product row carries it. */
  lemma {:induction false} RowPartnersMembers(rows: seq<Row>, p: string)
    ensures p in RowPartners(rows) <==> exists k :: 0 <= k < |rows| && IsProductRow(rows[k]) && RowPartner(rows[k]) == p
    decreases |rows|
  {
    if |rows| > 0 {
      var n := |rows| - 1;
      RowPartnersMembers(rows[..n], p);
      assert forall k :: 0 <= k < n ==> rows[..n][k] == rows[k];
    }
  }

  /** A product is listed for `partner` exactly when some product row pairs
      the two. */
  lemma {:induction false} RowItemsMembers(rows: seq<Row>, partner: string, x: string)
    ensures x in RowItems(rows, partner) <==>
      exists k :: 0 <= k < |rows| && IsProductRow(rows[k]) && RowPartner(rows[k]) == partner && RowProduct(rows[k]) == x
    decreases |rows|
  {
    if |rows| > 0 {
      var n := |rows| - 1;
      RowItemsMembers(rows[..n], partner, x);
      assert forall k :: 0 <= k < n ==> rows[..n][k] == rows[k];
    }
  }

  /** A partner no product row carries has no products. */
  lemma {:induction false} RowItemsOfUnlisted(rows: seq<Row>, partner: string)
    requires partner !in RowPartners(rows)
    ensures RowItems(rows, partner) == []
    decreases |rows|
  {
    if |rows| > 0 {
      RowItemsOfUnlisted(rows[..|rows| - 1], partner);
    }
  }

  /** What the product import should produce, stated without the fold: one
      group per distinct partner value in first-seen order, each holding the
      distinct products listed for that partner in first-seen order. */
  function GroupsOf(rows: seq<Row>): seq<ProductGroup> {
    GroupsFor(rows, Dedup(RowPartners(rows)))
  }

  /** The group of one partner value: its distinct products. */
  function GroupOf(rows: seq<Row>, p: string): ProductGroup {
    ProductGroup(None, p, Dedup(RowItems(rows, p)))
  }

  function GroupsFor(rows: seq<Row>, ps: seq<string>): (gs: seq<ProductGroup>)
    ensures |gs| == |ps|
    ensures forall i :: 0 <= i < |ps| ==> gs[i] == GroupOf(rows, ps[i])
  {
    seq(|ps|, i requires 0 <= i < |ps| => GroupOf(rows, ps[i]))
  }

  lemma GroupsForSnoc(rows: seq<Row>, ps: seq<string>, p: string)
    ensures GroupsFor(rows, ps + [p]) == GroupsFor(rows, ps) + [GroupOf(rows, p)]
  {
  }

  /** Rows that change only the `i`-th partner's group change only that
      group. */
  lemma GroupsForUpdate(rows: seq<Row>, rows': seq<Row>, ps: seq<string>, i: nat)
    requires i < |ps|
    requires forall j :: 0 <= j < |ps| && j != i ==> GroupOf(rows', ps[j]) == GroupOf(rows, ps[j])
    ensures GroupsFor(rows', ps) == GroupsFor(rows, ps)[i := GroupOf(rows', ps[i])]
  {
  }

  /** Rows that leave every listed partner's group alone leave the grouping
      alone. */
  lemma GroupsForSame(rows: seq<Row>, rows': seq<Row>, ps: seq<string>)
    requires forall i :: 0 <= i < |ps| ==> GroupOf(rows', ps[i]) == GroupOf(rows, ps[i])
    ensures GroupsFor(rows', ps) == GroupsFor(rows, ps)
  {
  }

  /** A row that is not a product row changes neither side. */
  lemma ProductStepSkips(rows: seq<Row>, r: Row)
    requires !IsProductRow(r)
    ensures GroupsOf(rows + [r]) == GroupsOf(rows)
  {
    RowPartnersSnoc(rows, r);
    assert RowPartners(rows + [r]) == RowPartners(rows);
    var ps := Dedup(RowPartners(rows));
    forall j | 0 <= j < |ps|
      ensures GroupOf(rows + [r], ps[j]) == GroupOf(rows, ps[j])
    {
      OtherItems(rows, r, ps[j]);
    }
    GroupsForSame(rows, rows + [r], ps);
  }

  /** A row leaves the products listed for any other partner alone. */
  lemma OtherItems(rows: seq<Row>, r: Row, q: string)
    requires !IsProductRow(r) || RowPartner(r) != q
    ensures RowItems(rows + [r], q) == RowItems(rows, q)
  {
    RowItemsSnoc(rows, r, q);
    assert RowItems(rows, q) + [] == RowItems(rows, q);
  }

  /** A product row adds its product to its own partner's distinct list. */
  lemma OwnItems(rows: seq<Row>, r: Row)
    requires IsProductRow(r)
    ensures Dedup(RowItems(rows + [r], RowPartner(r))) == AddItem(Dedup(RowItems(rows, RowPartner(r))), RowProduct(r))
  {
    RowItemsSnoc(rows, r, RowPartner(r));
    DedupSnoc(RowItems(rows, RowPartner(r)), RowProduct(r));
  }

  /** A product row adds its partner to the distinct partner list, unless it
      is there already. */
  lemma GroupPartners(rows: seq<Row>, r: Row)
    requires IsProductRow(r)
    ensures var ps := Dedup(RowPartners(rows));
      Dedup(RowPartners(rows + [r])) == if RowPartner(r) in ps then ps else ps + [RowPartner(r)]
  {
    RowPartnersSnoc(rows, r);
    DedupSnoc(RowPartners(rows), RowPartner(r));
  }

  /** A product row for a partner not seen yet appends its group. */
  lemma ProductStepNewGroup(rows: seq<Row>, r: Row)
    requires IsProductRow(r) && RowPartner(r) !in RowPartners(rows)
    ensures GroupsOf(rows + [r]) == GroupsOf(rows) + [ProductGroup(None, RowPartner(r), AddItem([], RowProduct(r)))]
  {
    var p := RowPartner(r);
    var ps := Dedup(RowPartners(rows));
    GroupPartners(rows, r);
    assert p !in ps;
    GroupsForSnoc(rows + [r], ps, p);
    forall j | 0 <= j < |ps|
      ensures GroupOf(rows + [r], ps[j]) == GroupOf(rows, ps[j])
    {
      assert ps[j] in ps;
      OtherItems(rows, r, ps[j]);
    }
    GroupsForSame(rows, rows + [r], ps);
    OwnItems(rows, r);
    RowItemsOfUnlisted(rows, p);
    assert Dedup(RowItems(rows, p)) == [];
  }

  /** A product row for a partner already seen adds its product to that
      partner's group, unless it is listed there already. */
  lemma ProductStepOldGroup(rows: seq<Row>, r: Row, i: nat)
    requires IsProductRow(r) && i < |Dedup(RowPartners(rows))| && Dedup(RowPartners(rows))[i] == RowPartner(r)
    ensures var gs := GroupsOf(rows);
      GroupsOf(rows + [r]) == gs[i := gs[i].(items := AddItem(gs[i].items, RowProduct(r)))]
  {
    var ps := Dedup(RowPartners(rows));
    GroupPartners(rows, r);
    OwnItems(rows, r);
    forall j | 0 <= j < |ps| && j != i
      ensures GroupOf(rows + [r], ps[j]) == GroupOf(rows, ps[j])
    {
      assert ps[j] != ps[i];
      OtherItems(rows, r, ps[j]);
    }
    GroupsForUpdate(rows, rows + [r], ps, i);
  }

  /** One more row moves the reference grouping exactly as a fold step does. */
  lemma ProductStepGroupsOf(rows: seq<Row>, r: Row)
    ensures ProductStep(GroupsOf(rows), r) == GroupsOf(rows + [r])
  {
    if !IsProductRow(r) {
      ProductStepSkips(rows, r);
    } else {
      var gs := GroupsOf(rows);
      var ps := Dedup(RowPartners(rows));
      var i := GroupIndex(gs, RowPartner(r));
      if i == -1 {
        assert RowPartner(r) !in ps by {
          forall j | 0 <= j < |ps|
            ensures ps[j] != RowPartner(r)
          {
            assert gs[j].partner == ps[j];
          }
        }
        ProductStepNewGroup(rows, r);
      } else {
        ProductStepOldGroup(rows, r, i);
      }
    }
  }

  /** The products sheet draws no fresh ids. */
  function NoIds(k: nat): string {
    ""
  }

  /** One iteration of the product fold, in the shape `FoldRows` takes. */
  function ProductFoldStep(gs: seq<ProductGroup>, r: Row, id: string): seq<ProductGroup> {
    ProductStep(gs, r)
  }

  /** The fold stays equal to the reference grouping of the rows consumed. */
  lemma ProductFoldIsGroupsOf(rows: seq<Row>)
    ensures FoldRows([], rows, ProductFoldStep, NoIds) == GroupsOf(rows)
  {
    var inv := (k: nat, gs: seq<ProductGroup>) => k <= |rows| && gs == GroupsOf(rows[..k]);
    forall k: nat, gs | k < |rows| && inv(k, gs)
      ensures inv(k + 1, ProductFoldStep(gs, rows[k], NoIds(k)))
    {
      ProductStepGroupsOf(rows[..k], rows[k]);
      assert rows[..k] + [rows[k]] == rows[..k + 1];
    }
    assert rows[..0] == [];
    FoldRowsInduction([], rows, ProductFoldStep, NoIds, inv);
    assert rows[..|rows|] == rows;
  }

  /** The reference grouping: partner values are distinct and non-empty,
      every group is non-empty, and its items are distinct and are exactly
      the products listed for its partner. */
  lemma GroupsOfShape(rows: seq<Row>)
    ensures var gs := GroupsOf(rows);
      && (forall i, j :: 0 <= i < j < |gs| ==> gs[i].partner != gs[j].partner)
      && (forall i :: 0 <= i < |gs| ==> gs[i].partnerId == None && gs[i].partner != "" && |gs[i].items| > 0 && NoDup(gs[i].items))
      && (forall i, x :: 0 <= i < |gs| ==> (x in gs[i].items <==>
            exists k :: 0 <= k < |rows| && IsProductRow(rows[k]) && RowPartner(rows[k]) == gs[i].partner && RowProduct(rows[k]) == x))
      && (forall k :: 0 <= k < |rows| && IsProductRow(rows[k]) ==> exists i :: 0 <= i < |gs| && gs[i].partner == RowPartner(rows[k]))
  {
    var gs := GroupsOf(rows);
    var ps := Dedup(RowPartners(rows));
    forall i | 0 <= i < |gs|
      ensures gs[i].partner != "" && |gs[i].items| > 0
    {
      RowPartnersMembers(rows, ps[i]);
      var k :| 0 <= k < |rows| && IsProductRow(rows[k]) && RowPartner(rows[k]) == ps[i];
      RowItemsMembers(rows, ps[i], RowProduct(rows[k]));
      assert RowProduct(rows[k]) in Dedup(RowItems(rows, ps[i]));
    }
    forall i, x | 0 <= i < |gs|
      ensures x in gs[i].items <==>
        exists k :: 0 <= k < |rows| && IsProductRow(rows[k]) && RowPartner(rows[k]) == gs[i].partner && RowProduct(rows[k]) == x
    {
      RowItemsMembers(rows, ps[i], x);
    }
    forall k | 0 <= k < |rows| && IsProductRow(rows[k])
      ensures exists i :: 0 <= i < |gs| && gs[i].partner == RowPartner(rows[k])
    {
      RowPartnersMembers(rows, RowPartner(rows[k]));
      var i :| 0 <= i < |ps| && ps[i] == RowPartner(rows[k]);
      assert gs[i].partner == ps[i];
    }
  }

  /** The import's product groups are the reference grouping. */
  function ImportProducts(rows: seq<Row>): (gs: seq<ProductGroup>)
    ensures gs == GroupsOf(rows)
  {
    ProductFoldIsGroupsOf(rows);
    FoldRows([], rows, ProductFoldStep, NoIds)
  }

  /** The imported groups carry no partner id and a non-empty partner name,
      which is what a delete on the products page first meets. */
  lemma ImportedGroupsHaveNoId(rows: seq<Row>)
    ensures forall i :: 0 <= i < |ImportProducts(rows)| ==>
      ImportProducts(rows)[i].partnerId == None && ImportProducts(rows)[i].partner != ""
  {
    var ps := Dedup(RowPartners(rows));
    forall i | 0 <= i < |ps|
      ensures ps[i] != ""
    {
      assert ps[i] in RowPartners(rows);
      RowPartnersMembers(rows, ps[i]);
    }
  }

  // ----------------------------------------------------------------- records

  /** A reference cell: `String(cell)` when the cell is truthy, `null`
      otherwise. */
  function RefCell(r: Row, header: string): Option<string> {
    if Truthy(Cell(r, header)) then Some(Cell(r, header).value) else None
  }

  /** `v` is what the import reads from `header`: the cell's text when the
      cell is truthy, `fallback` when it is missing or empty. */
  predicate ReadsCell(r: Row, header: string, fallback: string, v: string) {
    (Truthy(Cell(r, header)) ==> header in r && v == r[header])
    && (!Truthy(Cell(r, header)) ==> v == fallback)
  }

  /** `o` is the reference the import reads from `header`: the cell's text
      when the cell is truthy, `null` when it is missing or empty. */
  predicate ReadsRef(r: Row, header: string, o: Option<string>) {
    (Truthy(Cell(r, header)) ==> header in r && o == Some(r[header]))
    && (!Truthy(Cell(r, header)) ==> o == None)
  }

  /** A reference is either `null` or a non-empty id; the import never
      stores an empty one. */
  predicate RefOk(o: Option<string>) {
    o.Some? ==> o.value != ""
  }

  /** One row of the projects sheet. A missing id draws `uuid`; missing
      references become `null`; the other fields default to the empty
      string. */
  function ProjectOfRow(r: Row, uuid: string): (p: Project)
    ensures RefOk(p.clientId) && RefOk(p.partnerId)
    ensures p.clientId.Some? <==> Truthy(Cell(r, "Client ID"))
    ensures p.partnerId.Some? <==> Truthy(Cell(r, "Partner ID"))
    ensures p.id == "" ==> uuid == ""
    ensures ReadsCell(r, "Project ID", uuid, p.id)
    ensures ReadsCell(r, "Project Name", "", p.name)
    ensures ReadsRef(r, "Client ID", p.clientId) && ReadsRef(r, "Partner ID", p.partnerId)
    ensures ReadsCell(r, "Product", "", p.productId)
    ensures ReadsCell(r, "Start Date", "", p.startDate) && ReadsCell(r, "Status", "", p.status)
  {
    Project(
      OrElse(Cell(r, "Project ID"), uuid),
      OrElse(Cell(r, "Project Name"), ""),
      RefCell(r, "Client ID"),
      RefCell(r, "Partner ID"),
      OrElse(Cell(r, "Product"), ""),
      OrElse(Cell(r, "Start Date"), ""),
      OrElse(Cell(r, "Status"), ""))
  }

  /** One row of the follow-ups sheet. The due date is the `Next Date` cell,
      else the `Date` cell, else empty. */
  function FollowupOfRow(r: Row, uuid: string): (f: Followup)
    ensures RefOk(f.clientId) && RefOk(f.projectId) && RefOk(f.partnerId)
    ensures f.clientId.Some? <==> Truthy(Cell(r, "Client ID"))
    ensures Truthy(Cell(r, "Next Date")) ==> f.nextDate == r["Next Date"]
    ensures !Truthy(Cell(r, "Next Date")) && Truthy(Cell(r, "Date")) ==> f.nextDate == r["Date"]
    ensures f.nextDate == "" <==> !Truthy(Cell(r, "Next Date")) && !Truthy(Cell(r, "Date"))
    ensures f.projectId.Some? <==> Truthy(Cell(r, "Project ID"))
    ensures f.partnerId.Some? <==> Truthy(Cell(r, "Partner ID"))
    ensures ReadsCell(r, "Follow-Up ID", uuid, f.id)
    ensures ReadsRef(r, "Client ID", f.clientId) && ReadsRef(r, "Project ID", f.projectId)
    ensures ReadsRef(r, "Partner ID", f.partnerId)
    ensures ReadsCell(r, "Product", "", f.productId) && ReadsCell(r, "Action", "", f.action)
  {
    Followup(
      OrElse(Cell(r, "Follow-Up ID"), uuid),
      RefCell(r, "Client ID"),
      RefCell(r, "Project ID"),
      RefCell(r, "Partner ID"),
      OrElse(Cell(r, "Product"), ""),
      OrElse(Cell(r, "Next Date"), OrElse(Cell(r, "Date"), "")),
      OrElse(Cell(r, "Action"), ""))
  }

  /** One row of the project comments sheet. The kind defaults to `note`,
      the date to `today` (the UTC calendar date of the import). */
  function CommentOfRow(r: Row, uuid: string, today: string): (c: ProjectComment)
    ensures RefOk(c.projectId)
    ensures c.kind != ""
    ensures c.kind == "note" <==> !Truthy(Cell(r, "Type")) || r["Type"] == "note"
    ensures c.date == "" ==> today == ""
    ensures ReadsCell(r, "Comment ID", uuid, c.id)
    ensures ReadsRef(r, "Project ID", c.projectId)
    ensures ReadsCell(r, "Type", "note", c.kind) && ReadsCell(r, "Comment", "", c.text)
    ensures ReadsCell(r, "Date", today, c.date)
  {
    ProjectComment(
      OrElse(Cell(r, "Comment ID"), uuid),
      RefCell(r, "Project ID"),
      OrElse(Cell(r, "Type"), "note"),
      OrElse(Cell(r, "Comment"), ""),
      OrElse(Cell(r, "Date"), today))
  }

  /** The row layout the record import reads, written out from a record:
      one cell per field, no cell for a `null` reference. */
  function RefCells(m: Row, header: string, o: Option<string>): Row {
    if o.Some? then m[header := o.value] else m - {header}
  }

  function ProjectRow(p: Project): Row {
    var m := map["Project ID" := p.id, "Project Name" := p.name, "Product" := p.productId,
                 "Start Date" := p.startDate, "Status" := p.status];
    RefCells(RefCells(m, "Client ID", p.clientId), "Partner ID", p.partnerId)
  }

  function FollowupRow(f: Followup): Row {
    var m := map["Follow-Up ID" := f.id, "Product" := f.productId, "Next Date" := f.nextDate, "Action" := f.action];
    RefCells(RefCells(RefCells(m, "Client ID", f.clientId), "Project ID", f.projectId), "Partner ID", f.partnerId)
  }

  function CommentRow(c: ProjectComment): Row {
    var m := map["Comment ID" := c.id, "Type" := c.kind, "Comment" := c.text, "Date" := c.date];
    RefCells(m, "Project ID", c.projectId)
  }

  /** A project the import can reproduce: it has an id and its references
      are `null` or non-empty. */
  predicate ProjectImportable(p: Project) {
    p.id != "" && RefOk(p.clientId) && RefOk(p.partnerId)
  }

  /** Reading a project back from its own row gives the project, whatever
      fresh id is on offer. */
  lemma ProjectOfRowRoundTrip(p: Project, uuid: string)
    requires ProjectImportable(p)
    ensures ProjectOfRow(ProjectRow(p), uuid) == p
  {
    var m := map["Project ID" := p.id, "Project Name" := p.name, "Product" := p.productId,
                 "Start Date" := p.startDate, "Status" := p.status];
    var r := ProjectRow(p);
    assert r == RefCells(RefCells(m, "Client ID", p.clientId), "Partner ID", p.partnerId);
    assert Cell(r, "Project ID") == Some(p.id);
    assert Cell(r, "Project Name") == Some(p.name);
    assert Cell(r, "Product") == Some(p.productId);
    assert Cell(r, "Start Date") == Some(p.startDate);
    assert Cell(r, "Status") == Some(p.status);
    assert RefCell(r, "Client ID") == p.clientId;
    assert RefCell(r, "Partner ID") == p.partnerId;
  }

  predicate FollowupImportable(f: Followup) {
    f.id != "" && RefOk(f.clientId) && RefOk(f.projectId) && RefOk(f.partnerId)
  }

  lemma FollowupOfRowRoundTrip(f: Followup, uuid: string)
    requires FollowupImportable(f)
    ensures FollowupOfRow(FollowupRow(f), uuid) == f
  {
    var m := map["Follow-Up ID" := f.id, "Product" := f.productId, "Next Date" := f.nextDate, "Action" := f.action];
    var r := FollowupRow(f);
    assert r == RefCells(RefCells(RefCells(m, "Client ID", f.clientId), "Project ID", f.projectId), "Partner ID", f.partnerId);
    assert Cell(r, "Follow-Up ID") == Some(f.id);
    assert Cell(r, "Product") == Some(f.productId);
    assert Cell(r, "Next Date") == Some(f.nextDate);
    assert Cell(r, "Action") == Some(f.action);
    assert RefCell(r, "Client ID") == f.clientId;
    assert RefCell(r, "Project ID") == f.projectId;
    assert RefCell(r, "Partner ID") == f.partnerId;
  }

  /** A comment the import can reproduce also needs a kind and a date: empty
      ones are replaced by the defaults. */
  predicate CommentImportable(c: ProjectComment) {
    c.id != "" && RefOk(c.projectId) && c.kind != "" && c.date != ""
  }

  lemma CommentOfRowRoundTrip(c: ProjectComment, uuid: string, today: string)
    requires CommentImportable(c)
    ensures CommentOfRow(CommentRow(c), uuid, today) == c
  {
  }

  /** The projects sheet read row by row: one record per row, the `k`-th
      drawing the fresh id `uuid(k)`. */
  function ImportProjects(rows: seq<Row>, uuid: nat -> string): (ps: seq<Project>)
    ensures |ps| == |rows|
    ensures forall k :: 0 <= k < |rows| ==> ps[k] == ProjectOfRow(rows[k], uuid(k))
  {
    seq(|rows|, k requires 0 <= k < |rows| => ProjectOfRow(rows[k], uuid(k)))
  }

  function ImportFollowups(rows: seq<Row>, uuid: nat -> string): (fs: seq<Followup>)
    ensures |fs| == |rows|
    ensures forall k :: 0 <= k < |rows| ==> fs[k] == FollowupOfRow(rows[k], uuid(k))
  {
    seq(|rows|, k requires 0 <= k < |rows| => FollowupOfRow(rows[k], uuid(k)))
  }

  function ImportComments(rows: seq<Row>, uuid: nat -> string, today: string): (cs: seq<ProjectComment>)
    ensures |cs| == |rows|
    ensures forall k :: 0 <= k < |rows| ==> cs[k] == CommentOfRow(rows[k], uuid(k), today)
  {
    seq(|rows|, k requires 0 <= k < |rows| => CommentOfRow(rows[k], uuid(k), today))
  }

  /** A projects sheet written from importable projects reads back as the
      same projects, in the same order. */
  lemma ImportProjectRows(ps: seq<Project>, uuid: nat -> string)
    requires forall p :: p in ps ==> ProjectImportable(p)
    ensures ImportProjects(seq(|ps|, k requires 0 <= k < |ps| => ProjectRow(ps[k])), uuid) == ps
  {
    var rows := seq(|ps|, k requires 0 <= k < |ps| => ProjectRow(ps[k]));
    forall k | 0 <= k < |ps|
      ensures ImportProjects(rows, uuid)[k] == ps[k]
    {
      ProjectOfRowRoundTrip(ps[k], uuid(k));
    }
  }

  lemma ImportFollowupRows(fs: seq<Followup>, uuid: nat -> string)
    requires forall f :: f in fs ==> FollowupImportable(f)
    ensures ImportFollowups(seq(|fs|, k requires 0 <= k < |fs| => FollowupRow(fs[k])), uuid) == fs
  {
    var rows := seq(|fs|, k requires 0 <= k < |fs| => FollowupRow(fs[k]));
    forall k | 0 <= k < |fs|
      ensures ImportFollowups(rows, uuid)[k] == fs[k]
    {
      FollowupOfRowRoundTrip(fs[k], uuid(k));
    }
  }

  lemma ImportCommentRows(cs: seq<ProjectComment>, uuid: nat -> string, today: string)
    requires forall c :: c in cs ==> CommentImportable(c)
    ensures ImportComments(seq(|cs|, k requires 0 <= k < |cs| => CommentRow(cs[k])), uuid, today) == cs
  {
    var rows := seq(|cs|, k requires 0 <= k < |cs| => CommentRow(cs[k]));
    forall k | 0 <= k < |cs|
      ensures ImportComments(rows, uuid, today)[k] == cs[k]
    {
      CommentOfRowRoundTrip(cs[k], uuid(k), today);
    }
  }

  // ------------------------------------------------------------------ export

  /** The contact the placeholder row of a client without contacts shows. */
  const NoContact := Contact("", "", "")

  /** At least one field of the contact is filled in. */
  predicate HasDetails(ct: Contact) {
    ct.contact != "" || ct.email != "" || ct.phone != ""
  }

  /** The export row for one contact of a client. */
  function ContactRow(c: Client, ct: Contact): Row {
    map["Client ID" := c.id, "Client Name" := c.name, "Country" := c.country,
        "Contact Person" := ct.contact, "Email" := ct.email, "Phone" := ct.phone]
  }

  /** The export rows of one client: one row per contact, in order, or a
      single row with empty contact cells when the client has no contact. */
  function ClientRows(c: Client): (rows: seq<Row>)
    ensures |rows| == if |c.contacts| == 0 then 1 else |c.contacts|
    ensures forall k :: 0 <= k < |rows| ==> rows[k] == ContactRow(c, if |c.contacts| == 0 then NoContact else c.contacts[k])
  {
    if |c.contacts| == 0 then [ContactRow(c, NoContact)]
    else seq(|c.contacts|, k requires 0 <= k < |c.contacts| => ContactRow(c, c.contacts[k]))
  }

  /** The number of export rows: each client counts its contacts, and at
      least one. */
  function RowCount(cs: seq<Client>): nat
    decreases |cs|
  {
    if |cs| == 0 then 0
    else
      var c := cs[|cs| - 1];
      RowCount(cs[..|cs| - 1]) + if |c.contacts| == 0 then 1 else |c.contacts|
  }

  /** The client sheet: the clients' rows, one client after the other. */
  function ExportClients(cs: seq<Client>): (rows: seq<Row>)
    ensures |rows| == RowCount(cs)
    decreases |cs|
  {
    if |cs| == 0 then [] else ExportClients(cs[..|cs| - 1]) + ClientRows(cs[|cs| - 1])
  }

  /** What the import reads back from one export row. */
  lemma ContactRowReadsBack(c: Client, ct: Contact)
    requires IsTrimmed(c.name)
    ensures var r := ContactRow(c, ct);
      && ClientRowName(r) == c.name
      && Cell(r, "Client ID") == Some(c.id)
      && OrElse(Cell(r, "Country"), "") == c.country
      && (HasContactCells(r) <==> HasDetails(ct))
      && RowContact(r) == ct
  {
    var r := ContactRow(c, ct);
    assert OrElse(Cell(r, "Client Name"), "") == c.name;
    TrimOfTrimmed(c.name);
  }

  /** A client the round trip reproduces: it has an id, and each contact has
      a detail (a contact with none leaves no trace in its row). */
  predicate Exportable(cs: seq<Client>) {
    && ClientsWellFormed(cs)
    && forall i :: 0 <= i < |cs| ==> cs[i].id != "" && forall ct :: ct in cs[i].contacts ==> HasDetails(ct)
  }

  /** The client's first export row appends it, with its first contact if
      it has any. */
  lemma ClientRowsFirst(acc: seq<Client>, c: Client, ct: Contact, uuid: string)
    requires ClientsWellFormed(acc + [c]) && c.id != ""
    requires HasDetails(ct) || ct == NoContact
    ensures ClientStep(acc, ContactRow(c, ct), uuid) == acc + [c.(contacts := if HasDetails(ct) then [ct] else [])]
  {
    var r := ContactRow(c, ct);
    assert (acc + [c])[|acc|] == c;
    ContactRowReadsBack(c, ct);
    ClientStepAppends(acc, r, uuid);
    assert forall i :: 0 <= i < |acc| ==> NameKey(acc[i].name) != NameKey(c.name) by {
      forall i | 0 <= i < |acc|
        ensures NameKey(acc[i].name) != NameKey(c.name)
      {
        assert (acc + [c])[i] == acc[i];
      }
    }
    var cs' := ClientStep(acc, r, uuid);
    assert cs'[|acc|] == c.(contacts := if HasDetails(ct) then [ct] else []);
    assert cs'[..|acc|] == acc;
  }

  /** Each further export row of the client adds its next contact. */
  lemma ClientRowsNext(acc: seq<Client>, c: Client, k: nat, uuid: string)
    requires ClientsWellFormed(acc + [c]) && 0 < k < |c.contacts|
    requires HasDetails(c.contacts[k])
    ensures ClientStep(acc + [c.(contacts := c.contacts[..k])], ContactRow(c, c.contacts[k]), uuid)
         == acc + [c.(contacts := c.contacts[..k + 1])]
  {
    var ck := c.(contacts := c.contacts[..k]);
    var cs := acc + [ck];
    var r := ContactRow(c, c.contacts[k]);
    assert (acc + [c])[|acc|] == c;
    ContactRowReadsBack(c, c.contacts[k]);
    RenamedLastDistinct(acc, c, ck);
    ClientStepMerges(cs, r, uuid, |acc|);
    AddRowContactAgrees(c.contacts[..k], r);
    NextContact(c.contacts, k, r);
    ReplaceLast(acc, c.(contacts := c.contacts[..k + 1]), ClientStep(cs, r, uuid));
  }

  lemma RenamedLastDistinct(acc: seq<Client>, c: Client, ck: Client)
    requires DistinctClientNames(acc + [c]) && ck.name == c.name
    ensures DistinctClientNames(acc + [ck])
  {
    var cs := acc + [ck];
    forall i, j | 0 <= i < j < |cs|
      ensures NameKey(cs[i].name) != NameKey(cs[j].name)
    {
      assert cs[i].name == (acc + [c])[i].name && cs[j].name == (acc + [c])[j].name;
    }
  }

  /** The row of the `k`-th contact extends the first `k` contacts by it. */
  lemma NextContact(contacts: seq<Contact>, k: nat, r: Row)
    requires NoDup(contacts) && k < |contacts|
    requires HasContactCells(r) && RowContact(r) == contacts[k]
    ensures AddRowContact(contacts[..k], r) == contacts[..k + 1]
  {
    assert contacts[k] !in contacts[..k];
    assert contacts[..k + 1] == contacts[..k] + [contacts[k]];
  }

  lemma ReplaceLast<T>(acc: seq<T>, y: T, s: seq<T>)
    requires |s| == |acc| + 1 && s[|acc|] == y
    requires forall j :: 0 <= j < |acc| ==> s[j] == acc[j]
    ensures s == acc + [y]
  {
  }

  /** After the first `k` export rows of `c`: `acc` plus `c` holding its
      first `k` contacts. */
  predicate ClientRowsPrefix(acc: seq<Client>, c: Client, k: nat, s: seq<Client>) {
    k <= |c.contacts| && (k == 0 ==> s == acc) && (k > 0 ==> s == acc + [c.(contacts := c.contacts[..k])])
  }

  lemma ClientRowsPrefixStep(acc: seq<Client>, c: Client, uuid: nat -> string)
    requires ClientsWellFormed(acc + [c]) && c.id != "" && |c.contacts| > 0
    requires forall ct :: ct in c.contacts ==> HasDetails(ct)
    ensures forall k: nat, s :: k < |ClientRows(c)| && ClientRowsPrefix(acc, c, k, s) ==>
      ClientRowsPrefix(acc, c, k + 1, ClientStep(s, ClientRows(c)[k], uuid(k)))
  {
    var rows := ClientRows(c);
    forall k: nat, s | k < |rows| && ClientRowsPrefix(acc, c, k, s)
      ensures ClientRowsPrefix(acc, c, k + 1, ClientStep(s, rows[k], uuid(k)))
    {
      assert c.contacts[k] in c.contacts;
      if k == 0 {
        ClientRowsFirst(acc, c, c.contacts[0], uuid(0));
        assert c.contacts[..1] == [c.contacts[0]];
      } else {
        ClientRowsNext(acc, c, k, uuid(k));
      }
    }
  }

  /** Importing one client's export rows on top of clients with other names
      appends exactly that client. */
  lemma ImportClientRows(acc: seq<Client>, c: Client, uuid: nat -> string)
    requires ClientsWellFormed(acc + [c]) && c.id != ""
    requires forall ct :: ct in c.contacts ==> HasDetails(ct)
    ensures FoldRows(acc, ClientRows(c), ClientStep, uuid) == acc + [c]
  {
    var rows := ClientRows(c);
    if |c.contacts| == 0 {
      assert rows[..0] == [];
      ClientRowsFirst(acc, c, NoContact, uuid(0));
    } else {
      var inv := (k: nat, s: seq<Client>) => ClientRowsPrefix(acc, c, k, s);
      ClientRowsPrefixStep(acc, c, uuid);
      FoldRowsInduction(acc, rows, ClientStep, uuid, inv);
      assert c.contacts[..|c.contacts|] == c.contacts;
    }
  }

  lemma ExportableInit(cs: seq<Client>)
    requires Exportable(cs) && |cs| > 0
    ensures Exportable(cs[..|cs| - 1])
    ensures cs[..|cs| - 1] + [cs[|cs| - 1]] == cs
  {
    assert forall i :: 0 <= i < |cs| - 1 ==> cs[..|cs| - 1][i] == cs[i];
  }

  /** Rows that import to `init`, followed by the export rows of one more
      client, import to `init` plus that client. */
  lemma ImportAfterClientRows(init: seq<Client>, c: Client, a: seq<Row>, uuid: nat -> string)
    requires FoldRows([], a, ClientStep, uuid) == init
    requires ClientsWellFormed(init + [c]) && c.id != ""
    requires forall ct :: ct in c.contacts ==> HasDetails(ct)
    ensures FoldRows([], a + ClientRows(c), ClientStep, uuid) == init + [c]
  {
    var b := ClientRows(c);
    calc {
      FoldRows([], a + b, ClientStep, uuid);
      { FoldRowsConcat([], a, b, ClientStep, uuid); }
      FoldRows(init, b, ClientStep, Shift(uuid, |a|));
      { ImportClientRows(init, c, Shift(uuid, |a|)); }
      init + [c];
    }
  }

  /** One more exportable client on top of a round trip that already
      holds. */
  lemma ExportImportLast(init: seq<Client>, c: Client, uuid: nat -> string)
    requires FoldRows([], ExportClients(init), ClientStep, uuid) == init
    requires ClientsWellFormed(init + [c]) && c.id != ""
    requires forall ct :: ct in c.contacts ==> HasDetails(ct)
    ensures FoldRows([], ExportClients(init + [c]), ClientStep, uuid) == init + [c]
  {
    assert ExportClients(init + [c]) == ExportClients(init) + ClientRows(c) by {
      assert (init + [c])[..|init|] == init;
    }
    ImportAfterClientRows(init, c, ExportClients(init), uuid);
  }

  /** Importing the export of well-formed clients gives them back, whatever
      ids the source would hand out. */
  lemma {:induction false} ExportImportFrom(cs: seq<Client>, uuid: nat -> string)
    requires Exportable(cs)
    ensures FoldRows([], ExportClients(cs), ClientStep, uuid) == cs
    decreases |cs|
  {
    if |cs| > 0 {
      var n := |cs| - 1;
      var init, c := cs[..n], cs[n];
      ExportableInit(cs);
      ExportImportFrom(init, uuid);
      assert c in cs;
      ExportImportLast(init, c, uuid);
    }
  }

  /** The export round trip: re-importing the exported client sheet yields
      the same clients, in the same order, with the same ids, names,
      countries and contacts. */
  lemma ExportImportClients(cs: seq<Client>, uuid: nat -> string)
    requires Exportable(cs)
    ensures ImportClients(ExportClients(cs), uuid) == cs
  {
    ExportImportFrom(cs, uuid);
  }

  // ---------------------------------------------------------------- workbook

  /** The fresh ids `crypto.randomUUID()` hands out, one source per sheet so
      that the ids of one sheet do not depend on how many the others drew. */
  datatype IdSource = IdSource(
    clients: nat -> string,
    partners: nat -> string,
    projects: nat -> string,
    followups: nat -> string,
    comments: nat -> string)

  /** The whole import: each collection is read from its own sheet, a
      missing sheet giving an empty collection, and the result replaces the
      document. */
  function ImportWorkbook(wb: Workbook, ids: IdSource, today: string): (d: Document)
    ensures ClientNamesWellFormed(d.clients) && PartnerNamesWellFormed(d.partners)
    ensures d.products == GroupsOf(Sheet(wb, "Products"))
    ensures |d.projects| == |Sheet(wb, "Projects")|
    ensures |d.followups| == |Sheet(wb, "Follow-ups")|
    ensures |d.projectComments| == |Sheet(wb, "Project Comments")|
    ensures forall p :: p in d.projects ==> RefOk(p.clientId) && RefOk(p.partnerId)
    ensures forall f :: f in d.followups ==> RefOk(f.clientId) && RefOk(f.projectId) && RefOk(f.partnerId)
    ensures forall c :: c in d.projectComments ==> RefOk(c.projectId) && c.kind != ""
  {
    Document(
      ImportClients(Sheet(wb, "Clients"), ids.clients),
      ImportPartners(Sheet(wb, "Partners"), ids.partners),
      ImportProducts(Sheet(wb, "Products")),
      ImportProjects(Sheet(wb, "Projects"), ids.projects),
      ImportFollowups(Sheet(wb, "Follow-ups"), ids.followups),
      ImportComments(Sheet(wb, "Project Comments"), ids.comments, today))
  }

  /** The export: a workbook with the single sheet `Clients`. */
  function ExportWorkbook(d: Document): (wb: Workbook)
    ensures wb.Keys == {"Clients"}
  {
    map["Clients" := ExportClients(d.clients)]
  }

  /** Re-importing an exported workbook restores the clients exactly and
      empties every other collection, since the export writes no other
      sheet. */
  lemma ExportImportWorkbook(d: Document, ids: IdSource, today: string)
    requires Exportable(d.clients)
    ensures ImportWorkbook(ExportWorkbook(d), ids, today) == Document(d.clients, [], [], [], [], [])
  {
    ExportSheets(d);
    ExportImportClients(d.clients, ids.clients);
    ImportEmptySheets(ids, today);
  }

  lemma ExportSheets(d: Document)
    ensures var wb := ExportWorkbook(d);
      && Sheet(wb, "Clients") == ExportClients(d.clients)
      && Sheet(wb, "Partners") == [] && Sheet(wb, "Products") == []
      && Sheet(wb, "Projects") == [] && Sheet(wb, "Follow-ups") == []
      && Sheet(wb, "Project Comments") == []
  {
  }

  lemma ImportEmptySheets(ids: IdSource, today: string)
    ensures ImportPartners([], ids.partners) == [] && ImportProducts([]) == []
    ensures ImportProjects([], ids.projects) == [] && ImportFollowups([], ids.followups) == []
    ensures ImportComments([], ids.comments, today) == []
  {
    assert FoldRows([], [], ProductFoldStep, NoIds) == [];
  }
}

=== FILE: strings.dfy ===
/** The JavaScript string operations the CRM relies on: `trim`,
    `toLowerCase`, `includes`, relational comparison of strings (which also
    stands in for `localeCompare`), and decimal rendering of numbers. */
module Strings {

  /** The characters `String.prototype.trim` strips: ECMAScript WhiteSpace
      and LineTerminator code points. */
  predicate IsSpace(c: char) {
    || c == '\t' || c == '\n' || c == '\U{000B}' || c == '\U{000C}' || c == '\r'
    || c == ' ' || c == '\U{00A0}' || c == '\U{1680}'
    || ('\U{2000}' <= c <= '\U{200A}')
    || c == '\U{2028}' || c == '\U{2029}' || c == '\U{202F}' || c == '\U{205F}'
    || c == '\U{3000}' || c == '\U{FEFF}'
  }

  /** A string with no strippable character at either end. */
  predicate IsTrimmed(s: string) {
    s == "" || (!IsSpace(s[0]) && !IsSpace(s[|s| - 1]))
  }

  predicate AllSpace(s: string) {
    forall k :: 0 <= k < |s| ==> IsSpace(s[k])
  }

  /** Drops the strippable characters at the front. */
  function TrimStart(s: string): (r: string)
    ensures r == "" || !IsSpace(r[0])
    ensures |r| <= |s|
    decreases |s|
  {
    if |s| > 0 && IsSpace(s[0]) then TrimStart(s[1..]) else s
  }

  /** What `TrimStart` drops is a run of strippable characters. */
  lemma {:induction false} TrimStartIsSuffix(s: string)
    ensures exists i :: 0 <= i <= |s| && AllSpace(s[..i]) && TrimStart(s) == s[i..]
    decreases |s|
  {
    if |s| > 0 && IsSpace(s[0]) {
      TrimStartIsSuffix(s[1..]);
      var i :| 0 <= i <= |s[1..]| && AllSpace(s[1..][..i]) && TrimStart(s[1..]) == s[1..][i..];
      assert AllSpace(s[..i + 1]) && TrimStart(s) == s[i + 1..];
    } else {
      assert AllSpace(s[..0]) && s == s[0..];
    }
  }

  /** Drops the strippable characters at the back. */
  function TrimEnd(s: string): (r: string)
    ensures r == "" || !IsSpace(r[|r| - 1])
    ensures |r| <= |s| && r == s[..|r|]
    decreases |s|
  {
    if |s| > 0 && IsSpace(s[|s| - 1]) then TrimEnd(s[..|s| - 1]) else s
  }

  /** What `TrimEnd` drops is a run of strippable characters. */
  lemma {:induction false} TrimEndIsPrefix(s: string)
    ensures exists j :: 0 <= j <= |s| && AllSpace(s[j..]) && TrimEnd(s) == s[..j]
    decreases |s|
  {
    if |s| > 0 && IsSpace(s[|s| - 1]) {
      var init := s[..|s| - 1];
      TrimEndIsPrefix(init);
      var j :| 0 <= j <= |init| && AllSpace(init[j..]) && TrimEnd(init) == init[..j];
      assert s[j..] == init[j..] + [s[|s| - 1]];
      assert TrimEnd(s) == TrimEnd(init);
      assert init[..j] == s[..j];
    } else {
      assert AllSpace(s[|s|..]) && s == s[..|s|];
    }
  }

  /** `String.prototype.trim`: the result is `s` with a run of strippable
      characters removed from each end, and none left at either end. */
  function Trim(s: string): (r: string)
    ensures IsTrimmed(r)
  {
    var t := TrimStart(s);
    var r := TrimEnd(t);
    assert r != "" ==> r[0] == t[0];
    r
  }

  /** What `trim` removes is a run of strippable characters at each end. */
  lemma TrimIsInfix(s: string)
    ensures exists i, j :: 0 <= i <= j <= |s| && AllSpace(s[..i]) && AllSpace(s[j..]) && Trim(s) == s[i..j]
  {
    var t := TrimStart(s);
    TrimStartIsSuffix(s);
    var i :| 0 <= i <= |s| && AllSpace(s[..i]) && t == s[i..];
    TrimEndIsPrefix(t);
    var j :| 0 <= j <= |t| && AllSpace(t[j..]) && TrimEnd(t) == t[..j];
    SuffixSlices(s, i, j);
    assert Trim(s) == s[i..i + j];
    assert 0 <= i <= i + j <= |s| && AllSpace(s[..i]) && AllSpace(s[i + j..]) && Trim(s) == s[i..i + j];
  }

  /** Slicing a suffix is slicing the whole string further on. */
  lemma SuffixSlices(s: string, i: nat, j: nat)
    requires i <= |s| && j <= |s| - i
    ensures s[i..][..j] == s[i..i + j] && s[i..][j..] == s[i + j..]
  {
  }

  lemma {:induction false} TrimStartOfTrimmed(s: string)
    requires s == "" || !IsSpace(s[0])
    ensures TrimStart(s) == s
  {
  }

  lemma {:induction false} TrimEndOfTrimmed(s: string)
    requires s == "" || !IsSpace(s[|s| - 1])
    ensures TrimEnd(s) == s
  {
  }

  /** Trimming leaves an already trimmed string alone, so `Trim` is
      idempotent. */
  lemma TrimOfTrimmed(s: string)
    requires IsTrimmed(s)
    ensures Trim(s) == s
  {
    TrimStartOfTrimmed(s);
    TrimEndOfTrimmed(s);
  }

  lemma TrimIdempotent(s: string)
    ensures Trim(Trim(s)) == Trim(s)
  {
    TrimOfTrimmed(Trim(s));
  }

  /** `toLowerCase` on one character; only ASCII letters are folded. */
  function LowerChar(c: char): char {
    if 'A' <= c <= 'Z' then (c as int + 32) as char else c
  }

  /** `String.prototype.toLowerCase`, character by character. */
  function ToLower(s: string): (r: string)
    ensures |r| == |s|
    decreases |s|
  {
    if |s| == 0 then "" else [LowerChar(s[0])] + ToLower(s[1..])
  }

  /** Each character is folded on its own. */
  lemma {:induction false} ToLowerAt(s: string, k: nat)
    requires k < |s|
    ensures ToLower(s)[k] == LowerChar(s[k])
    decreases |s|
  {
    if k > 0 {
      ToLowerAt(s[1..], k - 1);
    }
  }

  /** Lower-casing twice is lower-casing once. */
  lemma {:induction false} ToLowerIdempotent(s: string)
    ensures ToLower(ToLower(s)) == ToLower(s)
    decreases |s|
  {
    if |s| > 0 {
      ToLowerIdempotent(s[1..]);
      var t := ToLower(s);
      assert t[1..] == ToLower(s[1..]);
    }
  }

  /** `sub` occurs in `s` at position `i`. */
  predicate OccursAt(s: string, sub: string, i: int) {
    0 <= i && i + |sub| <= |s| && s[i..i + |sub|] == sub
  }

  /** `String.prototype.includes`, by scanning the start positions of `s` in
      order; the result is true exactly when `sub` occurs somewhere in `s`. */
  function Includes(s: string, sub: string): (r: bool)
    ensures r <==> exists i :: OccursAt(s, sub, i)
    decreases |s|
  {
    if |sub| > |s| then
      assert forall i :: !OccursAt(s, sub, i);
      false
    else if s[..|sub|] == sub then
      assert OccursAt(s, sub, 0);
      true
    else
      var r := Includes(s[1..], sub);
      assert forall i :: OccursAt(s[1..], sub, i) <==> OccursAt(s, sub, i + 1) by {
        forall i
          ensures OccursAt(s[1..], sub, i) <==> OccursAt(s, sub, i + 1)
        {
          if 0 <= i && i + |sub| <= |s[1..]| {
            assert s[1..][i..i + |sub|] == s[i + 1..i + 1 + |sub|];
          }
        }
      }
      assert !OccursAt(s, sub, 0);
      assert (exists i :: OccursAt(s, sub, i)) ==> exists i :: OccursAt(s[1..], sub, i) by {
        if exists i :: OccursAt(s, sub, i) {
          var i :| OccursAt(s, sub, i);
          assert OccursAt(s[1..], sub, i - 1);
        }
      }
      r
  }

  /** `a < b` on JavaScript strings: lexicographic on character codes, a
      proper prefix before its extensions. The same order replaces
      `localeCompare` throughout the model. */
  predicate Less(a: string, b: string)
    decreases |a|
  {
    if |a| == 0 then |b| > 0
    else if |b| == 0 then false
    else if a[0] != b[0] then a[0] < b[0]
    else Less(a[1..], b[1..])
  }

  predicate LessEq(a: string, b: string) {
    a == b || Less(a, b)
  }

  lemma {:induction false} LessIrreflexive(a: string)
    ensures !Less(a, a)
    decreases |a|
  {
    if |a| > 0 {
      LessIrreflexive(a[1..]);
    }
  }

  lemma {:induction false} LessAsymmetric(a: string, b: string)
    ensures !(Less(a, b) && Less(b, a))
    decreases |a|
  {
    if |a| > 0 && |b| > 0 && a[0] == b[0] {
      LessAsymmetric(a[1..], b[1..]);
    }
  }

  lemma {:induction false} LessTransitive(a: string, b: string, c: string)
    requires Less(a, b) && Less(b, c)
    ensures Less(a, c)
    decreases |a|
  {
    if |a| > 0 && a[0] == b[0] && b[0] == c[0] {
      LessTransitive(a[1..], b[1..], c[1..]);
    }
  }

  /** Any two distinct strings are ordered one way or the other. */
  lemma {:induction false} LessTotal(a: string, b: string)
    ensures a == b || Less(a, b) || Less(b, a)
    decreases |a|
  {
    if |a| > 0 && |b| > 0 && a[0] == b[0] {
      LessTotal(a[1..], b[1..]);
      if a[1..] == b[1..] {
        assert a == [a[0]] + a[1..] && b == [b[0]] + b[1..];
      }
    }
  }

  lemma LessEqTransitive(a: string, b: string, c: string)
    requires LessEq(a, b) && LessEq(b, c)
    ensures LessEq(a, c)
  {
    if a != b && b != c {
      LessTransitive(a, b, c);
    }
  }

  /** Comparing two strings that share a first part of equal length: the
      first parts decide unless they are equal. */
  lemma {:induction false} LessConcat(a1: string, b1: string, a2: string, b2: string)
    requires |a1| == |a2|
    ensures Less(a1 + b1, a2 + b2) <==> Less(a1, a2) || (a1 == a2 && Less(b1, b2))
    decreases |a1|
  {
    if |a1| == 0 {
      assert a1 + b1 == b1 && a2 + b2 == b2;
    } else {
      assert (a1 + b1)[0] == a1[0] && (a2 + b2)[0] == a2[0];
      assert (a1 + b1)[1..] == a1[1..] + b1 && (a2 + b2)[1..] == a2[1..] + b2;
      LessConcat(a1[1..], b1, a2[1..], b2);
      if a1[0] == a2[0] && a1[1..] == a2[1..] {
        assert a1 == a2 by {
          assert a1 == [a1[0]] + a1[1..] && a2 == [a2[0]] + a2[1..];
        }
      }
      if a1 == a2 {
        assert a1[1..] == a2[1..];
      }
    }
  }

  predicate StartsWith(s: string, prefix: string) {
    |prefix| <= |s| && s[..|prefix|] == prefix
  }

  predicate EndsWith(s: string, suffix: string) {
    |suffix| <= |s| && s[|s| - |suffix|..] == suffix
  }

  predicate IsDigit(c: char) {
    '0' <= c <= '9'
  }

  predicate AllDigits(s: string) {
    forall k :: 0 <= k < |s| ==> IsDigit(s[k])
  }

  function DigitChar(d: nat): char
    requires d < 10
  {
    ('0' as int + d) as char
  }

  function DigitValue(c: char): nat
    requires IsDigit(c)
  {
    c as int - '0' as int
  }

  /** `String(n)` for a non-negative integer: its decimal digits, no leading
      zero. */
  function NatToString(n: nat): (r: string)
    ensures |r| >= 1 && AllDigits(r)
    ensures |r| > 1 ==> r[0] != '0'
    decreases n
  {
    if n < 10 then [DigitChar(n)] else NatToString(n / 10) + [DigitChar(n % 10)]
  }

  /** The value of a string of decimal digits (leading zeros allowed). */
  function ParseNat(s: string): nat
    requires AllDigits(s)
    decreases |s|
  {
    if |s| == 0 then 0 else ParseNat(s[..|s| - 1]) * 10 + DigitValue(s[|s| - 1])
  }

  /** Reading the digits back gives the number: `String(n)` loses nothing. */
  lemma {:induction false} ParseNatToString(n: nat)
    ensures ParseNat(NatToString(n)) == n
    decreases n
  {
    if n >= 10 {
      var s := NatToString(n / 10) + [DigitChar(n % 10)];
      assert s[..|s| - 1] == NatToString(n / 10);
      ParseNatToString(n / 10);
    }
  }

  lemma NatToStringInjective(m: nat, n: nat)
    requires NatToString(m) == NatToString(n)
    ensures m == n
  {
    ParseNatToString(m);
    ParseNatToString(n);
  }

  /** A leading zero does not change the value of a digit string. */
  lemma {:induction false} ParseNatLeadingZero(s: string)
    requires AllDigits(s)
    ensures AllDigits("0" + s) && ParseNat("0" + s) == ParseNat(s)
    decreases |s|
  {
    if |s| > 0 {
      var t := "0" + s;
      assert t[..|t| - 1] == "0" + s[..|s| - 1];
      ParseNatLeadingZero(s[..|s| - 1]);
    }
  }
}
